=== FILE: README.md ===
# typecats, modelled in Dafny

typecats builds on attrs classes and cattrs converters. It turns a decorated
class (a *Cat*) into a record that can structure itself from plain data
(`struc`, `try_struc`) and unstructure itself back (`unstruc`). This project
models the following parts and proves properties about them:

- **The attrs shim.** A non-emptiness validator is injected into every field
  that is not a bool, int, float or Decimal and has no default. The model also
  covers the builder's `hash` / `cache_hash` / `init` option checks and
  name-based filtering of mappings.
- **Wildcats.** A Wildcat is a record that keeps undeclared keys in dict
  storage. The model takes the usual case, a class that subclasses `dict`
  (typecats detects Wildcats by attribute, not by that base). The model covers:
  - the guarded `__setitem__`, `__getitem__` and `update`;
  - the `__repr__` and `__bool__` mix-ins;
  - the abstract-method fix-up;
  - enrichment: undeclared source keys are kept in dict storage, and they
    come back on unstructuring.
- **Default stripping** on unstructure: a declared attribute that holds its
  default is dropped, and `Literal`-typed attributes are never dropped. A
  Wildcat attribute holds its default only if its dict storage matches too
  (the code as written ignores the storage; see "## Findings").
- **The converter patch.** The structuring hook appends one `(item, type)`
  frame to a common structuring exception. The unstructuring hook strips
  defaults when the context flag is set, then merges Wildcat extras. The
  patch registers each converter only once.
- **The exception plumbing.** The model covers:
  - frame embedding and extraction (outermost frame first);
  - the default log message;
  - the replaceable module-level exception hook;
  - re-raising basic validation errors as a `SimpleValidationError`.
- **The entry points.** `struc`, `try_struc`, `unstruc`, `make_cat`,
  `set_struc_converter` and `set_unstruc_converter`.
- **`stack_context`.** A context variable is set for the length of a block
  and reset afterwards.
- **Exception-group helpers.** `flattened_exceptions` and
  `filtered_flattened_exceptions`, over a model of `BaseExceptionGroup.split`.
  The model also covers the decision procedure in `raises_in_group`'s
  `__exit__`.

cattrs' generated structure and unstructure functions are not part of the
repository. They are replaced by a small recursive engine (`Patch.Structure`,
`Patch.BaseStructure`, `Patch.Construct`) that behaves as cattrs does with
detailed validation turned off:

- shapes are checked exactly, with no coercion;
- the first failing field's exception propagates, collecting one frame per
  record level;
- a required field that is missing raises TypeError, as `tests/test_cats.py`
  expects of `CatTest.struc` (see "## Left out" for cattrs' own behaviour);
- validators run in field order after every field has been structured.

cattrs 22.1.0, which `setup.py` pins, turns detailed validation on by
default. Then a failure arrives as a `ClassValidationError`, a
`StructuringError`. `struc` hands it to the hook (the default hook logs) and
re-raises it. `Cls.try_struc` is built on a `make_struc` without a hook, so
it returns None and logs nothing. This is what `tests/test_exceptions.py`
expects, and there the code and the tests agree. The model's engine is the
one in force after `set_detailed_validation_mode_not_threadsafe(False)`. In
that mode a failure is a plain TypeError or ValueError, which is not a
`StructuringError`. So `struc` re-raises it without calling the hook, and
`try_struc` sends it to the default handler. `Scenarios.QuuxEntryPoints`
states this outcome for the `Quux` input of `tests/test_exceptions.py`, in
that mode only.

The modules are:

- `Wrappers`, `Values`, `Records`: the data model.
- `Exceptions`, `AttrsShim`, `Wildcat`, `StripDefaults`, `Patch`,
  `StackContext`, `Tc`, `ExceptionGroups`, `PytestUtils`: one module per
  source file.
- `Laws`: round-trip laws that relate structuring and unstructuring.
- `Scenarios`: the nested-failure case from the exception tests.
- `StripScenarios`: the Wildcat default-stripping cases from the stripping tests.

Where the tests and the code disagree, the model follows the code, except
where the code is evidently wrong. Those cases are listed under
"## Findings": the model keeps the code as written in a separate member and
uses the corrected behaviour everywhere else.

- **Key collisions.** `Wildcat.SetItem` and `Wildcat.Update` raise KeyError
  when a key names an attribute, as `block_dangerous_dict_subclass_operations`
  does. Some tests expect a warning and redirection instead. That behaviour
  belongs to `setup_warnings_for_dangerous_dict_subclass_operations`, which
  `typecats/tc.py` imports but `typecats/wildcat.py` does not define. `Tc.MakeCat`
  applies the strict guard.
- **Common exceptions.** The set that `structure_typecat` annotates lives in
  `typecats/types.py` (`CommonStructuringExceptions`), which is not part of
  this model. The model takes it to be the StructuringError family plus the
  five basic validation exceptions (`Exceptions.IsCommon`).
- **Enrichment.** `enrich_structured_wildcat` and
  `enrich_unstructured_wildcat` are not in `typecats/wildcat.py`. They are
  modelled from the tests:
  - the Wildcat's dict storage holds the source's undeclared keys, with raw
    values;
  - unstructuring merges that storage, recursively unstructured, under the
    declared attributes, and the declared attributes win.

## Model

| member | source | states |
|---|---|---|
| AttrsShim.NonEmptyCheck | typecats/attrs_shim.py:110-122 | fails exactly for a non-scalar field with no default whose value is falsy, with a ValueError |
| AttrsShim.ScalarNeverEmpty | typecats/attrs_shim.py:13 | a bool, int, float or Decimal field never fails the emptiness check, 0 and False included |
| AttrsShim.RunValidator | typecats/attrs_shim.py:131-133 | a combined validator passes iff both parts pass, and the first part's failure is the one reported |
| AttrsShim.AddValidator | typecats/attrs_shim.py:125-136 | an existing validator other than the emptiness one is kept and runs first; otherwise the added one replaces it |
| AttrsShim.AddNonEmptyComposes | typecats/attrs_shim.py:125-136 | after adding the emptiness check, validation passes iff the old validator passes and the value is non-empty; adding it to a field whose only validator is already the emptiness check does not stack a second one |
| AttrsShim.HookBuilderBeforeDoingAnything | typecats/attrs_shim.py:139-149 | with `disallow_empties`, exactly the non-scalar fields lacking a default get the validator; without it, or for every other field, nothing changes |
| AttrsShim.InjectNonEmpty | typecats/attrs_shim.py:144-149 | only the validator may change, and it changes iff `disallow_empties` is set, the field is non-scalar with no default, and it does not already carry the emptiness check; a changed field's validator is the emptiness check, alone or after the old one |
| AttrsShim.InjectNonEmptyValidation | typecats/attrs_shim.py:139-149 | after the injection pass, a field validates iff it did before and, with `disallow_empties`, the emptiness rule holds |
| AttrsShim.RunValidatorOnlyReadsDescriptor | typecats/attrs_shim.py:110-122 | a validator's verdict depends only on the field's type and default |
| AttrsShim.HashDecision | typecats/attrs_shim.py:66-89 | an invalid `hash` is a TypeError; `cache_hash` without enabled hashing is a TypeError; a hash is added iff hashing is explicitly or implicitly enabled |
| AttrsShim.CatAttrsPlan | typecats/attrs_shim.py:57-100 | the build succeeds iff `hash` is valid and `cache_hash` has enabled hashing and `init`; the repr, str, cmp and init steps follow their options |
| AttrsShim.GetAttrsNames | typecats/attrs_shim.py:152-157 | the declared field names for an attrs class, and ValueError for any other type |
| AttrsShim.DropNonattrs | typecats/attrs_shim.py:160-163 | keeps exactly the entries whose key is a declared field, with values unchanged |
| Records.DefaultValue | typecats/strip_defaults.py:21-24 | a field's default: its fixed value, or what its factory produces; no value (attrs' NOTHING) exactly when it has no default, while a default of Python's `None` is a value |
| Exceptions.Base | typecats/exceptions.py:22-35 | every class but `Exception` has a direct base one level shallower: `KeyError` and `IndexError` derive from `LookupError`, `BaseValidationError` from `ExceptionGroup`, and cattrs' `ClassValidationError` and `SimpleValidationError` from `BaseValidationError` |
| Exceptions.EveryClassIsException | typecats/tc.py:89-96 | every modelled exception class is a subclass of `Exception`, so `_try_struc`'s `except Exception` catches whatever `except StructuringError` lets through |
| Exceptions.ClassTestsAreSubclassTests | typecats/exceptions.py:22-56 | the basic-validation test is an `except` on the five classes by subclassing, and a StructuringError is exactly a subclass of `BaseValidationError` |
| Exceptions.Embed | typecats/exceptions.py:113-116 | appends exactly one frame to the stack, creating the stack if absent, and leaves the exception otherwise unchanged |
| Exceptions.Extract | typecats/exceptions.py:102-103 | the embedded frames in reverse order, and an empty list when none were embedded |
| Exceptions.ExtractEmbed | typecats/exceptions.py:102-116 | a frame embedded last is extracted first, so the outermost record comes first |
| Exceptions.TypePath | typecats/exceptions.py:67 | the type names of the frames, in order |
| Exceptions.AssembleMessage | typecats/exceptions.py:63-74 | the message names the innermost failing type and item, and adds the type path and input iff the failing item is not the input; an empty stack raises IndexError |
| Exceptions.DefaultLogMessage | typecats/exceptions.py:77-91 | logs nothing iff no frame was embedded, and otherwise the assembled message |
| Exceptions.Consolidate | typecats/exceptions.py:39-56 | without detailed validation, a basic validation error is wrapped in a SimpleValidationError group holding it; anything else passes unchanged |
| Exceptions.ConsolidateUniform | typecats/exceptions.py:24-56 | without detailed validation, every common failure becomes a StructuringError |
| Exceptions.SetDefaultExceptionHook | typecats/exceptions.py:97-99 | the hook slot holds the newly set hook |
| Exceptions.Emit | typecats/exceptions.py:106-110 | the current hook is called with the exception, item, type and stack unchanged |
| Exceptions.HookLastWriterWins | typecats/exceptions.py:94-110 | after two calls to set the hook, emission goes to the second hook |
| Wildcat.IsWildcat | typecats/wildcat.py:12-17 | a class counts as a Wildcat iff it has `__setitem__`, `__getitem__` and `__iter__`, its own or inherited |
| Wildcat.SetItem | typecats/wildcat.py:46-51 | setting a key that names an attribute raises KeyError and changes nothing; otherwise only that key of the dict storage changes |
| Wildcat.GetItem | typecats/wildcat.py:53-61 | reading succeeds iff the key is not an attribute and is stored, and then returns the stored value; otherwise KeyError |
| Wildcat.DelItem | typecats/wildcat.py:33-75 | deletion is not guarded: it removes exactly a stored key, and a missing key fails |
| Wildcat.SetThenDeleteRestores | typecats/wildcat.py:46-51 | setting a fresh non-attribute key and then deleting it restores the instance |
| Wildcat.SetItemKeepsConsistent | typecats/wildcat.py:46-51 | the guarded setter keeps the dict storage disjoint from the attributes |
| Wildcat.FirstCollision | typecats/wildcat.py:64-72 | reports a key that names an attribute, and none iff no key does |
| Wildcat.Update | typecats/wildcat.py:63-75 | `update` uses the positional mapping when it is non-empty and the keywords otherwise; any colliding key raises KeyError before anything is stored; otherwise every pair is stored |
| Wildcat.UpdateMatchesSetItems | typecats/wildcat.py:46-75 | a successful `update` equals setting each pair in turn, and a rejected one would also be rejected pair by pair |
| Wildcat.UpdateDropsKeywords | typecats/wildcat.py:63-68 | as written, `update` given a non-empty mapping and keywords stores only the mapping, and leaves the keywords unchecked and unstored |
| Wildcat.UpdateAll | typecats/wildcat.py:63-75 | the corrected `update` checks the keys of both the mapping and the keywords; any collision raises KeyError and changes nothing |
| Wildcat.UpdateAllMatchesSetItems | typecats/wildcat.py:46-75 | the corrected `update` equals setting the mapping's pairs and then the keyword pairs one at a time, and agrees with the code as written when only one argument is given |
| Wildcat.UpdateAllStoresEveryKey | typecats/wildcat.py:63-75 | after a successful corrected `update`, every key of the mapping and every keyword is stored |
| Wildcat.WildcatBool | typecats/wildcat.py:96-104 | truthy iff the dict storage is non-empty or some declared attribute is truthy |
| Wildcat.WildcatBoolIsTruthiness | typecats/wildcat.py:93-107 | for a consistent Wildcat, the `__bool__` result agrees with the truthiness the model gives Wildcat instances |
| Wildcat.Repr | typecats/wildcat.py:81-88 | corrected (see "## Findings"): the attrs repr, followed by `+Wildcat` and the dict iff the dict is non-empty, whatever the attributes are called |
| Wildcat.ReprAsWritten | typecats/wildcat.py:81-88 | as written: TypeError iff an attribute named `keys` is declared, or the dict is non-empty and one named `items` is; otherwise the corrected repr |
| Wildcat.ReprAsWrittenRaisesOnDictMethodNames | tests/test_wildcats.py:179-191 | for the test's class with attributes `items` and `keys`, the repr as written raises TypeError both before and after a key is stored; corrected, it shows no `+Wildcat` part before and shows it after |
| Wildcat.ReprFollowsStorage | tests/test_wildcats.py:179-191 | an empty dict storage shows only the attrs repr; after setting a non-attribute key the repr gains `+Wildcat` and the new storage, and deleting that key again restores the plain repr |
| Wildcat.StripDefinedAbstractMethods | typecats/wildcat.py:20-30 | removes exactly the abstract methods the class itself defines, and changes nothing else |
| Wildcat.BlockDangerousDictOperations | typecats/wildcat.py:33-75 | installs exactly `__setitem__`, `__getitem__` and `update`, changes nothing else, and leaves a Wildcat a Wildcat |
| Wildcat.MixinWildcatPostAttrsMethods | typecats/wildcat.py:78-109 | adds `__repr__` and `__attrs_repr__`, adds `__bool__` only when the class has none, then clears abstract methods it now defines; a Wildcat stays a Wildcat |
| Wildcat.EnrichStructured | typecats/patch.py:27-28 | the dict storage gains exactly the source's undeclared keys, with their raw values, and the attributes are untouched |
| Wildcat.EnrichUnstructured | typecats/patch.py:45-46 | the output gains the stored undeclared keys, and the declared keys keep their unstructured values |
| StripDefaults.StripAttrDefaults | typecats/strip_defaults.py:27-45 | keeps exactly the keys that are not attributes or whose value differs from the attribute's default |
| StripDefaults.DefaultedNonliteralNames | typecats/strip_defaults.py:48-56 | corrected (see "## Findings"): exactly the attributes that are not Literal-typed and hold their default as a value, a Wildcat's dict storage included |
| Values.AttrsEqReflexive | typecats/attrs_shim.py:63-64 | every value is attrs-equal to itself |
| Values.AttrsEqIgnoresStorage | typecats/attrs_shim.py:63-64 | the generated `__eq__` cannot see dict storage: a record equals itself with any other storage |
| Values.AttrsEqWithoutStorage | typecats/attrs_shim.py:63-64 | when no Wildcat storage is involved, attrs equality is exactly value equality |
| StripDefaults.DefaultedNonliteralNamesAsWritten | typecats/strip_defaults.py:48-56 | as written: exactly the attributes that are not Literal-typed and are attrs-equal to their default, dict storage ignored |
| StripDefaults.AsWrittenAgreesWithoutStorage | typecats/strip_defaults.py:48-56 | every attribute the corrected comparison strips, the code as written strips too; when no attribute or default holds dict storage anywhere, both strip the same attributes |
| StripDefaults.AsWrittenIgnoresStorage | typecats/strip_defaults.py:54 | as written, an attribute holding a Wildcat is stripped or kept regardless of what its dict storage holds |
| StripDefaults.StorageDifferenceKept | tests/test_strip_defaults.py:87-90 | an attribute holding a Wildcat whose dict storage differs from its default's is never stripped |
| StripDefaults.StripAttrsDefaults | typecats/strip_defaults.py:59-67 | for an attrs instance, drops exactly the defaulted non-Literal attributes; anything else is returned unchanged |
| StripDefaults.UndeclaredKeysKept | typecats/strip_defaults.py:59-67 | a key that is not a declared attribute is never stripped |
| StripDefaults.StripIdempotent | typecats/strip_defaults.py:59-67 | stripping twice is the same as stripping once |
| StripDefaults.StrippedIffDefault | typecats/strip_defaults.py:48-67 | an attribute is stripped iff it is not Literal-typed and holds its default |
| StripDefaults.AllDefaultsStripToEmpty | typecats/strip_defaults.py:48-67 | when every key is a defaulted attribute, the result is empty |
| StripDefaults.StructuredComparison | tests/test_strip_defaults.py:110-123 | a nested record equal to its factory default is stripped, compared in structured form, while key-by-key stripping of the unstructured dict keeps it |
| Patch.Structure | typecats/patch.py:21-34 | when every field default is of its field's type, a successful result conforms to the declared type; a failure that is not common carries no frames |
| Patch.DefaultOnlyBuilds | typecats/patch.py:24-32 | a plain record whose one field has a fixed default and no validator structures from an empty mapping to the instance holding that default, whatever its type |
| Patch.IllTypedDefaultAccepted | typecats/patch.py:24-32 | a class with an `int` field defaulting to `None` is well formed though its defaults do not conform, and structuring `{}` gives the instance with that field `None` |
| Patch.StructureTypecat | typecats/patch.py:24-32 | success builds an instance of the class from the source, with exactly the declared attributes, conforming to their types when the defaults do, and a Wildcat holds exactly the undeclared keys; a common failure gets this level's `(item, type)` frame appended last |
| Patch.FirstFieldFailurePropagates | typecats/patch.py:24-32 | the first present field that fails decides the record's error, which is re-raised with the record's frame |
| Patch.EnrichKeepsStructure | typecats/patch.py:26-29 | enrichment keeps the attributes, built from the source, and keeps a conforming instance conforming |
| Patch.BaseStructure | typecats/patch.py:22-26 | success needs a mapping that supplies every required field; each attribute is the structured source value or the default |
| Patch.AssembleFields | typecats/patch.py:22-26 | the constructor receives exactly the declared fields, each the structured value if supplied and the default otherwise |
| Patch.FirstValidatorFailure | typecats/attrs_shim.py:139-149 | no failure iff every field's validator passes on its value |
| Patch.Construct | typecats/patch.py:22-26 | construction succeeds iff no required field is missing and every validator passes, giving an instance with those attribute values and empty dict storage |
| Patch.Unstructure | typecats/patch.py:37-49 | a record becomes a mapping, and a scalar is returned unchanged |
| Patch.UnstructureStripDefaults | typecats/patch.py:41-47 | an attribute's key is dropped iff stripping is on, the class is known and the attribute is a non-Literal one holding its default; every output key comes from an attribute or from the Wildcat storage, unstructured recursively; a plain record emits only attributes |
| Patch.PatchConverterForTypecats | typecats/patch.py:52-65 | an already patched converter is returned unchanged; otherwise both hook factories are registered once and the converter is recorded |
| Patch.PatchIdempotent | typecats/patch.py:52-65 | patching twice is the same as patching once, and the registry never lists a converter twice |
| Laws.UnstructureJson | typecats/patch.py:37-49 | unstructuring data that contains no record returns it unchanged |
| Laws.RoundTrip | typecats/patch.py:21-49 | structuring then unstructuring returns the source whenever every field is supplied and only Wildcats carry undeclared keys |
| Laws.RecordRoundTrip | typecats/patch.py:24-47 | the record case of the round trip: declared keys come back from attributes and undeclared ones from Wildcat storage |
| Laws.UnstructuredKeysFromSource | typecats/patch.py:41-47 | unstructuring a structured record yields no key its source lacked |
| Laws.ExtraKeyRoundTrip | typecats/patch.py:27-28 | an undeclared key of a Wildcat is stored in dict storage and unstructures to its source value |
| Laws.DeclaredKeyRoundTrip | typecats/patch.py:24-26 | a declared key comes back from its attribute |
| StackContext.Exec | typecats/stack_context.py:8-14 | every value the variable is seen to hold, and its final value, is either its starting value or one the program wrote |
| StackContext.ScopeRestores | typecats/stack_context.py:8-14 | after a scope, the variable holds its entry value, whether the body finished or raised |
| StackContext.ScopeReadsValue | typecats/stack_context.py:8-14 | inside a scope the variable reads the given value, whatever it held before |
| StackContext.ScopedProgramRestores | typecats/stack_context.py:8-14 | a program that changes the variable only inside scopes leaves it as it found it |
| StackContext.NestedScopesLifo | typecats/stack_context.py:8-14 | nested scopes unwind last-in first-out |
| StackContext.RaiseUnwindsAllScopes | typecats/stack_context.py:8-14 | an exception inside nested scopes restores the outermost value and skips the rest |
| Tc.Struc | typecats/tc.py:105-107 | a success is an instance of the requested class; the default handler is called once, with the extracted stack, iff the failure is a StructuringError |
| Tc.ModuleTryStruc | typecats/tc.py:83-109 | returns a value iff `struc` succeeds, and then the same value with no hook call; a None result comes with exactly one call to the current default handler, for that input |
| Tc.ClassStruc | typecats/tc.py:228-233 | returns or raises what the module-level `struc` does; calls the given hook at most once, and exactly once iff the failure is a StructuringError |
| Tc.ClassTryStruc | typecats/tc.py:229-237 | returns a value iff `struc` succeeds; emits to the default handler at most once, and exactly once iff the failure is not a StructuringError |
| Tc.Resolve | typecats/tc.py:105-107 | the default-handler hook resolves to the hook currently set, and a direct hook to itself |
| Tc.StrucWithHook | typecats/tc.py:62-69 | returns or re-raises the converter's result; the hook is called once iff a hook is given and the failure is a StructuringError, with the extracted stack |
| Tc.TryStruc | typecats/tc.py:83-96 | returns the value iff structuring succeeded; a StructuringError gives None silently; any other error goes to the default handler once and gives None |
| Tc.ConverterStructure | typecats/tc.py:65 | a successful result is an instance of the requested class, and a non-mapping input fails |
| Tc.EntryPointsAgree | typecats/tc.py:105-109 | `struc` succeeds with x iff `try_struc` returns x, and the per-class methods return what the module-level ones do |
| Tc.StructuringErrorHooks | typecats/tc.py:62-69 | on a StructuringError, `struc` and the module `try_struc` call the hook once, and the per-class `try_struc` stays silent |
| Tc.OtherErrorHooks | typecats/tc.py:83-96 | on any other error, `struc` calls no hook, and both `try_struc` forms emit once to the default handler |
| Tc.TryStrucNone | tests/test_try_struc.py:4-19 | `try_struc` of None is None, at module and class level |
| Tc.Unstruc | typecats/tc.py:74-80 | unstructures with the requested stripping and leaves the context flag as it was |
| Tc.UnstrucStripDefaults | typecats/tc.py:255-262 | unstructures with stripping on and leaves the context flag as it was |
| Tc.UnstrucStripsDefaults | typecats/tc.py:255-262 | the result is a mapping; an attribute is dropped iff its class is known and it is a non-Literal attribute at its default, so a Literal attribute is never dropped; Wildcat storage keys are always kept; values are the recursively unstructured attributes and storage, with nested records stripped too; plain `unstruc` keeps every attribute |
| Tc.UnstrucStripDefaultsKeys | typecats/patch.py:41-47 | the stripped output's keys are exactly the attributes not at their default, plus, for a Wildcat, the stored keys that are not attributes |
| Tc.UnstrucStripDefaultsValue | typecats/patch.py:41-47 | a kept key holds its attribute's value unstructured, or the stored value for a Wildcat key that is not an attribute |
| Tc.InnerUnstrucKeepsOuterFlag | typecats/tc.py:74-80 | a nested unstructure's flag holds only inside it, and the outer flag is visible again afterwards |
| Tc.MakeCat | typecats/tc.py:190-203 | fails iff the attrs options are invalid; otherwise every field gets the emptiness injection, `struc`, `try_struc` and `unstruc` are added, a Wildcat gets the dict guards and mix-ins, and a plain class nothing else |
| Tc.WildcatDetectionStable | typecats/tc.py:190-203 | the finished Cat is a Wildcat iff the class it was built from is, iff it was declared as one, so both `is_wildcat` checks in `make_cat` agree |
| Tc.CatMethodsAreGuarded | typecats/tc.py:190-203 | on a Cat Wildcat, setting `struc`, `try_struc` or `unstruc` as a dict key is refused |
| Tc.SetStrucConverter | typecats/tc.py:215-240 | the structuring converter and the hook are replaced, and nothing else changes |
| Tc.SetUnstrucConverter | typecats/tc.py:243-252 | only the unstructuring converter changes |
| Tc.CatStruc | typecats/tc.py:228-240 | `Cls.struc` returns or raises what `struc` does on the class's structuring converter, and any hook call goes to the class's hook |
| Tc.CatTryStruc | typecats/tc.py:229-240 | `Cls.try_struc` returns a value iff `struc` on the class's structuring converter succeeds |
| Tc.CatUnstruc | typecats/tc.py:243-252 | `obj.unstruc` unstructures on the class's unstructuring converter and leaves the context flag as it was |
| Tc.SetConvertersRebind | typecats/tc.py:215-252 | after `set_struc_converter`, `struc` and `try_struc` behave as the per-class methods built on the new converter and hook, and `unstruc` is unchanged; after `set_unstruc_converter`, `struc` and `try_struc` are unchanged and `unstruc` uses the new converter |
| Scenarios.QuuxFails | tests/test_exceptions.py:9-20 | structuring a list as the nested `Bar` fails, and the error carries the `Bar` frame and then the `Quux` frame |
| Scenarios.QuuxStack | tests/test_exceptions.py:9-24 | the extracted stack lists `Quux` and then `Bar` |
| Scenarios.QuuxTypePathShown | tests/test_exceptions.py:24 | the type path renders as `['Quux', 'Bar']` |
| Scenarios.QuuxLogMessage | tests/test_exceptions.py:22-24 | the default log message starts `Failed to structure Bar ` and shows the type path |
| StripScenarios.CleanWildcatDefaults | tests/test_strip_defaults.py:40-48 | a Wildcat whose attributes all hold their defaults strips to `{}` |
| StripScenarios.AsWrittenStripsWildcatData | tests/test_strip_defaults.py:67-90 | for `Org.struc(dict(id="id2", userClaims=dict(random="a string")))`, the code as written counts `userClaims` as defaulted and the corrected comparison does not |
| StripScenarios.CleanWithWildcatUnderneath | tests/test_strip_defaults.py:67-90 | that `Org` strips to exactly `{id: "id2", userClaims: {random: "a string"}, all: 1}`, the input with the Literal `all` added |
| StripScenarios.CleanWildcatChanged | tests/test_strip_defaults.py:50-53 | `WC(i=4, lst=[1])` with `b["f"] = 2` strips to exactly `{lst: [1], i: 4, f: 2}` |
| Scenarios.QuuxEntryPoints | typecats/tc.py:62-96 | for this TypeError, `struc` re-raises without a hook call, and `try_struc` returns None after one call to the default handler |
| ExceptionGroups.Matches | typecats/exceptiongroups/__init__.py:6-10 | for a class or tuple of classes, an exception matches iff it is an instance of one of them, subclasses included |
| ExceptionGroups.FlattenAll | typecats/exceptiongroups/__init__.py:13-22 | the leaves, depth-first: every element is a leaf of the input, and there are as many as the input has leaves |
| ExceptionGroups.Flattened | typecats/exceptiongroups/__init__.py:13-22 | a group's leaves in order, at least one for a well-formed group |
| ExceptionGroups.FlattenAllComplete | typecats/exceptiongroups/__init__.py:13-22 | every leaf of the input appears in the flattening |
| ExceptionGroups.FlattenAllAppend | typecats/exceptiongroups/__init__.py:16-20 | flattening distributes over concatenation of member lists |
| ExceptionGroups.Split | typecats/exceptiongroups/__init__.py:37 | a matching group goes whole to the matched side; the split keeps groups non-empty |
| ExceptionGroups.DerivedClassKeepsValidation | typecats/exceptiongroups/__init__.py:37 | the class of a split side is an ExceptionGroup subclass, and a validation-error subclass exactly when the original's class is one |
| ExceptionGroups.Derive | typecats/exceptiongroups/__init__.py:37 | a split side keeps the original's message and holds exactly the chosen members; its class is a plain ExceptionGroup unless the original is a validation error, which gives a ClassValidationError |
| ExceptionGroups.SplitSidesAreDerived | typecats/exceptiongroups/__init__.py:37 | a group of any class that is not itself matched splits on ValueError into two rebuilt groups with its message, the ValueError on one side and the TypeError on the other |
| ExceptionGroups.UserGroupSplitsPlain | typecats/exceptiongroups/__init__.py:37 | a group of a user's ExceptionGroup subclass splits into two plain ExceptionGroups |
| ExceptionGroups.ValidationErrorSplitsValidation | typecats/exceptiongroups/__init__.py:37 | a SimpleValidationError splits into two ClassValidationErrors |
| ExceptionGroups.SplitPartitions | typecats/exceptiongroups/__init__.py:33-39 | the matched side's leaves are exactly the leaves that match or sit under a matching group, the rest go to the other side, and order is kept |
| ExceptionGroups.SideAbsentIffNoLeaves | typecats/exceptiongroups/__init__.py:33-39 | a side is None iff no leaf belongs to it |
| ExceptionGroups.FlattenIfSome | typecats/exceptiongroups/__init__.py:25-30 | None stays None, and a group is flattened |
| ExceptionGroups.FilteredFlattened | typecats/exceptiongroups/__init__.py:33-39 | each side is None iff it receives no leaf, and otherwise lists exactly its leaves in depth-first order |
| ExceptionGroups.ExceptionTakesEverything | typecats/exceptiongroups/__init__.py:25-39 | splitting a well-formed group on `Exception` puts the whole group on the matched side, so the first list is every leaf and the second is None |
| ExceptionGroups.BaseClassesMatchSubclasses | typecats/exceptiongroups/__init__.py:6-10 | `LookupError` matches `KeyError` and `IndexError` leaves but not a `TypeError`; `BaseValidationError` matches a `SimpleValidationError` group but not a plain `ExceptionGroup` |
| ExceptionGroups.ConstantPredicates | tests/exceptiongroups/test_exceptiongroups.py:130-147 | a predicate that is always true gives all leaves and None; one that is always false gives None and all leaves |
| ExceptionGroups.SampleFlattens | tests/exceptiongroups/test_exceptiongroups.py:54-61 | the sample group flattens in reading order |
| ExceptionGroups.SampleSplits | tests/exceptiongroups/test_exceptiongroups.py:74-93 | splitting the sample on ValueError and TypeError keeps those five leaves in order and leaves the NameError alone |
| PytestUtils.ExitDecision | typecats/exceptiongroups/pytest_utils.py:60-110 | fails for no exception, then for a bare exception, then when nothing matches; re-raises unexpected members in a new group; fails on several matches unless allowed; otherwise captures the first match, subject to the regex |
| PytestUtils.CapturedIsFirstMatch | typecats/exceptiongroups/pytest_utils.py:87-92 | the captured exception is the first matching leaf of the raised group, depth-first |
| PytestUtils.NoGroupFails | tests/exceptiongroups/test_pytest_utils.py:27-37 | no exception, or a bare one, fails the test |
| PytestUtils.NoMatchFails | tests/exceptiongroups/test_pytest_utils.py:39-42 | a group without a matching leaf fails with "did not raise" |
| PytestUtils.MultipleMatches | tests/exceptiongroups/test_pytest_utils.py:59-69 | two matches fail unless several are allowed, and then the first is captured |
| PytestUtils.ExceptionMatchesWholeGroup | typecats/exceptiongroups/pytest_utils.py:74-92 | expecting `Exception` in a group of a TypeError and a ValueError fails on several matches, and captures the TypeError when several are allowed |
| PytestUtils.UnexpectedReraised | tests/exceptiongroups/test_pytest_utils.py:72-82 | a group mixing expected and unexpected leaves re-raises the unexpected ones in a new group |

## Findings

| source | as written | input that shows it | evidently intended | confidence | as-written member | corrected member |
|---|---|---|---|---|---|---|
| typecats/wildcat.py:63-73 | `update(other_dict, **kwargs)` uses `other_dict` when it is truthy and the keyword arguments only otherwise | `w.update({"a": 1}, b=2)` on a Wildcat without attributes `a` or `b`: `b` is never stored, and `w.update({"a": 1}, struc=2)` is not rejected | `dict.update` semantics with the same guard: check and store both the mapping and the keywords | medium, not executed | Wildcat.UpdateDropsKeywords | Wildcat.UpdateAll |
| typecats/strip_defaults.py:48-56 | `getattr(attrs_obj, name) == default` calls the attrs-generated `__eq__` (typecats/attrs_shim.py:63-64). It compares only declared attributes, so a Wildcat attribute whose attributes hold their defaults counts as defaulted whatever its dict holds | `unstruc_strip_defaults(Org.struc(dict(id="id2", userClaims=dict(random="a string"))))` with the `Org` and `WC` of tests/test_strip_defaults.py: `userClaims` is dropped with its `random` key, where the test expects it kept | compare with the dict storage taken into account, so a Wildcat holding data is never stripped (`StripDefaults.StorageDifferenceKept`, `StripScenarios.CleanWithWildcatUnderneath`) | medium, not executed | StripScenarios.AsWrittenStripsWildcatData | StripDefaults.DefaultedNonliteralNames |
| typecats/wildcat.py:81-88 | `__repr__` calls `self.keys()` and then `self.items()`, and an instance attribute of the same name shadows either dict method | `str(WithDictMethodAttrs([1, 2, 3], {"a", "b"}))` from tests/test_wildcats.py:179-191: `self.keys` is the set `{"a", "b"}`, and calling it raises TypeError | reach the dict methods directly (`dict.keys(self)`, `dict.items(self)`), so the repr works whatever the attributes are called, as that test expects | medium, not executed | Wildcat.ReprAsWrittenRaisesOnDictMethodNames | Wildcat.Repr |

## Left out

- Logging, tracebacks and `logger.exception`: the log message is modelled as a value and emitting as a recorded hook call. The default hook's broad `except` is left out.
- The engine's output with detailed validation turned on: the nested `ClassValidationError` groups are not modelled. So are `set_detailed_validation_mode_not_threadsafe` and its cache clearing.
- Coercion of primitives (for example a string into an int), generics and forward references: these are the cattrs engine's business.
- The `lru_cache` on factory defaults: a factory is modelled as always producing the same value.
- Python's cross-type equality (`1 == True`, `1 == 1.0`) and user-defined `__eq__` or `__bool__`: values compare structurally, with `Values.AttrsEq` modelling attrs' record equality where the code as written relies on it, and truthiness is fixed by `Values.Truthy`.
- Thread and context isolation of `ShouldStripDefaults`: the flag is an explicit parameter, and `StackContext` models the set/reset discipline on its own.
- The compatibility path that structures a Wildcat instance given as input.
- Wildcat.Update: the positional argument is a sequence of distinct-key pairs standing for a mapping. A positional iterable of pairs without `keys()` is not modelled; the source would raise AttributeError on it.
- Exceptions.Consolidate: modelled standalone, because no structuring path in `typecats/tc.py` or `typecats/patch.py` calls `_consolidate_exceptions`.
- `register_struc_hook` and the other thin `register_*` wrappers, `get_default_converter`, and the `TypeCat` example class: these only forward to cattrs.
- Regular-expression matching in `raises_in_group`: it is a predicate parameter. Filling `ExceptionInfo`, `PytestInternalAPIChangedError` and the warning text are left out.
- The mypy plugin, `typecats/cattrs_hooks.py`, `typecats/types.py`, `typecats/_compat.py`, `typecats/__init__.py`, `env_runner.py` and `setup.py` are not part of this model.
- Patch.Construct: a missing required field raises TypeError, as tests/test_cats.py:14-19 expects. cattrs 22.1.0's generated structuring code reads the key itself and raises KeyError first. Both are basic validation exceptions, so the hook and `try_struc` treat them alike, but the class of the raised error is not modelled as cattrs gives it.
- Exceptions.Base: the class hierarchy holds only the classes the core names. `LookupError` sits over `KeyError` and `IndexError`, and cattrs' validation errors sit under `ExceptionGroup`. Every other class, `OtherClass` included, derives directly from `Exception`. Other builtin subclassing (`ArithmeticError`, `UnicodeError`, `BaseException`) is not modelled.
- Exceptions.AssembleMessage: Python's `is not` identity test on the failing item is read as inequality. The two agree here because the outermost frame holds the input itself and every inner frame holds a strict part of it.
- Tc.CatStruc, Tc.CatTryStruc, Tc.CatUnstruc: a converter is represented by the record classes its hooks know. Its other cattrs configuration is not modelled.
- `ExceptionGroups.Split`: a derived group does not carry over the original's traceback, cause or context. Only the class, message and members are modelled.
- ExceptionGroups.Derive: cattrs is not part of this model. Its validation errors are taken to override `derive` so that it builds a ClassValidationError, as cattrs 22.1.0's `BaseValidationError` does. Every other group uses the default `derive` of the "Specification" section of PEP 654, which builds a plain ExceptionGroup. A user subclass that overrides `derive` is not modelled.
- Wildcat.Repr: only a Wildcat that subclasses `dict` is modelled, the branch at typecats/wildcat.py:83. The branch at typecats/wildcat.py:84-87, which prints a private `__wildcat_dict` attribute for a class that is not a dict, is left out. So is that storage.
- Patch.Structure: a structured value is promised to conform to its declared type only when every field default conforms (`Patch.DefaultsConform`). attrs does not check defaults against types, and `Patch.IllTypedDefaultAccepted` shows an `int` field whose `None` default is structured as is.

=== FILE: attrs_shim.dfy ===
/**
 * The typecats shim over attrs' class builder: the non-emptiness validator,
 * its injection into field descriptors before the class is built, the
 * builder's option checks, and name-based filtering of mappings.
 */
module AttrsShim {
  import opened Wrappers
  import opened Values
  import opened Exceptions
  import opened Records

  /** `nonempty_validator`: a field of a non-scalar type without a default
      must not hold a falsy value. */
  function NonEmptyCheck(f: Field, v: Value): (r: Outcome<Exc>)
    ensures r.Fail? <==> !IsScalar(f.ftype) && f.default.NoDefault? && !Truthy(v)
    ensures r.Fail? ==> r.error.Leaf? && r.error.cls == ValueError && r.error.stack.None?
  {
    if IsScalar(f.ftype) then Pass
    else if f.default.NoDefault? && !Truthy(v) then
      Fail(Leaf(ValueError, "Attribute \"" + f.name + "\" cannot have empty value", None))
    else Pass
  }

  /** A bool, int, float or Decimal field never fails the non-emptiness check,
      whatever its value (0, False, Decimal(0) included). */
  lemma ScalarNeverEmpty(f: Field, v: Value)
    requires IsScalar(f.ftype)
    ensures NonEmptyCheck(f, v).Pass?
  {
  }

  /** Running a field validator on a value, as attrs' `__init__` does. */
  function RunValidator(val: Validator, f: Field, v: Value): (r: Outcome<Exc>)
    ensures val.NoValidator? ==> r.Pass?
    ensures val.Both? ==>
      (r.Pass? <==> RunValidator(val.first, f, v).Pass? && RunValidator(val.second, f, v).Pass?)
    ensures val.Both? && RunValidator(val.first, f, v).Fail? ==> r == RunValidator(val.first, f, v)
  {
    match val
    case NoValidator => Pass
    case NonEmpty => NonEmptyCheck(f, v)
    case Custom(accepts, raises) => if accepts(v) then Pass else Fail(Leaf(raises, "", None))
    case Both(first, second) =>
      match RunValidator(first, f, v)
      case Fail(e) => Fail(e)
      case Pass => RunValidator(second, f, v)
  }

  /** `_hack_add_validator`: an existing validator (other than the
      non-emptiness one itself) runs first, then the added one; otherwise the
      added one replaces it. */
  function AddValidator(existing: Validator, added: Validator): (r: Validator)
    ensures existing.NoValidator? || existing.NonEmpty? ==> r == added
    ensures !existing.NoValidator? && !existing.NonEmpty? ==> r.Both? && r.first == existing && r.second == added
  {
    if !existing.NoValidator? && !existing.NonEmpty? then Both(existing, added) else added
  }

  /** Adding the non-emptiness validator: the result passes iff the existing
      validator passes and the value is non-empty, the existing one's failure
      being reported first. Adding it to a field whose only validator is
      already the emptiness check does not stack a second one (where it is
      combined with another validator, adding it again does). */
  lemma AddNonEmptyComposes(existing: Validator, f: Field, v: Value)
    ensures RunValidator(AddValidator(existing, NonEmpty), f, v).Pass?
      <==> RunValidator(existing, f, v).Pass? && NonEmptyCheck(f, v).Pass?
    ensures RunValidator(existing, f, v).Fail? ==>
      RunValidator(AddValidator(existing, NonEmpty), f, v) == RunValidator(existing, f, v)
    ensures existing.NonEmpty? ==> AddValidator(existing, NonEmpty) == NonEmpty
  {
  }

  /** Whether the injection pass gives a field the non-emptiness validator. */
  predicate NeedsNonEmpty(f: Field)
  {
    !IsScalar(f.ftype) && f.default.NoDefault?
  }

  /** `_hook_builder_before_doing_anything`: with `disallow_empties`, every
      non-scalar field lacking a default gets the non-emptiness validator
      added; all other fields, and every field otherwise, are left alone. */
  method HookBuilderBeforeDoingAnything(attrs: seq<Field>, disallowEmpties: bool) returns (r: seq<Field>)
    ensures |r| == |attrs|
    ensures forall i :: 0 <= i < |attrs| ==>
      r[i].name == attrs[i].name && r[i].ftype == attrs[i].ftype && r[i].default == attrs[i].default
    ensures !disallowEmpties ==> r == attrs
    ensures forall i :: 0 <= i < |attrs| && !(disallowEmpties && NeedsNonEmpty(attrs[i])) ==> r[i] == attrs[i]
    ensures forall i :: 0 <= i < |attrs| && disallowEmpties && NeedsNonEmpty(attrs[i]) ==>
      r[i].validator == AddValidator(attrs[i].validator, NonEmpty)
    ensures forall i :: 0 <= i < |attrs| ==> r[i] == InjectNonEmpty(attrs[i], disallowEmpties)
  {
    if !disallowEmpties {
      return attrs;
    }
    r := [];
    var i := 0;
    while i < |attrs|
      invariant 0 <= i <= |attrs|
      invariant |r| == i
      invariant forall j :: 0 <= j < i && !NeedsNonEmpty(attrs[j]) ==> r[j] == attrs[j]
      invariant forall j :: 0 <= j < i && NeedsNonEmpty(attrs[j]) ==>
        r[j] == attrs[j].(validator := AddValidator(attrs[j].validator, NonEmpty))
    {
      var attrib := attrs[i];
      if IsScalar(attrib.ftype) {
        r := r + [attrib];
      } else if attrib.default.NoDefault? {
        r := r + [attrib.(validator := AddValidator(attrib.validator, NonEmpty))];
      } else {
        r := r + [attrib];
      }
      i := i + 1;
    }
  }

  /** One field after the injection pass: only its validator can change, and
      it changes exactly when the field needs the check and does not carry
      it already. */
  function InjectNonEmpty(f: Field, disallowEmpties: bool): (r: Field)
    ensures r.(validator := f.validator) == f
    ensures r != f <==> disallowEmpties && NeedsNonEmpty(f) && !f.validator.NonEmpty?
    ensures disallowEmpties && NeedsNonEmpty(f) ==> r.validator == NonEmpty || r.validator == Both(f.validator, NonEmpty)
  {
    if disallowEmpties && NeedsNonEmpty(f) then f.(validator := AddValidator(f.validator, NonEmpty)) else f
  }

  /** After the injection pass, a field's validation passes iff it passed
      before and, with `disallow_empties`, the non-emptiness rule holds. */
  lemma InjectNonEmptyValidation(f: Field, disallowEmpties: bool, v: Value)
    ensures var g := InjectNonEmpty(f, disallowEmpties);
      RunValidator(g.validator, g, v).Pass? <==>
        RunValidator(f.validator, f, v).Pass? && (disallowEmpties ==> NonEmptyCheck(f, v).Pass?)
  {
    var g := InjectNonEmpty(f, disallowEmpties);
    if disallowEmpties && NeedsNonEmpty(f) {
      AddNonEmptyComposes(f.validator, g, v);
      RunValidatorOnlyReadsDescriptor(f.validator, g, f, v);
    }
  }

  /** A validator's verdict depends only on the field's type and default. */
  lemma {:induction false} RunValidatorOnlyReadsDescriptor(val: Validator, f: Field, g: Field, v: Value)
    requires f.ftype == g.ftype && f.default == g.default
    ensures RunValidator(val, f, v).Pass? == RunValidator(val, g, v).Pass?
  {
    match val
    case Both(first, second) =>
      RunValidatorOnlyReadsDescriptor(first, f, g, v);
      RunValidatorOnlyReadsDescriptor(second, f, g, v);
    case _ =>
  }

  /** The value of attrs' `hash` option. */
  datatype HashOption = HashTrue | HashFalse | HashNone | HashInvalid

  /** The keyword arguments of `cat_attrs` that the builder decisions read;
      `isException` is whether the class derives from BaseException. */
  datatype AttrsOptions = AttrsOptions(
    repr: bool, str: bool, cmp: bool, hash: HashOption, init: bool,
    frozen: bool, cacheHash: bool, autoExc: bool, isException: bool)

  datatype HashAction = LeaveHash | AddHash | MakeUnhashable

  /** The builder calls `cat_attrs.wrap` makes before `build_class`. */
  datatype BuildPlan = BuildPlan(addRepr: bool, addStr: bool, addCmp: bool, hash: HashAction, addInit: bool)

  /** Whether hashing is enabled: explicitly, or implicitly by an
      equality-comparable frozen non-exception class. */
  predicate HashEnabled(o: AttrsOptions)
  {
    o.hash == HashTrue || (o.hash == HashNone && o.cmp && o.frozen && !(o.autoExc && o.isException))
  }

  function CacheHashError(what: string): Exc
  {
    Leaf(TypeError, "Invalid value for cache_hash.  To use hash caching, " + what, None)
  }

  /** The `hash` / `cache_hash` branch of `cat_attrs.wrap`. Python precedence
      makes the add-hash test `hash is True or (hash is None and cmp and frozen
      and not is_exc)`. */
  function HashDecision(o: AttrsOptions): (r: Result<HashAction, Exc>)
    ensures o.hash == HashInvalid ==> r.Err?
    ensures r.Err? ==> r.error.cls == TypeError
    ensures r.Ok? <==> o.hash != HashInvalid && (o.cacheHash ==> HashEnabled(o))
    ensures r.Ok? ==> (r.value == AddHash <==> HashEnabled(o))
    ensures r.Ok? ==> (r.value == LeaveHash <==> o.hash == HashFalse || (o.hash == HashNone && !o.cmp))
  {
    var isExc := o.autoExc && o.isException;
    if o.hash == HashInvalid then
      Err(Leaf(TypeError, "Invalid value for hash.  Must be True, False, or None.", None))
    else if o.hash == HashFalse || (o.hash == HashNone && !o.cmp) then
      if o.cacheHash then Err(CacheHashError("hashing must be either explicitly or implicitly enabled."))
      else Ok(LeaveHash)
    else if o.hash == HashTrue || (o.hash == HashNone && o.cmp && o.frozen && !isExc) then
      Ok(AddHash)
    else if o.cacheHash then Err(CacheHashError("hashing must be either explicitly or implicitly enabled."))
    else Ok(MakeUnhashable)
  }

  /** The option checks in `cat_attrs.wrap`: an invalid `hash` is a TypeError,
      and `cache_hash` is a TypeError unless hashing is enabled and `init` is
      on. */
  function CatAttrsPlan(o: AttrsOptions): (r: Result<BuildPlan, Exc>)
    ensures o.hash == HashInvalid ==> r.Err? && r.error.cls == TypeError
    ensures o.cacheHash ==> (r.Ok? <==> HashEnabled(o) && o.init)
    ensures !o.cacheHash ==> (r.Ok? <==> o.hash != HashInvalid)
    ensures r.Err? ==> r.error.cls == TypeError
    ensures r.Ok? ==> (r.value.hash == AddHash <==> HashEnabled(o))
    ensures r.Ok? ==> (r.value.hash == LeaveHash <==> o.hash == HashFalse || (o.hash == HashNone && !o.cmp))
    ensures r.Ok? ==> r.value.addInit == o.init && r.value.addRepr == o.repr && r.value.addStr == o.str
    ensures r.Ok? ==> (r.value.addCmp <==> o.cmp && !(o.autoExc && o.isException))
  {
    var hashAction :- HashDecision(o);
    if !o.init && o.cacheHash then
      Err(CacheHashError("init must be True."))
    else
      Ok(BuildPlan(o.repr, o.str, o.cmp && !(o.autoExc && o.isException), hashAction, o.init))
  }

  /** A type as `get_attrs_names` sees it: an attrs class or anything else. */
  datatype PyType = AttrsClass(decl: RecordDecl) | NonAttrsType(name: string)

  /** `get_attrs_names`: the declared field names, or ValueError. */
  function GetAttrsNames(t: PyType): (r: Result<set<string>, Exc>)
    ensures r.Err? <==> t.NonAttrsType?
    ensures r.Err? ==> r.error.cls == ValueError
    ensures r.Ok? ==> forall n :: n in r.value <==> exists i :: 0 <= i < |t.decl.fields| && t.decl.fields[i].name == n
  {
    match t
    case NonAttrsType(name) => Err(Leaf(ValueError, "type " + name + " is not an attrs class", None))
    case AttrsClass(decl) => Ok(FieldNames(decl.fields))
  }

  /** `drop_nonattrs`: keep exactly the entries whose key is a declared field. */
  function DropNonattrs(d: map<string, Value>, t: PyType): (r: Result<map<string, Value>, Exc>)
    ensures r.Err? <==> t.NonAttrsType?
    ensures r.Ok? ==> r.value.Keys == d.Keys * FieldNames(t.decl.fields)
    ensures r.Ok? ==> forall k :: k in r.value ==> r.value[k] == d[k]
  {
    var names :- GetAttrsNames(t);
    Ok(map k | k in d && k in names :: d[k])
  }
}

=== FILE: exception_groups.dfy ===
/**
 * Helpers over exception groups: depth-first flattening of a group into its
 * leaf exceptions, and `split` as the "Specification" section of PEP 654
 * describes it (the condition is tried on a group before its members; each
 * side is a new group built by the original's `derive`, which keeps the
 * message but not, in general, the class), then flattening each side.
 */
module ExceptionGroups {
  import opened Wrappers
  import opened Exceptions

  /** An `ExceptionMatch`: a class or tuple of classes (an isinstance test),
      or a predicate called on every exception, groups included. */
  datatype Cond = Classes(classes: set<ExcClass>) | Pred(p: Exc -> bool)

  /** `isinstance(e, c)`: the exception's class derives from `c`; every
      group is moreover an ExceptionGroup (and so an Exception). */
  predicate InstanceOf(e: Exc, c: ExcClass)
  {
    IsSubclass(e.cls, c) || (e.Group? && IsSubclass(ExceptionGroup, c))
  }

  /** `c` or one of its ancestors is in `cs`, walking up the bases. */
  predicate SomeBaseIn(c: ExcClass, cs: set<ExcClass>)
    decreases Depth(c)
  {
    c in cs || (Base(c).Some? && SomeBaseIn(Base(c).value, cs))
  }

  lemma {:induction false} SomeBaseInIsSubclass(c: ExcClass, cs: set<ExcClass>)
    ensures SomeBaseIn(c, cs) <==> exists b :: b in cs && IsSubclass(c, b)
    decreases Depth(c)
  {
    if c !in cs && Base(c).Some? {
      SomeBaseInIsSubclass(Base(c).value, cs);
    }
  }

  /** Whether `cond` selects `e`; for classes, `isinstance` against any of
      them. */
  predicate Matches(cond: Cond, e: Exc)
    ensures cond.Classes? ==> (Matches(cond, e) <==> exists c :: c in cond.classes && InstanceOf(e, c))
  {
    match cond
    case Classes(cs) =>
      SomeBaseInIsSubclass(e.cls, cs);
      SomeBaseInIsSubclass(ExceptionGroup, cs);
      SomeBaseIn(e.cls, cs) || (e.Group? && SomeBaseIn(ExceptionGroup, cs))
    case Pred(p) => p(e)
  }

  /** Groups are never empty (the ExceptionGroup constructor refuses an
      empty sequence), at every depth. */
  predicate WellFormed(e: Exc)
  {
    e.Group? ==> |e.children| > 0 && forall i :: 0 <= i < |e.children| ==> WellFormed(e.children[i])
  }

  /** The number of leaf exceptions in a tree. */
  function LeafCount(e: Exc): (n: nat)
    ensures WellFormed(e) ==> n >= 1
  {
    if e.Leaf? then 1 else LeafCountAll(e.children)
  }

  function LeafCountAll(cs: seq<Exc>): (n: nat)
    ensures (exists i :: 0 <= i < |cs| && WellFormed(cs[i])) ==> n >= 1
  {
    if cs == [] then 0
    else
      var n := LeafCount(cs[0]) + LeafCountAll(cs[1..]);
      assert (exists i :: 1 <= i < |cs| && WellFormed(cs[i])) ==> exists j :: 0 <= j < |cs[1..]| && WellFormed(cs[1..][j]) by {
        if exists i :: 1 <= i < |cs| && WellFormed(cs[i]) {
          var i :| 1 <= i < |cs| && WellFormed(cs[i]);
          assert cs[1..][i - 1] == cs[i];
        }
      }
      n
  }

  /** `x` occurs somewhere in the tree `e` (as `e` itself or below it). */
  predicate Occurs(x: Exc, e: Exc)
  {
    x == e || (e.Group? && OccursIn(x, e.children))
  }

  predicate OccursIn(x: Exc, cs: seq<Exc>)
  {
    cs != [] && (Occurs(x, cs[0]) || OccursIn(x, cs[1..]))
  }

  /** The members of a list of exceptions, groups flattened depth-first and
      left to right. */
  function FlattenAll(cs: seq<Exc>): (r: seq<Exc>)
    ensures |r| == LeafCountAll(cs)
    ensures forall i :: 0 <= i < |r| ==> r[i].Leaf? && OccursIn(r[i], cs)
  {
    if cs == [] then []
    else
      var head := if cs[0].Group? then FlattenAll(cs[0].children) else [cs[0]];
      var tail := FlattenAll(cs[1..]);
      assert forall i :: 0 <= i < |head| ==> Occurs(head[i], cs[0]);
      head + tail
  }

  /** `flattened_exceptions(group)`. */
  function Flattened(g: Exc): (r: seq<Exc>)
    requires g.Group?
    ensures |r| == LeafCount(g)
    ensures forall i :: 0 <= i < |r| ==> r[i].Leaf? && Occurs(r[i], g)
  {
    FlattenAll(g.children)
  }

  /** Every leaf of the tree appears in its flattening. */
  lemma {:induction false} FlattenAllComplete(x: Exc, cs: seq<Exc>)
    requires x.Leaf? && OccursIn(x, cs)
    ensures x in FlattenAll(cs)
    decreases cs, 0
  {
    if Occurs(x, cs[0]) {
      if cs[0].Group? {
        assert x != cs[0];
        FlattenAllComplete(x, cs[0].children);
      }
    } else {
      FlattenAllComplete(x, cs[1..]);
    }
  }

  lemma {:induction false} FlattenAllAppend(a: seq<Exc>, b: seq<Exc>)
    ensures FlattenAll(a + b) == FlattenAll(a) + FlattenAll(b)
  {
    if a != [] {
      assert (a + b)[1..] == a[1..] + b;
      FlattenAllAppend(a[1..], b);
    } else {
      assert a + b == b;
    }
  }

  /** The class of the group `derive` builds. PEP 654's default `derive`
      builds a plain ExceptionGroup whatever the original's class; cattrs'
      validation errors override it to build a ClassValidationError. */
  function DerivedClass(c: ExcClass): ExcClass
  {
    if IsStructuringClass(c) then ClassValidationError else ExceptionGroup
  }

  /** A derived group is an ExceptionGroup, and a validation error exactly
      when the original is one. */
  lemma DerivedClassKeepsValidation(c: ExcClass)
    ensures IsSubclass(DerivedClass(c), ExceptionGroup)
    ensures IsSubclass(DerivedClass(c), BaseValidationError) <==> IsSubclass(c, BaseValidationError)
  {
    StructuringTestIsSubclassTest(Leaf(c, "", None));
    StructuringTestIsSubclassTest(Leaf(DerivedClass(c), "", None));
  }

  /** The group `derive` builds for one side of a split: the original's
      message around the chosen members (the typecats stack attribute is
      not carried over). Only a validation error stays one; any other group
      becomes a plain ExceptionGroup. */
  function Derive(g: Exc, members: seq<Exc>): (r: Exc)
    requires g.Group?
    ensures r.Group? && r.msg == g.msg && r.children == members && r.stack.None?
    ensures r.cls == ExceptionGroup || r.cls == ClassValidationError
    ensures IsStructuringError(r) <==> IsStructuringError(g)
  {
    Group(DerivedClass(g.cls), g.msg, members, None)
  }

  function AsList(o: Option<Exc>): (r: seq<Exc>)
    ensures o.None? ==> r == []
    ensures o.Some? ==> r == [o.value]
  {
    if o.Some? then [o.value] else []
  }

  /** `group.split(cond)`: the whole group matches, or each member is split
      (a nested group recursively, a leaf by the condition), and each side
      that received something becomes a derived group. */
  function Split(cond: Cond, g: Exc): (r: (Option<Exc>, Option<Exc>))
    requires g.Group?
    ensures WellFormed(g) ==> (r.0.Some? ==> WellFormed(r.0.value)) && (r.1.Some? ==> WellFormed(r.1.value))
    ensures Matches(cond, g) ==> r == (Some(g), None)
    decreases g, 1
  {
    if Matches(cond, g) then (Some(g), None)
    else
      var parts := SplitMembers(cond, g.children);
      (if parts.0 == [] then None else Some(Derive(g, parts.0)),
       if parts.1 == [] then None else Some(Derive(g, parts.1)))
  }

  /** Splits each member of a group that did not itself match. */
  function SplitMembers(cond: Cond, cs: seq<Exc>): (r: (seq<Exc>, seq<Exc>))
    ensures (forall i :: 0 <= i < |cs| ==> WellFormed(cs[i])) ==>
      (forall i :: 0 <= i < |r.0| ==> WellFormed(r.0[i])) && (forall i :: 0 <= i < |r.1| ==> WellFormed(r.1[i]))
    decreases cs, 0
  {
    if cs == [] then ([], [])
    else
      var c := cs[0];
      var here := if c.Group? then Split(cond, c) else if Matches(cond, c) then (Some(c), None) else (None, Some(c));
      var rest := SplitMembers(cond, cs[1..]);
      assert (forall i :: 0 <= i < |cs| ==> WellFormed(cs[i])) ==> forall i :: 0 <= i < |cs[1..]| ==> WellFormed(cs[1..][i]);
      (AsList(here.0) + rest.0, AsList(here.1) + rest.1)
  }

  /** Each leaf of `cs`, depth-first, labelled with whether it lands on the
      matched side: it does iff it, or a group enclosing it, matches. */
  function Labelled(cond: Cond, cs: seq<Exc>, inherited: bool): seq<(Exc, bool)>
    decreases cs
  {
    if cs == [] then []
    else
      var c := cs[0];
      var here := inherited || Matches(cond, c);
      (if c.Group? then Labelled(cond, c.children, here) else [(c, here)]) + Labelled(cond, cs[1..], inherited)
  }

  /** The exceptions of a labelled list carrying label `b`, in order. */
  function Keep(ls: seq<(Exc, bool)>, b: bool): (r: seq<Exc>)
    ensures |r| <= |ls|
  {
    if ls == [] then [] else (if ls[0].1 == b then [ls[0].0] else []) + Keep(ls[1..], b)
  }

  /** The exceptions of a labelled list, labels dropped. */
  function Unlabel(ls: seq<(Exc, bool)>): (r: seq<Exc>)
    ensures |r| == |ls|
    ensures forall i :: 0 <= i < |ls| ==> r[i] == ls[i].0
  {
    if ls == [] then [] else [ls[0].0] + Unlabel(ls[1..])
  }

  lemma {:induction false} KeepAppend(a: seq<(Exc, bool)>, b: seq<(Exc, bool)>, x: bool)
    ensures Keep(a + b, x) == Keep(a, x) + Keep(b, x)
  {
    if a == [] {
      assert a + b == b;
    } else {
      var head := if a[0].1 == x then [a[0].0] else [];
      assert (a + b)[0] == a[0] && (a + b)[1..] == a[1..] + b;
      assert Keep(a + b, x) == head + Keep(a[1..] + b, x);
      KeepAppend(a[1..], b, x);
      assert Keep(a, x) == head + Keep(a[1..], x);
    }
  }

  lemma {:induction false} UnlabelAppend(a: seq<(Exc, bool)>, b: seq<(Exc, bool)>)
    ensures Unlabel(a + b) == Unlabel(a) + Unlabel(b)
  {
    if a == [] {
      assert a + b == b;
    } else {
      assert (a + b)[1..] == a[1..] + b;
      UnlabelAppend(a[1..], b);
    }
  }

  /** The labelling visits exactly the flattened leaves, in order. */
  lemma {:induction false} LabelledIsFlattening(cond: Cond, cs: seq<Exc>, inherited: bool)
    ensures Unlabel(Labelled(cond, cs, inherited)) == FlattenAll(cs)
    decreases cs
  {
    if cs != [] {
      var c := cs[0];
      var here := inherited || Matches(cond, c);
      var head := if c.Group? then Labelled(cond, c.children, here) else [(c, here)];
      if c.Group? {
        LabelledIsFlattening(cond, c.children, here);
      }
      LabelledIsFlattening(cond, cs[1..], inherited);
      UnlabelAppend(head, Labelled(cond, cs[1..], inherited));
    }
  }

  /** Under a matching ancestor every leaf is labelled matched. */
  lemma {:induction false} LabelledUnderMatch(cond: Cond, cs: seq<Exc>)
    ensures Keep(Labelled(cond, cs, true), true) == FlattenAll(cs)
    ensures Keep(Labelled(cond, cs, true), false) == []
    decreases cs
  {
    if cs != [] {
      var c := cs[0];
      var head := if c.Group? then Labelled(cond, c.children, true) else [(c, true)];
      if c.Group? {
        LabelledUnderMatch(cond, c.children);
      }
      LabelledUnderMatch(cond, cs[1..]);
      KeepAppend(head, Labelled(cond, cs[1..], true), true);
      KeepAppend(head, Labelled(cond, cs[1..], true), false);
    }
  }

  /** The flattened members of an optional side. */
  function FlattenSide(o: Option<Exc>): seq<Exc>
  {
    FlattenAll(AsList(o))
  }

  /** `split` partitions the leaves: the matched side flattens to the
      matched-labelled leaves and the other side to the rest, each in its
      original depth-first order. */
  lemma {:induction false} SplitPartitions(cond: Cond, g: Exc)
    requires g.Group?
    ensures var r := Split(cond, g);
      var ls := Labelled(cond, g.children, Matches(cond, g));
      FlattenSide(r.0) == Keep(ls, true) && FlattenSide(r.1) == Keep(ls, false)
    decreases g, 1
  {
    var r := Split(cond, g);
    if Matches(cond, g) {
      LabelledUnderMatch(cond, g.children);
      assert FlattenSide(r.0) == FlattenAll(g.children) by {
        assert [g][1..] == [];
      }
    } else {
      var parts := SplitMembers(cond, g.children);
      SplitMembersPartitions(cond, g.children);
      if parts.0 != [] {
        assert FlattenSide(r.0) == FlattenAll(parts.0) by {
          assert [Derive(g, parts.0)][1..] == [];
        }
      }
      if parts.1 != [] {
        assert FlattenSide(r.1) == FlattenAll(parts.1) by {
          assert [Derive(g, parts.1)][1..] == [];
        }
      }
    }
  }

  lemma {:induction false} SplitMembersPartitions(cond: Cond, cs: seq<Exc>)
    ensures var r := SplitMembers(cond, cs);
      var ls := Labelled(cond, cs, false);
      FlattenAll(r.0) == Keep(ls, true) && FlattenAll(r.1) == Keep(ls, false)
    decreases cs, 0
  {
    if cs != [] {
      var c := cs[0];
      var here := if c.Group? then Split(cond, c) else if Matches(cond, c) then (Some(c), None) else (None, Some(c));
      var rest := SplitMembers(cond, cs[1..]);
      var head := if c.Group? then Labelled(cond, c.children, Matches(cond, c)) else [(c, Matches(cond, c))];
      SplitMembersPartitions(cond, cs[1..]);
      if c.Group? {
        SplitPartitions(cond, c);
      } else {
        assert [c][1..] == [];
      }
      assert FlattenAll(AsList(here.0)) == Keep(head, true) && FlattenAll(AsList(here.1)) == Keep(head, false);
      FlattenAllAppend(AsList(here.0), rest.0);
      FlattenAllAppend(AsList(here.1), rest.1);
      KeepAppend(head, Labelled(cond, cs[1..], false), true);
      KeepAppend(head, Labelled(cond, cs[1..], false), false);
    }
  }

  /** A side is absent exactly when no leaf is labelled for it (groups being
      non-empty). */
  lemma SideAbsentIffNoLeaves(cond: Cond, g: Exc)
    requires g.Group? && WellFormed(g)
    ensures var r := Split(cond, g);
      var ls := Labelled(cond, g.children, Matches(cond, g));
      (r.0.None? <==> Keep(ls, true) == []) && (r.1.None? <==> Keep(ls, false) == [])
  {
    var r := Split(cond, g);
    SplitPartitions(cond, g);
    if r.0.Some? {
      assert FlattenSide(r.0) == FlattenAll([r.0.value]);
      assert LeafCount(r.0.value) >= 1;
      assert LeafCountAll([r.0.value]) >= 1;
    }
    if r.1.Some? {
      assert LeafCount(r.1.value) >= 1;
      assert LeafCountAll([r.1.value]) >= 1;
    }
  }

  function FlattenIfSome(o: Option<Exc>): (r: Option<seq<Exc>>)
    requires o.Some? ==> o.value.Group?
    ensures r.None? <==> o.None?
  {
    if o.Some? then Some(Flattened(o.value)) else None
  }

  /** `filtered_flattened_exceptions`: the flattened matched and other sides
      of the split, None for a side the split left empty. */
  function FilteredFlattened(cond: Cond, g: Exc): (r: (Option<seq<Exc>>, Option<seq<Exc>>))
    requires g.Group? && WellFormed(g)
    ensures var ls := Labelled(cond, g.children, Matches(cond, g));
      && (r.0.None? <==> Keep(ls, true) == [])
      && (r.1.None? <==> Keep(ls, false) == [])
      && (r.0.Some? ==> r.0.value == Keep(ls, true))
      && (r.1.Some? ==> r.1.value == Keep(ls, false))
  {
    var s := Split(cond, g);
    SideAbsentIffNoLeaves(cond, g);
    SplitPartitions(cond, g);
    assert s.0.Some? ==> FlattenSide(s.0) == Flattened(s.0.value) by {
      if s.0.Some? {
        assert AsList(s.0)[1..] == [];
        assert s.0.value.Group?;
      }
    }
    assert s.1.Some? ==> FlattenSide(s.1) == Flattened(s.1.value) by {
      if s.1.Some? {
        assert AsList(s.1)[1..] == [];
      }
    }
    (FlattenIfSome(s.0), FlattenIfSome(s.1))
  }

  /** Together the two sides hold every flattened leaf once: matched and
      others interleave back into the flattening. */
  lemma {:induction false} KeepSplitsUnlabel(ls: seq<(Exc, bool)>)
    ensures |Keep(ls, true)| + |Keep(ls, false)| == |Unlabel(ls)|
    ensures forall x :: x in Unlabel(ls) <==> x in Keep(ls, true) || x in Keep(ls, false)
  {
    if ls != [] {
      KeepSplitsUnlabel(ls[1..]);
    }
  }

  /** An always-true predicate matches the whole group; an always-false one
      sends every leaf to the other side. */
  lemma ConstantPredicates(g: Exc)
    requires g.Group? && WellFormed(g)
    ensures FilteredFlattened(Pred(_ => true), g) == (Some(Flattened(g)), None)
    ensures FilteredFlattened(Pred(_ => false), g) == (None, Some(Flattened(g)))
  {
    var yes: Exc -> bool := _ => true;
    var no: Exc -> bool := _ => false;
    LabelledUnderMatch(Pred(yes), g.children);
    LabelledNeverMatched(Pred(no), g.children);
    LabelledIsFlattening(Pred(no), g.children, false);
    var r := FilteredFlattened(Pred(no), g);
    assert LeafCount(g) >= 1;
  }

  /** `filtered_flattened_exceptions(Exception, g)`: a group is itself an
      Exception, so the split takes it whole and every leaf is matched. */
  lemma ExceptionTakesEverything(g: Exc)
    requires g.Group? && WellFormed(g)
    ensures Split(Classes({Exception}), g) == (Some(g), None)
    ensures FilteredFlattened(Classes({Exception}), g) == (Some(Flattened(g)), None)
  {
    var cond := Classes({Exception});
    EveryClassIsException(g.cls);
    assert Matches(cond, g);
    LabelledUnderMatch(cond, g.children);
  }

  /** Matching by a base class selects the subclasses' instances: a
      `LookupError` condition takes a KeyError and an IndexError but not a
      TypeError, and `StructuringError` takes a SimpleValidationError. */
  lemma BaseClassesMatchSubclasses(msg: string, children: seq<Exc>)
    ensures Matches(Classes({LookupError}), Leaf(KeyError, msg, None))
    ensures Matches(Classes({LookupError}), Leaf(IndexError, msg, None))
    ensures !Matches(Classes({LookupError}), Leaf(TypeError, msg, None))
    ensures Matches(Classes({BaseValidationError}), Group(SimpleValidationError, msg, children, None))
    ensures !Matches(Classes({BaseValidationError}), Group(ExceptionGroup, msg, children, None))
  {
    assert !SomeBaseIn(ExceptionGroup, {LookupError}) && !SomeBaseIn(TypeError, {LookupError});
    assert !SomeBaseIn(ExceptionGroup, {BaseValidationError});
  }

  /** A group that does not match as a whole is rebuilt on each side by
      `derive`: its message is kept and its class becomes `DerivedClass`. */
  lemma SplitSidesAreDerived(cls: ExcClass, msg: string)
    requires !IsSubclass(cls, ValueError)
    ensures Split(Classes({ValueError}), Group(cls, msg, [T2, V1], None)) ==
      (Some(Group(DerivedClass(cls), msg, [V1], None)), Some(Group(DerivedClass(cls), msg, [T2], None)))
  {
    var cond := Classes({ValueError});
    var g := Group(cls, msg, [T2, V1], None);
    assert !IsSubclass(ExceptionGroup, ValueError);
    assert !InstanceOf(g, ValueError);
    assert !Matches(cond, g);
    SplitMembersByValueError();
  }

  /** The members TypeError, ValueError split on ValueError. */
  lemma SplitMembersByValueError()
    ensures SplitMembers(Classes({ValueError}), [T2, V1]) == ([V1], [T2])
  {
    var cond := Classes({ValueError});
    assert !Matches(cond, T2) && Matches(cond, V1);
    assert SplitMembers(cond, [V1]) == ([V1], []) by {
      SplitMembersCons(cond, V1, []);
      assert [V1] == [V1] + [];
      assert SplitMembers(cond, []) == ([], []);
    }
    SplitMembersCons(cond, T2, [V1]);
    assert [T2, V1] == [T2] + [V1] && [T2] + [] == [T2];
  }

  /** A user's ExceptionGroup subclass splits into plain ExceptionGroups. */
  lemma UserGroupSplitsPlain()
    ensures Split(Classes({ValueError}), Group(OtherClass("MyGroup"), "m", [T2, V1], None)) ==
      (Some(Group(ExceptionGroup, "m", [V1], None)), Some(Group(ExceptionGroup, "m", [T2], None)))
  {
    SplitSidesAreDerived(OtherClass("MyGroup"), "m");
  }

  /** A validation error splits into ClassValidationErrors. */
  lemma ValidationErrorSplitsValidation()
    ensures Split(Classes({ValueError}), Group(SimpleValidationError, "m", [T2, V1], None)) ==
      (Some(Group(ClassValidationError, "m", [V1], None)), Some(Group(ClassValidationError, "m", [T2], None)))
  {
    SplitSidesAreDerived(SimpleValidationError, "m");
  }

  /** When nothing ever matches, every leaf is labelled other. */
  lemma {:induction false} LabelledNeverMatched(cond: Cond, cs: seq<Exc>)
    requires forall e :: !Matches(cond, e)
    ensures Keep(Labelled(cond, cs, false), true) == []
    ensures Keep(Labelled(cond, cs, false), false) == FlattenAll(cs)
    decreases cs
  {
    if cs != [] {
      var c := cs[0];
      var head := if c.Group? then Labelled(cond, c.children, false) else [(c, false)];
      if c.Group? {
        LabelledNeverMatched(cond, c.children);
      }
      LabelledNeverMatched(cond, cs[1..]);
      KeepAppend(head, Labelled(cond, cs[1..], false), true);
      KeepAppend(head, Labelled(cond, cs[1..], false), false);
    }
  }

  /** The nested group the exception-group tests use. */
  const V1: Exc := Leaf(ValueError, "1", None)
  const T2: Exc := Leaf(TypeError, "2", None)
  const NA: Exc := Leaf(NameError, "a", None)
  const V3: Exc := Leaf(ValueError, "3", None)
  const T21: Exc := Leaf(TypeError, "2.1", None)
  const V21: Exc := Leaf(ValueError, "2.1", None)
  const G3: Exc := Group(ExceptionGroup, "Sample Error 3", [V3], None)
  const G2: Exc := Group(ExceptionGroup, "Sample Error 2", [T2, NA, G3], None)
  const G21: Exc := Group(ExceptionGroup, "Sample Error 2.1", [T21, V21], None)
  const SampleGroup: Exc := Group(ExceptionGroup, "Sample Error", [V1, G2, G21], None)

  lemma FlattenCons(c: Exc, cs: seq<Exc>)
    ensures FlattenAll([c] + cs) == (if c.Group? then FlattenAll(c.children) else [c]) + FlattenAll(cs)
  {
    assert ([c] + cs)[1..] == cs;
  }

  lemma SplitMembersCons(cond: Cond, c: Exc, cs: seq<Exc>)
    requires c.Leaf?
    ensures SplitMembers(cond, [c] + cs) ==
      (if Matches(cond, c) then ([c] + SplitMembers(cond, cs).0, SplitMembers(cond, cs).1)
       else (SplitMembers(cond, cs).0, [c] + SplitMembers(cond, cs).1))
  {
    assert ([c] + cs)[1..] == cs;
    var rest := SplitMembers(cond, cs);
    assert [] + rest.0 == rest.0 && [] + rest.1 == rest.1;
  }

  lemma LabelledCons(cond: Cond, c: Exc, cs: seq<Exc>, inherited: bool)
    ensures Labelled(cond, [c] + cs, inherited) ==
      (if c.Group? then Labelled(cond, c.children, inherited || Matches(cond, c)) else [(c, inherited || Matches(cond, c))])
      + Labelled(cond, cs, inherited)
  {
    assert ([c] + cs)[1..] == cs;
  }

  lemma G2Flattens()
    ensures FlattenAll(G2.children) == [T2, NA, V3]
  {
    FlattenCons(V3, []);
    assert [V3] == [V3] + [];
    FlattenCons(G3, []);
    assert [G3] == [G3] + [];
    FlattenCons(NA, [G3]);
    FlattenCons(T2, [NA, G3]);
    assert [NA] + [G3] == [NA, G3] && [T2] + [NA, G3] == [T2, NA, G3];
  }

  lemma G21Flattens()
    ensures FlattenAll(G21.children) == [T21, V21]
  {
    FlattenCons(V21, []);
    assert [V21] == [V21] + [];
    FlattenCons(T21, [V21]);
    assert [T21] + [V21] == [T21, V21];
  }

  /** The sample flattens in reading order. */
  lemma SampleFlattens()
    ensures Flattened(SampleGroup) == [V1, T2, NA, V3, T21, V21]
  {
    G2Flattens();
    G21Flattens();
    FlattenCons(G21, []);
    assert [G21] == [G21] + [];
    FlattenCons(G2, [G21]);
    FlattenCons(V1, [G2, G21]);
    assert [G2] + [G21] == [G2, G21] && [V1] + [G2, G21] == [V1, G2, G21];
  }

  const SampleLabels: seq<(Exc, bool)> := [(V1, true), (T2, true), (NA, false), (V3, true), (T21, true), (V21, true)]

  lemma SampleWellFormed()
    ensures WellFormed(SampleGroup)
  {
    assert WellFormed(V3) && WellFormed(G3) && WellFormed(G2) && WellFormed(G21);
  }

  const ValueOrType: Cond := Classes({ValueError, TypeError})

  lemma G2Labelling()
    ensures Labelled(ValueOrType, G2.children, false) == [(T2, true), (NA, false), (V3, true)]
  {
    var cond := ValueOrType;
    assert !Matches(cond, G3) && Matches(cond, V3) && Matches(cond, T2) && !Matches(cond, NA);
    LabelledCons(cond, V3, [], false);
    assert [V3] == [V3] + [];
    LabelledCons(cond, G3, [], false);
    assert [G3] == [G3] + [];
    LabelledCons(cond, NA, [G3], false);
    LabelledCons(cond, T2, [NA, G3], false);
    assert [NA] + [G3] == [NA, G3] && [T2] + [NA, G3] == [T2, NA, G3];
  }

  lemma G21Labelling()
    ensures Labelled(ValueOrType, G21.children, false) == [(T21, true), (V21, true)]
  {
    var cond := ValueOrType;
    assert Matches(cond, T21) && Matches(cond, V21);
    LabelledCons(cond, V21, [], false);
    assert [V21] == [V21] + [];
    LabelledCons(cond, T21, [V21], false);
    assert [T21] + [V21] == [T21, V21];
  }

  /** The labelling of the sample's leaves by ValueError-or-TypeError. */
  lemma SampleLabelling()
    ensures Labelled(ValueOrType, SampleGroup.children, false) == SampleLabels
  {
    var cond := ValueOrType;
    assert !Matches(cond, G2) && !Matches(cond, G21) && Matches(cond, V1);
    G2Labelling();
    G21Labelling();
    LabelledCons(cond, G21, [], false);
    assert [G21] == [G21] + [];
    LabelledCons(cond, G2, [G21], false);
    LabelledCons(cond, V1, [G2, G21], false);
    assert [G2] + [G21] == [G2, G21] && [V1] + [G2, G21] == [V1, G2, G21];
  }

  lemma SampleKeep()
    ensures Keep(SampleLabels, true) == [V1, T2, V3, T21, V21]
    ensures Keep(SampleLabels, false) == [NA]
  {
    var ls := SampleLabels;
    assert ls[6..] == [];
    assert Keep(ls[5..], true) == [V21] && Keep(ls[5..], false) == [] by { assert ls[5..][1..] == ls[6..]; }
    assert Keep(ls[4..], true) == [T21, V21] && Keep(ls[4..], false) == [] by { assert ls[4..][1..] == ls[5..]; }
    assert Keep(ls[3..], true) == [V3, T21, V21] && Keep(ls[3..], false) == [] by { assert ls[3..][1..] == ls[4..]; }
    assert Keep(ls[2..], true) == [V3, T21, V21] && Keep(ls[2..], false) == [NA] by { assert ls[2..][1..] == ls[3..]; }
    assert Keep(ls[1..], true) == [T2, V3, T21, V21] && Keep(ls[1..], false) == [NA] by { assert ls[1..][1..] == ls[2..]; }
  }

  /** Splitting the sample on ValueError and TypeError keeps those five
      leaves in order and leaves NameError alone on the other side. */
  lemma SampleSplits()
    ensures WellFormed(SampleGroup)
    ensures FilteredFlattened(ValueOrType, SampleGroup) ==
      (Some([V1, T2, V3, T21, V21]), Some([NA]))
  {
    SampleWellFormed();
    SampleLabelling();
    SampleKeep();
    assert !Matches(ValueOrType, SampleGroup);
  }
}

=== FILE: exceptions.dfy ===
/**
 * Exceptions as values, and the typecats exception context: the stack of
 * (item, type) frames attached to a structuring failure as it propagates
 * outward, the diagnostic message built from it, and the process-wide hook
 * slot that receives failures.
 */
module Exceptions {
  import opened Wrappers
  import opened Values

  /** The exception classes the model distinguishes. `OtherClass` stands for
      any other class deriving directly from `Exception`. The last four are
      exception groups; the validation ones are cattrs' `BaseValidationError`
      family, which typecats calls `StructuringError`. */
  datatype ExcClass =
    | Exception
    | TypeError
    | AttributeError
    | ValueError
    | LookupError
    | IndexError
    | KeyError
    | AssertionError
    | NameError
    | RuntimeError
    | OtherClass(name: string)
    | ExceptionGroup
    | BaseValidationError
    | ClassValidationError
    | SimpleValidationError

  /** How far below `Exception` a class sits. */
  function Depth(c: ExcClass): nat
  {
    match c
    case Exception => 0
    case IndexError => 2
    case KeyError => 2
    case BaseValidationError => 2
    case ClassValidationError => 3
    case SimpleValidationError => 3
    case _ => 1
  }

  /** The direct base class: `IndexError` and `KeyError` derive from
      `LookupError`, cattrs' `BaseValidationError` from `ExceptionGroup`,
      the two validation errors from `BaseValidationError`, and every other
      class from `Exception`, the root. */
  function Base(c: ExcClass): (r: Option<ExcClass>)
    ensures r.None? <==> c == Exception
    ensures r.Some? ==> Depth(r.value) + 1 == Depth(c)
  {
    match c
    case Exception => None
    case IndexError => Some(LookupError)
    case KeyError => Some(LookupError)
    case BaseValidationError => Some(ExceptionGroup)
    case ClassValidationError => Some(BaseValidationError)
    case SimpleValidationError => Some(BaseValidationError)
    case _ => Some(Exception)
  }

  /** `issubclass(c, base)`: `base` is `c` or one of its ancestors. */
  predicate IsSubclass(c: ExcClass, base: ExcClass)
    decreases Depth(c)
  {
    c == base || (Base(c).Some? && IsSubclass(Base(c).value, base))
  }

  /** Every class modelled is an `Exception`, so `except Exception` catches
      every failure of the model. */
  lemma {:induction false} EveryClassIsException(c: ExcClass)
    ensures IsSubclass(c, Exception)
    decreases Depth(c)
  {
    if c != Exception {
      EveryClassIsException(Base(c).value);
    }
  }

  /** One entry of the typecats stack: the item that failed to structure and
      the name of the type it was being structured as. */
  datatype Frame = Frame(item: Value, typeName: string)

  /** A raised exception: a single exception or a group of exceptions. The
      `stack` is the `__typecats_exc_stack` attribute, absent until the first
      frame is embedded. */
  datatype Exc =
    | Leaf(cls: ExcClass, msg: string, stack: Option<seq<Frame>>)
    | Group(cls: ExcClass, msg: string, children: seq<Exc>, stack: Option<seq<Frame>>)

  /** `_BASIC_VALIDATION_EXCEPTIONS`: what cattrs raises when detailed
      validation is off. */
  const BasicValidationClasses: set<ExcClass> := {TypeError, AttributeError, ValueError, IndexError, KeyError}

  /** `except _BASIC_VALIDATION_EXCEPTIONS` catches `c`. */
  predicate IsBasicValidation(c: ExcClass)
  {
    c in BasicValidationClasses
  }

  /** `c` is cattrs' `BaseValidationError` or one of its subclasses. */
  predicate IsStructuringClass(c: ExcClass)
  {
    c == BaseValidationError || c == ClassValidationError || c == SimpleValidationError
  }

  /** `isinstance(e, StructuringError)`, i.e. cattrs' `BaseValidationError`. */
  predicate IsStructuringError(e: Exc)
  {
    IsStructuringClass(e.cls)
  }

  /** The two class tests above are `isinstance` tests: no modelled class
      derives from a basic validation class without being one, and exactly
      the validation-error classes derive from `BaseValidationError`
      (`LookupError` itself, for one, is not caught as basic). */
  lemma ClassTestsAreSubclassTests(c: ExcClass, e: Exc)
    ensures IsBasicValidation(c) <==> exists b :: b in BasicValidationClasses && IsSubclass(c, b)
    ensures IsStructuringError(e) <==> IsSubclass(e.cls, BaseValidationError)
  {
    BasicTestIsSubclassTest(c);
    StructuringTestIsSubclassTest(e);
  }

  lemma BasicTestIsSubclassTest(c: ExcClass)
    ensures IsBasicValidation(c) <==> exists b :: b in BasicValidationClasses && IsSubclass(c, b)
  {
    if IsBasicValidation(c) {
      assert IsSubclass(c, c);
    } else {
      forall b | b in BasicValidationClasses
        ensures !IsSubclass(c, b)
      {
        if IsSubclass(c, b) {
          BasicClassesAreLeaves(c, b);
        }
      }
    }
  }

  /** No modelled class derives from a basic validation class but the
      class itself. */
  lemma BasicClassesAreLeaves(c: ExcClass, b: ExcClass)
    requires b in BasicValidationClasses && IsSubclass(c, b)
    ensures c == b
  {
    if c != b {
      var p := Base(c).value;
      SubclassNoShallower(p, b);
      if p == BaseValidationError {
        SubclassNoShallower(ExceptionGroup, b);
      }
    }
  }

  lemma StructuringTestIsSubclassTest(e: Exc)
    ensures IsStructuringError(e) <==> IsSubclass(e.cls, BaseValidationError)
  {
    if IsSubclass(e.cls, BaseValidationError) {
      SubclassNoShallower(e.cls, BaseValidationError);
    }
  }

  /** A base class never sits deeper than its subclass, and one at the same
      depth is the class itself. */
  lemma {:induction false} SubclassNoShallower(c: ExcClass, b: ExcClass)
    requires IsSubclass(c, b)
    ensures Depth(b) <= Depth(c)
    ensures Depth(b) == Depth(c) ==> c == b
    decreases Depth(c)
  {
    if c != b {
      SubclassNoShallower(Base(c).value, b);
    }
  }

  /** The exceptions the structuring hook annotates with a frame: the
      structuring error family plus the basic validation exceptions. */
  predicate IsCommon(e: Exc)
  {
    IsStructuringError(e) || IsBasicValidation(e.cls)
  }

  /** The frames embedded so far, innermost first (an empty list when the
      attribute was never set). */
  function Frames(e: Exc): seq<Frame>
  {
    match e.stack
    case None => []
    case Some(s) => s
  }

  function Reverse<T>(s: seq<T>): (r: seq<T>)
    ensures |r| == |s|
    ensures forall i :: 0 <= i < |s| ==> r[i] == s[|s| - 1 - i]
  {
    if s == [] then [] else Reverse(s[1..]) + [s[0]]
  }

  /** `_embed_exception_info`: append one frame to the exception's stack,
      creating the stack first if absent. The exception is otherwise the same
      object, re-raised unchanged in kind. */
  function Embed(e: Exc, item: Value, typeName: string): (r: Exc)
    ensures Frames(r) == Frames(e) + [Frame(item, typeName)]
    ensures r.stack.Some?
    ensures r.cls == e.cls && r.msg == e.msg && r.Leaf? == e.Leaf?
    ensures r.Group? ==> r.children == e.children
    ensures IsCommon(r) == IsCommon(e) && IsStructuringError(r) == IsStructuringError(e)
  {
    e.(stack := Some(Frames(e) + [Frame(item, typeName)]))
  }

  /** `_extract_typecats_stack_if_any`: the embedded frames, outermost first. */
  function Extract(e: Exc): (r: seq<Frame>)
    ensures e.stack.None? ==> r == []
    ensures |r| == |Frames(e)|
    ensures forall i :: 0 <= i < |r| ==> r[i] == Frames(e)[|r| - 1 - i]
  {
    Reverse(Frames(e))
  }

  /** Embedding then extracting puts the new frame at the front: an enclosing
      level is read before the levels it contains. */
  lemma ExtractEmbed(e: Exc, item: Value, typeName: string)
    ensures Extract(Embed(e, item, typeName)) == [Frame(item, typeName)] + Extract(e)
  {
    var s := Frames(e);
    var r := Extract(Embed(e, item, typeName));
    var expected := [Frame(item, typeName)] + Extract(e);
    assert |r| == |expected|;
    forall i | 0 <= i < |r|
      ensures r[i] == expected[i]
    {
      assert Frames(Embed(e, item, typeName)) == s + [Frame(item, typeName)];
    }
  }

  /** The type path: the frame type names in the order given. */
  function TypePath(stack: seq<Frame>): (r: seq<string>)
    ensures |r| == |stack|
    ensures forall i :: 0 <= i < |stack| ==> r[i] == stack[i].typeName
  {
    if stack == [] then [] else [stack[0].typeName] + TypePath(stack[1..])
  }

  function JoinQuoted(names: seq<string>): string
  {
    if names == [] then ""
    else if |names| == 1 then "'" + names[0] + "'"
    else "'" + names[0] + "', " + JoinQuoted(names[1..])
  }

  /** Python's `repr` of a list of type names, e.g. `['Quux', 'Bar']`. */
  function ShowNames(names: seq<string>): string
  {
    "[" + JoinQuoted(names) + "]"
  }

  /** The head of the diagnostic: it names the innermost failing type and item. */
  function MessageHead(render: Value -> string, failure: Frame): string
  {
    "Failed to structure " + failure.typeName + " from item <" + render(failure.item) + ">"
  }

  /** The context suffix, only used when the failing item is not the input. */
  function MessageContext(render: Value -> string, item: Value, stack: seq<Frame>): string
  {
    " at type path " + ShowNames(TypePath(stack)) + " within item " + render(item)
  }

  /** `_assemble_default_exception_msg`, with the extracted (outermost-first)
      stack. The textual form of items is Python's `str`, supplied as
      `render`. An empty stack makes `typecats_stack[-1]` raise IndexError.
      Python tests `failure_item is not item`, an identity test; values have
      no identity here, so it is read as inequality. The two agree on every
      stack structuring builds: the outermost frame holds the input itself,
      and each inner frame holds a strict part of it, which cannot equal
      the whole. */
  function AssembleMessage(render: Value -> string, item: Value, stack: seq<Frame>): (r: Result<string, Exc>)
    ensures r.Err? <==> stack == []
    ensures r.Err? ==> r.error.cls == IndexError
    ensures r.Ok? ==>
      var failure := stack[|stack| - 1];
      var head := MessageHead(render, failure);
      && head <= r.value
      && (r.value == head <==> failure.item == item)
      && (failure.item != item ==> r.value[|head|..] == MessageContext(render, item, stack))
  {
    if stack == [] then
      Err(Leaf(IndexError, "list index out of range", None))
    else
      var failure := stack[|stack| - 1];
      var context := if failure.item != item then MessageContext(render, item, stack) else "";
      Ok(MessageHead(render, failure) + context)
  }

  /** `_default_log_structure_exception`: the warning it logs, or nothing when
      no frame was ever embedded. */
  function DefaultLogMessage(render: Value -> string, item: Value, stack: seq<Frame>): (r: Option<string>)
    ensures r.None? <==> stack == []
    ensures r.Some? ==> AssembleMessage(render, item, stack) == Ok(r.value)
  {
    if stack == [] then None
    else
      match AssembleMessage(render, item, stack)
      case Ok(msg) => Some(msg)
      case Err(_) => None
  }

  /** `_consolidate_exceptions`: with detailed validation off, a basic
      validation exception is re-raised inside a SimpleValidationError;
      anything else leaves the block unchanged. */
  function Consolidate<T>(detailed: bool, r: Result<T, Exc>): (c: Result<T, Exc>)
    ensures r.Ok? ==> c == r
    ensures r.Err? && IsBasicValidation(r.error.cls) && !detailed ==>
      c.Err? && c.error.cls == SimpleValidationError && c.error.Group? && c.error.children == [r.error]
    ensures r.Err? && (detailed || !IsBasicValidation(r.error.cls)) ==> c == r
  {
    match r
    case Ok(_) => r
    case Err(e) =>
      if IsBasicValidation(e.cls) && !detailed then
        Err(Group(SimpleValidationError, "While structuring without detailed validation", [e], None))
      else r
  }

  /** With detailed validation off, every common structuring failure leaves
      the block as a StructuringError: one catchable family. */
  lemma ConsolidateUniform<T>(r: Result<T, Exc>)
    requires r.Err? && IsCommon(r.error)
    ensures Consolidate(false, r).Err? && IsStructuringError(Consolidate(false, r).error)
  {
  }

  /** The hook installed in the process-wide slot. */
  datatype Hook = DefaultLogHook | UserHook(id: nat)

  /** The process-wide `_EXCEPTION_HOOK` slot. */
  datatype HookSlot = HookSlot(current: Hook)

  const InitialHookSlot: HookSlot := HookSlot(DefaultLogHook)

  /** One invocation of a hook, with the arguments it received. */
  datatype HookCall = HookCall(hook: Hook, exc: Exc, item: Value, typeName: string, stack: seq<Frame>)

  /** `set_default_exception_hook`. */
  function SetDefaultExceptionHook(slot: HookSlot, hook: Hook): (r: HookSlot)
    ensures r.current == hook
  {
    HookSlot(hook)
  }

  /** `_emit_exception_to_default_handler`: invoke whatever hook is installed. */
  function Emit(slot: HookSlot, e: Exc, item: Value, typeName: string, stack: seq<Frame>): (r: HookCall)
    ensures r.hook == slot.current
    ensures r.exc == e && r.item == item && r.typeName == typeName && r.stack == stack
  {
    HookCall(slot.current, e, item, typeName, stack)
  }

  /** The slot is last-writer-wins: after two installs, emission reaches the
      second hook whatever the first was. */
  lemma HookLastWriterWins(slot: HookSlot, first: Hook, second: Hook, e: Exc, item: Value, typeName: string, stack: seq<Frame>)
    ensures Emit(SetDefaultExceptionHook(SetDefaultExceptionHook(slot, first), second), e, item, typeName, stack).hook == second
  {
  }
}

=== FILE: laws.dfy ===
/**
 * Laws relating the structure and unstructure hooks of a patched converter:
 * unstructured data passes through unstructuring unchanged, and structuring
 * then unstructuring gives back the source whenever no information is lost
 * (every field supplied, and no undeclared key on a class that is not a
 * Wildcat).
 */
module Laws {
  import opened Wrappers
  import opened Values
  import opened Records
  import Wildcat
  import opened Patch

  /** Unstructuring data that holds no record instance is the identity. */
  lemma {:induction false} UnstructureJson(schema: Schema, v: Value, strip: bool)
    requires Json(v)
    ensures Unstructure(schema, v, strip) == v
  {
    match v
    case VList(items) =>
      forall i | 0 <= i < |items|
        ensures Unstructure(schema, items[i], strip) == items[i]
      {
        UnstructureJson(schema, items[i], strip);
      }
      assert Unstructure(schema, v, strip).items == items;
    case VMap(m) =>
      forall k | k in m
        ensures Unstructure(schema, m[k], strip) == m[k]
      {
        UnstructureJson(schema, m[k], strip);
      }
      assert Unstructure(schema, v, strip).entries == m;
    case _ =>
  }

  /** Structuring `v` as `t` keeps everything `v` says: every record level
      supplies all its fields, and only a Wildcat level carries keys it does
      not declare. */
  predicate Lossless(schema: Schema, t: FieldType, v: Value)
    decreases v, TypeSize(t)
  {
    match t
    case TList(e) => v.VList? ==> forall i :: 0 <= i < |v.items| ==> Lossless(schema, e, v.items[i])
    case TOptional(inner) => v.VNone? || Lossless(schema, inner, v)
    case TRecord(n) =>
      && n in schema
      && v.VMap?
      && FieldNames(schema[n].fields) <= v.entries.Keys
      && (schema[n].kind == Plain ==> v.entries.Keys <= FieldNames(schema[n].fields))
      && forall i :: 0 <= i < |schema[n].fields| && schema[n].fields[i].name in v.entries ==>
           Lossless(schema, schema[n].fields[i].ftype, v.entries[schema[n].fields[i].name])
    case _ => true
  }

  /** `unstruc(struc(d)) == d`: a successful lossless structuring of
      unstructured data is undone by unstructuring (without stripping). */
  lemma {:induction false} RoundTrip(schema: Schema, t: FieldType, v: Value)
    requires WellFormed(schema) && Json(v) && Lossless(schema, t, v)
    requires Structure(schema, t, v).Ok?
    ensures Unstructure(schema, Structure(schema, t, v).value, false) == v
    decreases v, TypeSize(t) + 2
  {
    match t
    case TList(e) =>
      var y := Structure(schema, t, v).value;
      var rs := seq(|v.items|, i requires 0 <= i < |v.items| => Structure(schema, e, v.items[i]));
      assert y == VList(seq(|rs|, i requires 0 <= i < |rs| => rs[i].value));
      forall i | 0 <= i < |v.items|
        ensures Unstructure(schema, y.items[i], false) == v.items[i]
      {
        assert rs[i].Ok?;
        RoundTrip(schema, e, v.items[i]);
      }
      assert Unstructure(schema, y, false).items == v.items;
    case TOptional(inner) =>
      if !v.VNone? {
        RoundTrip(schema, inner, v);
      }
    case TRecord(n) =>
      RecordRoundTrip(schema, schema[n], v);
    case _ =>
      UnstructureJson(schema, v, false);
  }

  /** The record case of `RoundTrip`: declared keys come back from the
      attributes, undeclared ones from the Wildcat's dict storage. */
  lemma {:induction false} RecordRoundTrip(schema: Schema, decl: RecordDecl, v: Value)
    requires WellFormed(schema) && decl.name in schema && schema[decl.name] == decl
    requires Json(v) && Lossless(schema, TRecord(decl.name), v)
    requires StructureTypecat(schema, decl, v).Ok?
    ensures Unstructure(schema, StructureTypecat(schema, decl, v).value, false) == v
    decreases v, 1
  {
    var m := v.entries;
    var y := StructureTypecat(schema, decl, v).value;
    var o := y.obj;
    var u := UnstructureStripDefaults(schema, o, false);
    assert Unstructure(schema, y, false) == VMap(u);
    forall k | k in m
      ensures k in u && u[k] == m[k]
    {
      if k in FieldNames(decl.fields) {
        DeclaredKeyRoundTrip(schema, decl, v, k);
      } else {
        ExtraKeyRoundTrip(schema, decl, v, k);
      }
    }
    UnstructuredKeysFromSource(schema, decl, v);
    assert u == m;
  }

  /** Unstructuring a structured record yields no key its source lacked. */
  lemma UnstructuredKeysFromSource(schema: Schema, decl: RecordDecl, v: Value)
    requires WellFormed(schema) && decl.name in schema && schema[decl.name] == decl
    requires Lossless(schema, TRecord(decl.name), v)
    requires StructureTypecat(schema, decl, v).Ok?
    ensures UnstructureStripDefaults(schema, StructureTypecat(schema, decl, v).value.obj, false).Keys <= v.entries.Keys
  {
    var o := StructureTypecat(schema, decl, v).value.obj;
    assert o.fields.Keys == FieldNames(decl.fields);
    assert o.extras.Keys <= v.entries.Keys;
  }

  /** An undeclared key of a Wildcat comes back from its dict storage. */
  lemma ExtraKeyRoundTrip(schema: Schema, decl: RecordDecl, v: Value, k: string)
    requires WellFormed(schema) && decl.name in schema && schema[decl.name] == decl
    requires Json(v) && Lossless(schema, TRecord(decl.name), v)
    requires StructureTypecat(schema, decl, v).Ok?
    requires k in v.entries && k !in FieldNames(decl.fields)
    ensures var o := StructureTypecat(schema, decl, v).value.obj;
      k in o.extras && k !in o.fields && Unstructure(schema, o.extras[k], false) == v.entries[k]
  {
    var o := StructureTypecat(schema, decl, v).value.obj;
    assert decl.kind == Wildcat;
    assert o.extras[k] == v.entries[k];
    UnstructureJson(schema, v.entries[k], false);
  }

  /** A declared key of a record comes back from its attribute. */
  lemma {:induction false} DeclaredKeyRoundTrip(schema: Schema, decl: RecordDecl, v: Value, k: string)
    requires WellFormed(schema) && decl.name in schema && schema[decl.name] == decl
    requires Json(v) && Lossless(schema, TRecord(decl.name), v)
    requires StructureTypecat(schema, decl, v).Ok?
    requires k in FieldNames(decl.fields)
    ensures var o := StructureTypecat(schema, decl, v).value.obj;
      k in o.fields && k in v.entries && Unstructure(schema, o.fields[k], false) == v.entries[k]
    decreases v, 0
  {
    var m := v.entries;
    var o := StructureTypecat(schema, decl, v).value.obj;
    var i :| 0 <= i < |decl.fields| && decl.fields[i].name == k;
    assert Structure(schema, decl.fields[i].ftype, m[k]) == Ok(o.fields[k]);
    RoundTrip(schema, decl.fields[i].ftype, m[k]);
  }
}

=== FILE: patch.dfy ===
/**
 * The hooks typecats installs on a converter, over a simple recursive
 * stand-in for the cattrs engine: structuring a value against a declared
 * type (enriching Wildcats, embedding a frame on failure) and unstructuring
 * a value (stripping defaults when asked, then merging Wildcat extras).
 */
module Patch {
  import opened Wrappers
  import opened Values
  import opened Exceptions
  import opened Records
  import AttrsShim
  import Wildcat
  import StripDefaults

  /** A measure on declared types, so that `Optional[T]` recursion terminates. */
  function TypeSize(t: FieldType): (n: nat)
    ensures n >= 1
  {
    match t
    case TList(e) => 1 + TypeSize(e)
    case TOptional(inner) => 1 + TypeSize(inner)
    case _ => 1
  }

  /** The record builder guarantees unique field names, and every class is
      filed under its own name. */
  ghost predicate WellFormed(schema: Schema)
  {
    forall n :: n in schema ==> schema[n].name == n && DistinctNames(schema[n].fields)
  }

  /** Every field default is a value of the field's declared type. attrs does
      not check this (`count: int = None` is accepted, and structuring `{}`
      then gives `count=None`), so only the promises that structured values
      conform to their types, and the laws built on them, assume it. */
  ghost predicate DefaultsConform(schema: Schema)
  {
    forall n :: n in schema ==>
      forall i :: 0 <= i < |schema[n].fields| && !schema[n].fields[i].default.NoDefault? ==>
        Conforms(schema, schema[n].fields[i].ftype, DefaultValue(schema[n].fields[i]).value)
  }

  /** attrs accepts a default outside its field's type: a class declaring
      `count: int = None` is well formed, its defaults do not conform, and
      structuring `{}` gives `count=None`. */
  lemma IllTypedDefaultAccepted()
    ensures var decl := RecordDecl("C", Plain, [Field("count", TInt, Fixed(VNone), NoValidator)], {});
      var schema := map["C" := decl];
      && WellFormed(schema)
      && !DefaultsConform(schema)
      && Structure(schema, TRecord("C"), VMap(map[])) == Ok(VObj(Instance("C", Plain, map["count" := VNone], map[])))
  {
    var decl := RecordDecl("C", Plain, [Field("count", TInt, Fixed(VNone), NoValidator)], {});
    var schema := map["C" := decl];
    assert !Conforms(schema, decl.fields[0].ftype, DefaultValue(decl.fields[0]).value);
    DefaultOnlyBuilds(schema, decl);
  }

  /** A plain record whose one field has a fixed default and no validator
      structures from an empty mapping, the field taking its default
      unchecked. */
  lemma DefaultOnlyBuilds(schema: Schema, decl: RecordDecl)
    requires WellFormed(schema) && decl.name in schema && schema[decl.name] == decl && decl.kind == Plain
    requires |decl.fields| == 1 && decl.fields[0].default.Fixed? && decl.fields[0].validator == NoValidator
    ensures Structure(schema, TRecord(decl.name), VMap(map[])) ==
      Ok(VObj(Instance(decl.name, Plain, map[decl.fields[0].name := decl.fields[0].default.value], map[])))
  {
    DefaultOnlyBase(schema, decl);
  }

  lemma DefaultOnlyBase(schema: Schema, decl: RecordDecl)
    requires WellFormed(schema) && decl.name in schema && schema[decl.name] == decl
    requires |decl.fields| == 1 && decl.fields[0].default.Fixed? && decl.fields[0].validator == NoValidator
    ensures BaseStructure(schema, decl, VMap(map[])) ==
      Ok(Instance(decl.name, decl.kind, map[decl.fields[0].name := decl.fields[0].default.value], map[]))
  {
    var f := decl.fields[0];
    var m: map<string, Value> := map[];
    var rs := FieldResults(schema, decl.fields, VMap(m));
    assert rs == [Ok(VNone)];
    assert !MissingRequired(decl.fields, m);
    var values := AssembleFields(decl.fields, m, rs);
    assert values == map[f.name := f.default.value];
    assert FirstValidatorFailure(decl.fields, values).None?;
  }

  /** `v` is a structured value of declared type `t`. */
  predicate Conforms(schema: Schema, t: FieldType, v: Value)
    decreases v, TypeSize(t)
  {
    match t
    case TBool => v.VBool?
    case TInt => v.VInt?
    case TFloat => v.VFloat?
    case TDecimal => v.VDecimal?
    case TStr => v.VStr?
    case TAny => true
    case TDict => v.VMap?
    case TList(e) => v.VList? && forall i :: 0 <= i < |v.items| ==> Conforms(schema, e, v.items[i])
    case TOptional(inner) => v.VNone? || Conforms(schema, inner, v)
    case TLiteral(lit) => v == lit
    case TRecord(n) => v.VObj? && n in schema && InstanceConforms(schema, schema[n], v.obj)
  }

  /** A record instance of class `decl`: exactly the declared attributes, each
      of its declared type; dict storage disjoint from them, and empty unless
      the class is a Wildcat. */
  predicate InstanceConforms(schema: Schema, decl: RecordDecl, o: Instance)
    decreases VObj(o), 0
  {
    && o.cls == decl.name
    && o.kind == decl.kind
    && Wildcat.Consistent(decl, o)
    && (decl.kind == Plain ==> o.extras == map[])
    && forall i :: 0 <= i < |decl.fields| ==> Conforms(schema, decl.fields[i].ftype, o.fields[decl.fields[i].name])
  }

  function ShapeError(expected: string): Exc
  {
    Leaf(TypeError, "expected " + expected, None)
  }

  /** The first failure in a list of results, in order. */
  function FirstError(rs: seq<Result<Value, Exc>>): (r: Option<Exc>)
    ensures r.None? <==> forall i :: 0 <= i < |rs| ==> rs[i].Ok?
    ensures r.Some? ==> exists i :: 0 <= i < |rs| && rs[i] == Err(r.value) && forall j :: 0 <= j < i ==> rs[j].Ok?
  {
    if rs == [] then None
    else if rs[0].Err? then Some(rs[0].error)
    else
      var rest := FirstError(rs[1..]);
      if rest.Some? then
        var i :| 0 <= i < |rs[1..]| && rs[1..][i] == Err(rest.value) && forall j :: 0 <= j < i ==> rs[1..][j].Ok?;
        assert rs[i + 1] == Err(rest.value);
        rest
      else rest
  }

  /** Structuring `v` as declared type `t` through the patched converter. */
  function Structure(schema: Schema, t: FieldType, v: Value): (r: Result<Value, Exc>)
    requires WellFormed(schema)
    ensures r.Ok? && DefaultsConform(schema) ==> Conforms(schema, t, r.value)
    ensures r.Err? && !IsCommon(r.error) ==> r.error.stack.None?
    decreases v, TypeSize(t) + 2
  {
    match t
    case TBool => if v.VBool? then Ok(v) else Err(ShapeError("bool"))
    case TInt => if v.VInt? then Ok(v) else Err(ShapeError("int"))
    case TFloat => if v.VFloat? then Ok(v) else Err(ShapeError("float"))
    case TDecimal => if v.VDecimal? then Ok(v) else Err(ShapeError("Decimal"))
    case TStr => if v.VStr? then Ok(v) else Err(ShapeError("str"))
    case TAny => Ok(v)
    case TDict => if v.VMap? then Ok(v) else Err(ShapeError("dict"))
    case TList(e) =>
      if !v.VList? then Err(ShapeError("list"))
      else
        var rs := seq(|v.items|, i requires 0 <= i < |v.items| => Structure(schema, e, v.items[i]));
        if FirstError(rs).Some? then Err(FirstError(rs).value)
        else Ok(VList(seq(|rs|, i requires 0 <= i < |rs| => rs[i].value)))
    case TOptional(inner) => if v.VNone? then Ok(VNone) else Structure(schema, inner, v)
    case TLiteral(lit) => if v == lit then Ok(v) else Err(Leaf(ValueError, "not in literal", None))
    case TRecord(n) =>
      if n in schema then StructureTypecat(schema, schema[n], v)
      else Err(Leaf(OtherClass("StructureHandlerNotFoundError"), "Unsupported type: " + n, None))
  }

  /** `structure_typecat`, the function `structure_wildcat_factory` builds for
      a record class: the base structuring, then Wildcat enrichment with the
      source's undeclared keys; a common failure gets exactly one frame
      `(item, type)` appended and is re-raised. */
  function StructureTypecat(schema: Schema, decl: RecordDecl, v: Value): (r: Result<Value, Exc>)
    requires WellFormed(schema) && decl.name in schema && schema[decl.name] == decl
    ensures r.Ok? ==>
      r.value.VObj? && r.value.obj.cls == decl.name && r.value.obj.kind == decl.kind
      && r.value.obj.fields.Keys == FieldNames(decl.fields)
    ensures r.Ok? && DefaultsConform(schema) ==> InstanceConforms(schema, decl, r.value.obj)
    ensures r.Ok? ==> v.VMap? && BuiltFrom(schema, decl, v.entries, r.value.obj)
    ensures r.Ok? && decl.kind == Wildcat ==>
      (v.VMap? && r.value.obj.extras == map k | k in v.entries && k !in FieldNames(decl.fields) :: v.entries[k])
    ensures r.Err? && IsCommon(r.error) ==>
      |Frames(r.error)| > 0 && Frames(r.error)[|Frames(r.error)| - 1] == Frame(v, decl.name)
    ensures r.Err? && !IsCommon(r.error) ==> r.error.stack.None?
    decreases v, 2
  {
    match BaseStructure(schema, decl, v)
    case Ok(inst) =>
      if decl.kind == Wildcat then
        var o := Wildcat.EnrichStructured(decl, inst, v.entries);
        EnrichKeepsStructure(schema, decl, v.entries, inst);
        Ok(VObj(o))
      else Ok(VObj(inst))
    case Err(e) =>
      if IsCommon(e) then Err(Embed(e, v, decl.name)) else Err(e)
  }

  /** The value `cl(**res)` receives for one field: its structured value when
      the key is present, otherwise its default. */
  function FieldInput(f: Field, m: map<string, Value>, r: Result<Value, Exc>): Value
    requires if f.name in m then r.Ok? else !f.default.NoDefault?
  {
    if f.name in m then r.value else DefaultValue(f).value
  }

  /** Every present key structured successfully, and every absent one has a
      default. */
  predicate Ready(fields: seq<Field>, m: map<string, Value>, rs: seq<Result<Value, Exc>>)
  {
    && |rs| == |fields|
    && forall i :: 0 <= i < |fields| ==> if fields[i].name in m then rs[i].Ok? else !fields[i].default.NoDefault?
  }

  /** The attribute values `cl(**res)` receives, by field name. */
  function AssembleFields(fields: seq<Field>, m: map<string, Value>, rs: seq<Result<Value, Exc>>): (r: map<string, Value>)
    requires Ready(fields, m, rs) && DistinctNames(fields)
    ensures r.Keys == FieldNames(fields)
    ensures forall i :: 0 <= i < |fields| ==> r[fields[i].name] == FieldInput(fields[i], m, rs[i])
  {
    map i | 0 <= i < |fields| :: fields[i].name := FieldInput(fields[i], m, rs[i])
  }

  /** The first validator failure, running validators in field order. */
  function FirstValidatorFailure(fields: seq<Field>, values: map<string, Value>): (r: Option<Exc>)
    requires FieldNames(fields) <= values.Keys
    ensures r.None? <==> forall i :: 0 <= i < |fields| ==>
      AttrsShim.RunValidator(fields[i].validator, fields[i], values[fields[i].name]).Pass?
  {
    if fields == [] then None
    else
      match AttrsShim.RunValidator(fields[0].validator, fields[0], values[fields[0].name])
      case Fail(e) => Some(e)
      case Pass =>
        var rest := FirstValidatorFailure(fields[1..], values);
        assert forall i :: 1 <= i < |fields| ==> fields[1..][i - 1] == fields[i];
        rest
  }

  /** A required field that the item does not supply. */
  predicate MissingRequired(fields: seq<Field>, m: map<string, Value>)
  {
    exists i :: 0 <= i < |fields| && fields[i].name !in m && fields[i].default.NoDefault?
  }

  /** The class `__init__` on the structured field values: a missing required
      argument raises TypeError, then validators run in field order. */
  function Construct(schema: Schema, decl: RecordDecl, m: map<string, Value>, rs: seq<Result<Value, Exc>>): (r: Result<Instance, Exc>)
    requires WellFormed(schema) && decl.name in schema && schema[decl.name] == decl
    requires |rs| == |decl.fields|
    requires forall i :: 0 <= i < |decl.fields| && decl.fields[i].name in m ==>
      rs[i].Ok? && (DefaultsConform(schema) ==> Conforms(schema, decl.fields[i].ftype, rs[i].value))
    ensures r.Ok? ==> r.value.cls == decl.name && r.value.kind == decl.kind && r.value.extras == map[]
    ensures r.Ok? && DefaultsConform(schema) ==> InstanceConforms(schema, decl, r.value)
    ensures r.Ok? ==> !MissingRequired(decl.fields, m) && r.value.fields == AssembleFields(decl.fields, m, rs)
    ensures r.Ok? <==> !MissingRequired(decl.fields, m) && FirstValidatorFailure(decl.fields, AssembleFields(decl.fields, m, rs)).None?
    ensures r.Err? ==> r.error.stack.None?
  {
    var fields := decl.fields;
    if MissingRequired(fields, m) then
      Err(Leaf(TypeError, "__init__() missing required argument", None))
    else
      var values := AssembleFields(fields, m, rs);
      match FirstValidatorFailure(fields, values)
      case Some(err) => Err(err.(stack := None))
      case None =>
        AssembledFieldsConform(schema, decl, m, rs);
        Ok(Instance(decl.name, decl.kind, values, map[]))
  }

  /** With no required field missing, every assembled attribute conforms to
      its declared type when the defaults do: a supplied one was structured to
      it, and a default conforms by assumption. */
  lemma AssembledFieldsConform(schema: Schema, decl: RecordDecl, m: map<string, Value>, rs: seq<Result<Value, Exc>>)
    requires WellFormed(schema) && decl.name in schema && schema[decl.name] == decl
    requires |rs| == |decl.fields|
    requires forall i :: 0 <= i < |decl.fields| && decl.fields[i].name in m ==>
      rs[i].Ok? && (DefaultsConform(schema) ==> Conforms(schema, decl.fields[i].ftype, rs[i].value))
    requires !MissingRequired(decl.fields, m)
    ensures DefaultsConform(schema) ==> forall i :: 0 <= i < |decl.fields| ==>
      Conforms(schema, decl.fields[i].ftype, AssembleFields(decl.fields, m, rs)[decl.fields[i].name])
  {
  }

  /** Each attribute of `o` is the structured source value of its key when the
      key is present, and the field's default otherwise. */
  ghost predicate BuiltFrom(schema: Schema, decl: RecordDecl, m: map<string, Value>, o: Instance)
    requires WellFormed(schema)
    requires FieldNames(decl.fields) <= o.fields.Keys
    decreases VMap(m), 0
  {
    forall i :: 0 <= i < |decl.fields| ==>
      if decl.fields[i].name in m then
        Structure(schema, decl.fields[i].ftype, m[decl.fields[i].name]) == Ok(o.fields[decl.fields[i].name])
      else
        !decl.fields[i].default.NoDefault? && o.fields[decl.fields[i].name] == DefaultValue(decl.fields[i]).value
  }

  /** Wildcat enrichment adds dict storage only: the instance still conforms
      and its attributes still come from the source. */
  lemma EnrichKeepsStructure(schema: Schema, decl: RecordDecl, m: map<string, Value>, inst: Instance)
    requires WellFormed(schema) && decl.name in schema && schema[decl.name] == decl
    requires decl.kind == Wildcat && inst.extras == map[]
    requires inst.fields.Keys == FieldNames(decl.fields) && BuiltFrom(schema, decl, m, inst)
    ensures var o := Wildcat.EnrichStructured(decl, inst, m);
      && o.fields.Keys == FieldNames(decl.fields)
      && (InstanceConforms(schema, decl, inst) ==> InstanceConforms(schema, decl, o))
      && BuiltFrom(schema, decl, m, o)
      && o.extras == map k | k in m && k !in FieldNames(decl.fields) :: m[k]
    decreases VMap(m), 1
  {
    var o := Wildcat.EnrichStructured(decl, inst, m);
    assert o.fields == inst.fields;
  }

  /** The attrs-level construction (cattrs' generated structure function and
      the class `__init__`): every present field is structured in declaration
      order, the first failure propagating; then `Construct`. A non-mapping
      item raises TypeError. */
  function BaseStructure(schema: Schema, decl: RecordDecl, v: Value): (r: Result<Instance, Exc>)
    requires WellFormed(schema) && decl.name in schema && schema[decl.name] == decl
    ensures r.Ok? ==>
      r.value.cls == decl.name && r.value.kind == decl.kind
      && r.value.fields.Keys == FieldNames(decl.fields) && r.value.extras == map[]
    ensures r.Ok? && DefaultsConform(schema) ==> InstanceConforms(schema, decl, r.value)
    ensures r.Ok? ==> v.VMap? && !MissingRequired(decl.fields, v.entries)
    ensures r.Ok? ==> v.VMap? && BuiltFrom(schema, decl, v.entries, r.value)
    ensures r.Err? && !IsCommon(r.error) ==> r.error.stack.None?
    decreases v, 1
  {
    if !v.VMap? then Err(ShapeError("mapping"))
    else
      var rs := FieldResults(schema, decl.fields, v);
      if FirstError(rs).Some? then Err(FirstError(rs).value)
      else Construct(schema, decl, v.entries, rs)
  }

  /** Each declared field's structured value, or `None` for a field the
      mapping does not hold (its default is filled in later). */
  function FieldResults(schema: Schema, fields: seq<Field>, v: Value): (rs: seq<Result<Value, Exc>>)
    requires WellFormed(schema) && v.VMap?
    ensures |rs| == |fields|
    decreases v, 0
  {
    var m := v.entries;
    seq(|fields|, i requires 0 <= i < |fields| =>
      if fields[i].name in m then Structure(schema, fields[i].ftype, m[fields[i].name]) else Ok(VNone))
  }

  /** The first present field (in declaration order) whose value fails to
      structure decides the record's error; later fields are not consulted. */
  lemma FirstFieldFailurePropagates(schema: Schema, decl: RecordDecl, m: map<string, Value>, i: nat, e: Exc)
    requires WellFormed(schema) && decl.name in schema && schema[decl.name] == decl
    requires i < |decl.fields| && decl.fields[i].name in m
    requires Structure(schema, decl.fields[i].ftype, m[decl.fields[i].name]) == Err(e)
    requires forall j :: 0 <= j < i && decl.fields[j].name in m ==>
      Structure(schema, decl.fields[j].ftype, m[decl.fields[j].name]).Ok?
    ensures BaseStructure(schema, decl, VMap(m)) == Err(e)
    ensures IsCommon(e) ==> StructureTypecat(schema, decl, VMap(m)) == Err(Embed(e, VMap(m), decl.name))
  {
    var rs := FieldResults(schema, decl.fields, VMap(m));
    assert rs[i] == Err(e);
    var j :| 0 <= j < |rs| && rs[j] == Err(FirstError(rs).value) && forall k :: 0 <= k < j ==> rs[k].Ok?;
    assert j == i;
  }

  /** Unstructuring any value through the patched converter; `strip` is the
      `ShouldStripDefaults` context flag, which every nested record reads. */
  function Unstructure(schema: Schema, v: Value, strip: bool): (r: Value)
    ensures v.VObj? ==> r.VMap?
    ensures !v.VObj? && !v.VList? && !v.VMap? ==> r == v
    decreases v, 2
  {
    match v
    case VList(items) => VList(seq(|items|, i requires 0 <= i < |items| => Unstructure(schema, items[i], strip)))
    case VMap(m) => VMap(map k | k in m :: Unstructure(schema, m[k], strip))
    case VObj(o) => VMap(UnstructureStripDefaults(schema, o, strip))
    case _ => v
  }

  /** `unstructure_strip_defaults`: the base unstructuring of the declared
      attributes, then default stripping when the flag is set, then (for a
      Wildcat) the extra keys, recursively unstructured, merged under it. */
  function UnstructureStripDefaults(schema: Schema, o: Instance, strip: bool): (r: map<string, Value>)
    ensures o.kind == Plain ==> r.Keys <= o.fields.Keys
    ensures o.kind == Wildcat ==> o.extras.Keys - o.fields.Keys <= r.Keys
    ensures !strip ==> o.fields.Keys <= r.Keys
    ensures forall k :: k in o.fields ==>
      (k in r <==> !(strip && o.cls in schema && k in StripDefaults.DefaultedNonliteralNames(schema[o.cls], o)))
    ensures forall k :: k in r && k in o.fields ==> r[k] == Unstructure(schema, o.fields[k], strip)
    ensures forall k :: k in r && k !in o.fields ==> k in o.extras && r[k] == Unstructure(schema, o.extras[k], strip)
    decreases VObj(o), 1
  {
    var res := UnstructuredAttrs(schema, o, strip);
    if o.kind == Wildcat then
      var extras := map k | k in o.extras :: Unstructure(schema, o.extras[k], strip);
      Wildcat.EnrichUnstructured(o.fields.Keys, extras, res)
    else res
  }

  /** The declared attributes, unstructured, with the defaulted ones
      stripped when the flag is set. */
  function UnstructuredAttrs(schema: Schema, o: Instance, strip: bool): (r: map<string, Value>)
    ensures r.Keys <= o.fields.Keys
    ensures forall k :: k in o.fields ==>
      (k in r <==> !(strip && o.cls in schema && k in StripDefaults.DefaultedNonliteralNames(schema[o.cls], o)))
    ensures forall k :: k in r ==> r[k] == Unstructure(schema, o.fields[k], strip)
    decreases VObj(o), 0
  {
    var base := map k | k in o.fields :: Unstructure(schema, o.fields[k], strip);
    if strip then StripDefaults.StripAttrsDefaults(schema, base, VObj(o)) else base
  }

  /** A hook factory typecats registers for attrs classes. */
  datatype HookFactory = StructureWildcatFactory | UnstructureStripDefaultsFactory

  /** A converter's identity and the hook factories registered on it. */
  datatype Converter = Converter(id: nat, detailedValidation: bool,
    structureFactories: seq<HookFactory>, unstructureFactories: seq<HookFactory>)

  /** `__patched_converters`, by converter identity. */
  datatype Registry = Registry(patched: seq<nat>)

  predicate NoDuplicates(s: seq<nat>)
  {
    forall i, j :: 0 <= i < j < |s| ==> s[i] != s[j]
  }

  function Count(s: seq<HookFactory>, h: HookFactory): nat
  {
    if s == [] then 0 else (if s[0] == h then 1 else 0) + Count(s[1..], h)
  }

  lemma CountAppend(s: seq<HookFactory>, h: HookFactory, x: HookFactory)
    ensures Count(s + [x], h) == Count(s, h) + (if x == h then 1 else 0)
  {
    if s != [] {
      assert (s + [x])[1..] == s[1..] + [x];
    }
  }

  /** `patch_converter_for_typecats`: a converter already in the registry is
      returned untouched; otherwise both factories are registered on it and it
      is recorded. */
  function PatchConverterForTypecats(reg: Registry, c: Converter): (r: (Registry, Converter))
    ensures c.id in reg.patched ==> r == (reg, c)
    ensures c.id !in reg.patched ==>
      && r.0.patched == reg.patched + [c.id]
      && Count(r.1.structureFactories, StructureWildcatFactory) == Count(c.structureFactories, StructureWildcatFactory) + 1
      && Count(r.1.unstructureFactories, UnstructureStripDefaultsFactory) == Count(c.unstructureFactories, UnstructureStripDefaultsFactory) + 1
    ensures r.1.id == c.id && r.1.detailedValidation == c.detailedValidation
    ensures c.id in r.0.patched
  {
    if c.id in reg.patched then (reg, c)
    else
      CountAppend(c.structureFactories, StructureWildcatFactory, StructureWildcatFactory);
      CountAppend(c.unstructureFactories, UnstructureStripDefaultsFactory, UnstructureStripDefaultsFactory);
      (Registry(reg.patched + [c.id]),
       c.(structureFactories := c.structureFactories + [StructureWildcatFactory],
          unstructureFactories := c.unstructureFactories + [UnstructureStripDefaultsFactory]))
  }

  /** Patching is idempotent, and the registry never holds a converter twice. */
  lemma PatchIdempotent(reg: Registry, c: Converter)
    requires NoDuplicates(reg.patched)
    ensures var (reg1, c1) := PatchConverterForTypecats(reg, c);
      && PatchConverterForTypecats(reg1, c1) == (reg1, c1)
      && NoDuplicates(reg1.patched)
  {
  }
}

=== FILE: pytest_utils.dfy ===
/**
 * The decision `RaisesExceptionGroupContext.__exit__` makes when the block
 * under `raises_in_group` exits: which failure it reports, whether it
 * re-raises the unexpected members, or which exception it captures.
 */
module PytestUtils {
  import opened Wrappers
  import opened Exceptions
  import opened ExceptionGroups

  /** How the `with` block exited. */
  datatype Exit = NothingRaised | Raised(exc: Exc)

  /** The outcome of `__exit__`: a `pytest.fail` with one of the five
      messages, the new ExceptionGroup of unexpected members (raised after a
      warning), a failed regex match, or success, which suppresses the
      exception and records the captured one. */
  datatype Verdict =
    | FailNoExceptions
    | FailNaked
    | FailDidNotRaise
    | RaiseUnexpected(group: Exc)
    | FailMultiple
    | FailRegex(captured: Exc)
    | Captured(exc: Exc)

  const UnexpectedMessage: string := "Thrown group contained unexpected exceptions"

  /** `__exit__` for `raises_in_group(cond, match_expr, allow_multiple)`;
      `matchExpr` stands for the regex, as a test on the captured exception.
      Exception groups are never empty. */
  function ExitDecision(cond: Cond, matchExpr: Option<Exc -> bool>, allowMultiple: bool, exit: Exit): (r: Verdict)
    requires exit.Raised? ==> WellFormed(exit.exc)
    ensures r == FailNoExceptions <==> exit.NothingRaised?
    ensures r == FailNaked <==> exit.Raised? && exit.exc.Leaf?
    ensures r == FailDidNotRaise <==> exit.Raised? && exit.exc.Group? && Split(cond, exit.exc).0.None?
    ensures r.RaiseUnexpected? <==>
      (exit.Raised? && exit.exc.Group? && Split(cond, exit.exc).0.Some? && Split(cond, exit.exc).1.Some?)
    ensures r.RaiseUnexpected? ==>
      r.group == Group(ExceptionGroup, UnexpectedMessage, Split(cond, exit.exc).1.value.children, None)
    ensures r == FailMultiple <==>
      (exit.Raised? && exit.exc.Group? && Split(cond, exit.exc).0.Some? && Split(cond, exit.exc).1.None?
       && |Flattened(Split(cond, exit.exc).0.value)| > 1 && !allowMultiple)
    ensures r.Captured? || r.FailRegex? ==>
      && exit.Raised? && exit.exc.Group?
      && Split(cond, exit.exc).0.Some? && Split(cond, exit.exc).1.None?
      && (allowMultiple || |Flattened(Split(cond, exit.exc).0.value)| == 1)
    ensures r.Captured? ==> r.exc == Flattened(Split(cond, exit.exc).0.value)[0]
    ensures r.Captured? ==> matchExpr.None? || matchExpr.value(r.exc)
    ensures r.FailRegex? ==> r.captured == Flattened(Split(cond, exit.exc).0.value)[0]
    ensures r.FailRegex? ==> matchExpr.Some? && !matchExpr.value(r.captured)
  {
    match exit
    case NothingRaised => FailNoExceptions
    case Raised(e) =>
      if e.Leaf? then FailNaked
      else
        var (matched, others) := Split(cond, e);
        if matched.None? then FailDidNotRaise
        else if others.Some? then RaiseUnexpected(Group(ExceptionGroup, UnexpectedMessage, others.value.children, None))
        else
          var exceptions := Flattened(matched.value);
          if |exceptions| > 1 && !allowMultiple then FailMultiple
          else
            assert WellFormed(matched.value);
            var first := exceptions[0];
            if matchExpr.Some? && !matchExpr.value(first) then FailRegex(first) else Captured(first)
  }

  /** The captured exception is a leaf of the raised group: the first one,
      depth-first, that the split puts on the matched side. */
  lemma CapturedIsFirstMatch(cond: Cond, matchExpr: Option<Exc -> bool>, allowMultiple: bool, g: Exc)
    requires g.Group? && WellFormed(g)
    ensures var r := ExitDecision(cond, matchExpr, allowMultiple, Raised(g));
      var ls := Labelled(cond, g.children, Matches(cond, g));
      r.Captured? ==> |Keep(ls, true)| > 0 && r.exc == Keep(ls, true)[0] && r.exc.Leaf? && Occurs(r.exc, g)
  {
    var r := ExitDecision(cond, matchExpr, allowMultiple, Raised(g));
    var ls := Labelled(cond, g.children, Matches(cond, g));
    if r.Captured? {
      var m := Split(cond, g).0.value;
      SplitPartitions(cond, g);
      assert FlattenSide(Some(m)) == Flattened(m) by {
        FlattenCons(m, []);
        assert [m] == [m] + [];
      }
      KeepSplitsUnlabel(ls);
      LabelledIsFlattening(cond, g.children, Matches(cond, g));
      assert r.exc in FlattenAll(g.children);
    }
  }

  const TE: Exc := Leaf(TypeError, "", None)
  const VE: Exc := Leaf(ValueError, "", None)
  const TE1: Exc := Leaf(TypeError, "1", None)
  const TE2: Exc := Leaf(TypeError, "2", None)

  function Raise(members: seq<Exc>): Exit
  {
    Raised(Group(ExceptionGroup, "", members, None))
  }

  /** No exception, or a bare one, fails the test. */
  lemma NoGroupFails()
    ensures ExitDecision(Classes({TypeError}), None, false, NothingRaised) == FailNoExceptions
    ensures ExitDecision(Classes({TypeError}), None, false, Raised(TE)) == FailNaked
  {
  }

  /** A group none of whose leaves match fails with "did not raise". */
  lemma NoMatchFails()
    ensures ExitDecision(Classes({TypeError}), None, false, Raise([VE])) == FailDidNotRaise
  {
    var cond := Classes({TypeError});
    assert !Matches(cond, VE) && !Matches(cond, Raise([VE]).exc) by {
      assert !SomeBaseIn(ValueError, {TypeError}) && !SomeBaseIn(ExceptionGroup, {TypeError});
    }
    SplitMembersCons(cond, VE, []);
    assert [VE] == [VE] + [];
  }

  /** Two matches fail unless several are allowed, and then the first is
      captured. */
  lemma MultipleMatches()
    ensures ExitDecision(Classes({TypeError}), None, false, Raise([TE1, TE2])) == FailMultiple
    ensures ExitDecision(Classes({TypeError}), None, true, Raise([TE1, TE2])) == Captured(TE1)
  {
    var cond := Classes({TypeError});
    var g := Raise([TE1, TE2]).exc;
    assert !Matches(cond, g) && Matches(cond, TE1) && Matches(cond, TE2) by {
      assert !SomeBaseIn(ExceptionGroup, {TypeError});
    }
    SplitTwoMatching(cond, TE1, TE2);
    var m := Derive(g, [TE1, TE2]);
    assert Split(cond, g) == (Some(m), None);
    assert Flattened(m) == [TE1, TE2] by {
      FlattenCons(TE2, []);
      FlattenCons(TE1, [TE2]);
      assert [TE2] == [TE2] + [] && [TE1, TE2] == [TE1] + [TE2];
    }
  }

  /** `raises_in_group(Exception)` matches the whole group, so both of its
      leaves are matched: that fails unless several matches are allowed,
      and then the first is captured. */
  lemma ExceptionMatchesWholeGroup()
    ensures ExitDecision(Classes({Exception}), None, false, Raise([TE, VE])) == FailMultiple
    ensures ExitDecision(Classes({Exception}), None, true, Raise([TE, VE])) == Captured(TE)
  {
    var g := Raise([TE, VE]).exc;
    ExceptionTakesEverything(g);
    assert Flattened(g) == [TE, VE] by {
      FlattenCons(VE, []);
      FlattenCons(TE, [VE]);
      assert [VE] == [VE] + [] && [TE, VE] == [TE] + [VE];
    }
  }

  /** Two matching leaves both go to the matched side, in order. */
  lemma SplitTwoMatching(cond: Cond, a: Exc, b: Exc)
    requires a.Leaf? && b.Leaf? && Matches(cond, a) && Matches(cond, b)
    ensures SplitMembers(cond, [a, b]) == ([a, b], [])
  {
    SplitMembersCons(cond, b, []);
    SplitMembersCons(cond, a, [b]);
    assert [b] == [b] + [] && [a, b] == [a] + [b];
  }

  /** A non-matching leaf followed by a matching one: each goes to its own
      side. */
  lemma SplitOtherThenMatching(cond: Cond, a: Exc, b: Exc)
    requires a.Leaf? && b.Leaf? && !Matches(cond, a) && Matches(cond, b)
    ensures SplitMembers(cond, [a, b]) == ([b], [a])
  {
    SplitMembersCons(cond, b, []);
    SplitMembersCons(cond, a, [b]);
    assert [b] == [b] + [] && [a, b] == [a] + [b] && [a] + [] == [a];
  }

  lemma MixedMembers()
    ensures SplitMembers(Classes({ValueError}), [TE, VE]) == ([VE], [TE])
  {
    var cond := Classes({ValueError});
    assert Matches(cond, VE) && !Matches(cond, TE) by {
      assert !SomeBaseIn(TypeError, {ValueError});
    }
    SplitOtherThenMatching(cond, TE, VE);
  }

  lemma MixedSplit()
    ensures Split(Classes({ValueError}), Raise([TE, VE]).exc)
      == (Some(Group(ExceptionGroup, "", [VE], None)), Some(Group(ExceptionGroup, "", [TE], None)))
  {
    MixedMembers();
  }

  /** A group mixing expected and unexpected leaves re-raises the unexpected
      ones in a new group. */
  lemma UnexpectedReraised()
    ensures ExitDecision(Classes({ValueError}), None, false, Raise([TE, VE]))
      == RaiseUnexpected(Group(ExceptionGroup, UnexpectedMessage, [TE], None))
  {
    MixedSplit();
  }
}

=== FILE: records.dfy ===
/**
 * Record declarations: the field descriptors attrs builds for a class, the
 * class itself as a set of attribute names, and the schema of all record
 * types a converter knows about.
 */
module Records {
  import opened Wrappers
  import opened Values
  import Exceptions

  /** The declared (annotated) type of a field. */
  datatype FieldType =
    | TBool
    | TInt
    | TFloat
    | TDecimal
    | TStr
    | TAny
    | TDict                       // Dict[str, Any]
    | TList(elem: FieldType)
    | TOptional(inner: FieldType)
    | TRecord(name: string)       // another attrs / Cat class
    | TLiteral(lit: Value)        // Literal[...] with one allowed value

  /** A field default: attrs' NOTHING, a plain value, or a factory (treated as
      a pure function, represented by the value it produces). */
  datatype Default = NoDefault | Fixed(value: Value) | Factory(produced: Value)

  /** An attrs field validator: none, typecats' `nonempty_validator`, a
      user-supplied predicate raising `raises` when it rejects, or the
      combination typecats builds when it adds a validator to an existing one. */
  datatype Validator =
    | NoValidator
    | NonEmpty
    | Custom(accepts: Value -> bool, raises: Exceptions.ExcClass)
    | Both(first: Validator, second: Validator)

  /** An attrs `Attribute`. */
  datatype Field = Field(name: string, ftype: FieldType, default: Default, validator: Validator)

  /** A finished record type: its name, Plain/Wildcat tag, fields in
      declaration order, and every attribute name the class defines or
      inherits (methods such as `keys` or `struc`). */
  datatype RecordDecl = RecordDecl(name: string, kind: Kind, fields: seq<Field>, classNames: set<string>)

  /** The record types reachable from a converter, by class name. */
  type Schema = map<string, RecordDecl>

  /** `bool`, `float`, `int`, `Decimal`: types with no "empty" values. */
  predicate IsScalar(t: FieldType)
  {
    t == TBool || t == TInt || t == TFloat || t == TDecimal
  }

  function FieldNames(fields: seq<Field>): (r: set<string>)
    ensures forall i :: 0 <= i < |fields| ==> fields[i].name in r
    ensures forall n :: n in r ==> exists i :: 0 <= i < |fields| && fields[i].name == n
  {
    set i | 0 <= i < |fields| :: fields[i].name
  }

  /** Names that `hasattr` finds on an instance: its attributes plus every
      class-level name. */
  function AttrNames(decl: RecordDecl): set<string>
  {
    FieldNames(decl.fields) + decl.classNames
  }

  predicate DistinctNames(fields: seq<Field>)
  {
    forall i, j :: 0 <= i < j < |fields| ==> fields[i].name != fields[j].name
  }

  /** `_get_attr_default_value`: the default, with a factory evaluated.
      attrs' NOTHING (no default) is the Option's `None`; a default of
      Python's `None` is `Some(VNone)`. */
  function DefaultValue(f: Field): (r: Option<Value>)
    ensures r.None? <==> f.default.NoDefault?
    ensures f.default.Fixed? ==> r == Some(f.default.value)
    ensures f.default.Factory? ==> r == Some(f.default.produced)
  {
    match f.default
    case NoDefault => None
    case Fixed(v) => Some(v)
    case Factory(v) => Some(v)
  }

  function LookupField(fields: seq<Field>, name: string): (r: Option<Field>)
    ensures r.Some? ==> r.value in fields && r.value.name == name
    ensures r.None? <==> name !in FieldNames(fields)
  {
    if fields == [] then None
    else if fields[0].name == name then Some(fields[0])
    else LookupField(fields[1..], name)
  }

  /** A class as the decorators see it: its own `__dict__` names, the names it
      inherits, its `__abstractmethods__`, and its attrs fields. */
  datatype ClassSpec = ClassSpec(
    name: string,
    ownNames: set<string>,
    inheritedNames: set<string>,
    abstractMethods: set<string>,
    fields: seq<Field>)

  /** `hasattr(cls, name)`. */
  predicate HasAttr(c: ClassSpec, name: string)
  {
    name in c.ownNames || name in c.inheritedNames
  }
}

=== FILE: scenarios.dfy ===
/**
 * The nested-failure scenario typecats' exception tests exercise: a `Quux`
 * whose `bar: Bar` field is given a list. The failure carries one frame per
 * record level, outermost first once extracted, and the diagnostic names
 * the type path.
 */
module Scenarios {
  import opened Wrappers
  import opened Values
  import opened Exceptions
  import opened Records
  import Patch
  import Tc

  const BarDecl: RecordDecl := RecordDecl("Bar", Plain, [Field("baz", TInt, NoDefault, NoValidator)], {})
  const QuuxDecl: RecordDecl := RecordDecl("Quux", Plain,
    [Field("foo", TStr, NoDefault, NonEmpty), Field("bar", TRecord("Bar"), NoDefault, NonEmpty)], {})
  const QuuxSchema: Schema := map["Bar" := BarDecl, "Quux" := QuuxDecl]

  const BadBar: Value := VList([VInt(1), VInt(2), VInt(3)])
  const QuuxInput: Value := VMap(map["foo" := VStr("foos"), "bar" := BadBar])

  /** The error structuring a list as `Bar` raises. */
  const BarError: Exc := Embed(Patch.ShapeError("mapping"), BadBar, "Bar")

  lemma QuuxSchemaWellFormed()
    ensures Patch.WellFormed(QuuxSchema)
  {
    assert DistinctNames(BarDecl.fields) && DistinctNames(QuuxDecl.fields);
  }

  /** `Bar` rejects a list, with its one frame. */
  lemma BarRejectsList()
    requires Patch.WellFormed(QuuxSchema)
    ensures Patch.Structure(QuuxSchema, TRecord("Bar"), BadBar) == Err(BarError)
  {
  }

  /** The failing field's error propagates out of `Quux` with `Quux`'s frame
      appended. */
  lemma QuuxFails()
    requires Patch.WellFormed(QuuxSchema)
    ensures Patch.Structure(QuuxSchema, TRecord("Quux"), QuuxInput) == Err(Embed(BarError, QuuxInput, "Quux"))
  {
    BarRejectsList();
    assert QuuxDecl.fields[0].name == "foo" && QuuxDecl.fields[1].name == "bar";
    Patch.FirstFieldFailurePropagates(QuuxSchema, QuuxDecl, QuuxInput.entries, 1, BarError);
  }

  /** The extracted stack lists `Quux` then `Bar`. */
  lemma QuuxStack()
    ensures Extract(Embed(BarError, QuuxInput, "Quux")) == [Frame(QuuxInput, "Quux"), Frame(BadBar, "Bar")]
  {
    ExtractEmbed(BarError, QuuxInput, "Quux");
    ExtractEmbed(Patch.ShapeError("mapping"), BadBar, "Bar");
  }

  lemma QuuxTypePathShown()
    ensures TypePath([Frame(QuuxInput, "Quux"), Frame(BadBar, "Bar")]) == ["Quux", "Bar"]
    ensures ShowNames(["Quux", "Bar"]) == "['Quux', 'Bar']"
  {
    assert ["Quux", "Bar"][1..] == ["Bar"];
  }

  const QuuxFrames: seq<Frame> := [Frame(QuuxInput, "Quux"), Frame(BadBar, "Bar")]

  lemma QuuxContext(render: Value -> string)
    ensures MessageContext(render, QuuxInput, QuuxFrames) == " at type path ['Quux', 'Bar'] within item " + render(QuuxInput)
  {
    QuuxTypePathShown();
  }

  lemma QuuxAssembled(render: Value -> string)
    ensures DefaultLogMessage(render, QuuxInput, QuuxFrames)
      == Some(MessageHead(render, Frame(BadBar, "Bar")) + MessageContext(render, QuuxInput, QuuxFrames))
  {
    assert QuuxFrames[|QuuxFrames| - 1] == Frame(BadBar, "Bar") && BadBar != QuuxInput;
  }

  /** The logged message starts with the failing type and shows the type
      path, the failing item not being the input. */
  lemma QuuxLogMessage(render: Value -> string)
    ensures DefaultLogMessage(render, QuuxInput, Extract(Embed(BarError, QuuxInput, "Quux")))
      == Some("Failed to structure Bar from item <" + render(BadBar) + ">"
              + " at type path ['Quux', 'Bar'] within item " + render(QuuxInput))
  {
    QuuxStack();
    QuuxContext(render);
    QuuxAssembled(render);
    var head := MessageHead(render, Frame(BadBar, "Bar"));
    assert head == "Failed to structure Bar from item <" + render(BadBar) + ">";
    var context := " at type path ['Quux', 'Bar'] within item ";
    assert head + (context + render(QuuxInput)) == head + context + render(QuuxInput);
  }

  /** Through the entry points: `struc` re-raises the TypeError without
      calling the hook (it is not a StructuringError), while `try_struc`
      sends it to the default handler once and returns None. */
  lemma QuuxEntryPoints(slot: HookSlot)
    ensures Patch.WellFormed(QuuxSchema)
    ensures var e := Embed(BarError, QuuxInput, "Quux");
      && Tc.Struc(QuuxSchema, slot, "Quux", QuuxInput) == Tc.Call(Err(e), [])
      && Tc.ModuleTryStruc(QuuxSchema, slot, "Quux", QuuxInput)
         == Tc.Call(None, [HookCall(slot.current, e, QuuxInput, "Quux", [Frame(QuuxInput, "Quux"), Frame(BadBar, "Bar")])])
  {
    QuuxSchemaWellFormed();
    QuuxFails();
    QuuxStack();
    var e := Embed(BarError, QuuxInput, "Quux");
    assert !IsStructuringError(e);
    Tc.OtherErrorHooks(QuuxSchema, slot, "Quux", QuuxInput);
  }
}

=== FILE: stack_context.dfy ===
/**
 * `stack_context`: a context variable set for the duration of a block and
 * reset to its previous value when the block exits, normally or by an
 * exception. Modelled as a tiny interpreter over programs that read the
 * variable, set it outright, raise, or open a scope.
 */
module StackContext {

  /** One step of code running against a context variable holding a `T`.
      `Set` is a bare `contextvar.set` with no reset; `Scope(v, body)` is
      `with stack_context(var, v): body`. */
  datatype Step<T> = Read | Set(value: T) | Raise | Scope(value: T, body: seq<Step<T>>)

  /** The values read, in order; the variable's value at exit; whether the
      program exited by an exception. */
  datatype Trace<T> = Trace(seen: seq<T>, final: T, raised: bool)

  /** Every value a step of `prog` (at any depth) gives the variable. */
  function Written<T>(prog: seq<Step<T>>): set<T>
    decreases prog
  {
    if prog == [] then {}
    else
      var here := match prog[0]
        case Set(v) => {v}
        case Scope(v, body) => {v} + Written(body)
        case _ => {};
      here + Written(prog[1..])
  }

  /** Runs `prog` from a variable holding `current`. A scope remembers the
      value its `set` replaced (the token) and its `finally` resets to it,
      whether the body finished or raised. The variable only ever holds its
      entry value or a value the program supplied. */
  function Exec<T>(current: T, prog: seq<Step<T>>): (r: Trace<T>)
    ensures forall i :: 0 <= i < |r.seen| ==> r.seen[i] == current || r.seen[i] in Written(prog)
    ensures r.final == current || r.final in Written(prog)
    decreases prog
  {
    if prog == [] then Trace([], current, false)
    else
      match prog[0]
      case Read =>
        var rest := Exec(current, prog[1..]);
        Trace([current] + rest.seen, rest.final, rest.raised)
      case Set(v) => Exec(v, prog[1..])
      case Raise => Trace([], current, true)
      case Scope(v, body) =>
        var token := current;
        var inner := Exec(v, body);
        if inner.raised then Trace(inner.seen, token, true)
        else
          var rest := Exec(token, prog[1..]);
          Trace(inner.seen + rest.seen, rest.final, rest.raised)
  }

  /** No bare `set` at the top level: every change is inside a scope. */
  predicate Scoped<T>(prog: seq<Step<T>>)
  {
    forall i :: 0 <= i < |prog| ==> !prog[i].Set?
  }

  /** Whatever a scope's body does (bare sets and exceptions included), the
      variable holds its entry value after the scope. */
  lemma ScopeRestores<T>(current: T, v: T, body: seq<Step<T>>)
    ensures Exec(current, [Scope(v, body)]).final == current
    ensures Exec(current, [Scope(v, body)]).raised == Exec(v, body).raised
  {
  }

  /** Inside the scope, the variable reads the supplied value, whatever it
      held before. */
  lemma ScopeReadsValue<T>(current: T, other: T, v: T, body: seq<Step<T>>)
    ensures Exec(current, [Scope(v, body)]).seen == Exec(v, body).seen
    ensures Exec(current, [Scope(v, body)]).seen == Exec(other, [Scope(v, body)]).seen
    ensures Exec(current, [Scope(v, [Read])]).seen == [v]
  {
  }

  /** A program whose every change of the variable is scoped leaves it as it
      found it, on normal and on exceptional exit. */
  lemma {:induction false} ScopedProgramRestores<T>(current: T, prog: seq<Step<T>>)
    requires Scoped(prog)
    ensures Exec(current, prog).final == current
    decreases prog
  {
    if prog != [] {
      assert Scoped(prog[1..]) by {
        forall i | 0 <= i < |prog[1..]|
          ensures !prog[1..][i].Set?
        {
          assert prog[1..][i] == prog[i + 1];
        }
      }
      match prog[0]
      case Read =>
        ScopedProgramRestores(current, prog[1..]);
      case Raise =>
      case Scope(v, body) =>
        ScopedProgramRestores(current, prog[1..]);
    }
  }

  /** Nested scopes unwind in LIFO order: an inner scope inside an outer one
      is undone first, the outer value visible again after it, and the
      original value after both. */
  lemma NestedScopesLifo<T>(current: T, outer: T, inner: T)
    ensures var r := Exec(current, [Read, Scope(outer, [Read, Scope(inner, [Read]), Read]), Read]);
      r.seen == [current, outer, inner, outer, current] && r.final == current && !r.raised
  {
    var innerScope: seq<Step<T>> := [Read];
    assert Exec(inner, innerScope) == Trace([inner], inner, false) by {
      assert innerScope[1..] == [];
    }
    var outerBody: seq<Step<T>> := [Read, Scope(inner, innerScope), Read];
    assert Exec(outer, outerBody[2..]) == Trace([outer], outer, false) by {
      assert outerBody[2..][1..] == [];
    }
    assert Exec(outer, outerBody[1..]) == Trace([inner, outer], outer, false) by {
      assert outerBody[1..][1..] == outerBody[2..];
    }
    assert Exec(outer, outerBody) == Trace([outer, inner, outer], outer, false) by {
      assert outerBody[1..][0] == Scope(inner, innerScope);
    }
    var prog: seq<Step<T>> := [Read, Scope(outer, outerBody), Read];
    assert Exec(current, prog[2..]) == Trace([current], current, false) by {
      assert prog[2..][1..] == [];
    }
    assert Exec(current, prog[1..]) == Trace([outer, inner, outer, current], current, false) by {
      assert prog[1..][1..] == prog[2..];
    }
  }

  /** An exception inside nested scopes still restores the outermost value,
      and nothing after the raise runs. */
  lemma RaiseUnwindsAllScopes<T>(current: T, outer: T, inner: T)
    ensures var r := Exec(current, [Scope(outer, [Scope(inner, [Read, Raise, Read])]), Read]);
      r.seen == [inner] && r.final == current && r.raised
  {
    var body: seq<Step<T>> := [Read, Raise, Read];
    assert Exec(inner, body[1..]) == Trace([], inner, true);
    assert Exec(inner, body) == Trace([inner], inner, true);
    var middle: seq<Step<T>> := [Scope(inner, body)];
    assert Exec(outer, middle) == Trace([inner], outer, true);
  }
}

=== FILE: strip_defaults.dfy ===
/**
 * Default stripping: removing from an unstructured record the keys whose
 * field still holds its declared default, except Literal-typed fields.
 */
module StripDefaults {
  import opened Wrappers
  import opened Values
  import opened Records

  /** Literal-annotated fields are requirements, not defaults. */
  predicate IsLiteral(f: Field)
  {
    f.ftype.TLiteral?
  }

  /** Whether an unstructured value differs from its key's field default (an
      undeclared key always counts as differing). */
  predicate DiffersFromDefault(fields: seq<Field>, k: string, v: Value)
  {
    match LookupField(fields, k)
    case None => true
    case Some(f) => DefaultValue(f) != Some(v)
  }

  /** `_strip_attr_defaults`: compares the values of the mapping itself
      against the field defaults. */
  function StripAttrDefaults(decl: RecordDecl, m: map<string, Value>): (r: map<string, Value>)
    ensures forall k :: k in r <==> k in m && (k !in FieldNames(decl.fields) || DefaultValue(LookupField(decl.fields, k).value) != Some(m[k]))
    ensures forall k :: k in r ==> r[k] == m[k]
  {
    map k | k in m && DiffersFromDefault(decl.fields, k, m[k]) :: m[k]
  }

  /** `_get_names_of_defaulted_nonliteral_attrs`, corrected: the non-Literal
      fields whose current (structured) attribute value equals their default
      as a value, so a Wildcat attribute counts as defaulted only when its
      dict storage matches the default's as well. The code as written
      compares with attrs equality instead (`DefaultedNonliteralNamesAsWritten`). */
  function DefaultedNonliteralNames(decl: RecordDecl, obj: Instance): (r: set<string>)
    ensures forall k :: k in r <==> exists i :: 0 <= i < |decl.fields| && decl.fields[i].name == k && HoldsDefault(decl, obj, i)
  {
    set i | 0 <= i < |decl.fields| && HoldsDefault(decl, obj, i) :: decl.fields[i].name
  }

  /** Field `i` is not a Literal and the object's attribute equals its default. */
  predicate HoldsDefault(decl: RecordDecl, obj: Instance, i: int)
    requires 0 <= i < |decl.fields|
  {
    var f := decl.fields[i];
    !IsLiteral(f) && f.name in obj.fields && DefaultValue(f) == Some(obj.fields[f.name])
  }

  /** Field `i` holds its default as the code writes the test:
      `getattr(obj, name) == default` goes to the attrs-generated `__eq__`,
      which does not look at a Wildcat attribute's dict storage. */
  predicate HoldsDefaultAsWritten(decl: RecordDecl, obj: Instance, i: int)
    requires 0 <= i < |decl.fields|
  {
    var f := decl.fields[i];
    !IsLiteral(f) && f.name in obj.fields && DefaultValue(f).Some? && AttrsEq(obj.fields[f.name], DefaultValue(f).value)
  }

  /** `_get_names_of_defaulted_nonliteral_attrs` as written. */
  function DefaultedNonliteralNamesAsWritten(decl: RecordDecl, obj: Instance): (r: set<string>)
    ensures forall k :: k in r <==> exists i :: 0 <= i < |decl.fields| && decl.fields[i].name == k && HoldsDefaultAsWritten(decl, obj, i)
  {
    set i | 0 <= i < |decl.fields| && HoldsDefaultAsWritten(decl, obj, i) :: decl.fields[i].name
  }

  /** The two comparisons differ only on dict storage: every name the
      corrected comparison strips, the code as written strips too, and when
      neither the attributes nor the defaults hold storage anywhere they strip
      the same names. */
  lemma AsWrittenAgreesWithoutStorage(decl: RecordDecl, obj: Instance)
    ensures DefaultedNonliteralNames(decl, obj) <= DefaultedNonliteralNamesAsWritten(decl, obj)
    ensures (forall k :: k in obj.fields ==> StorageFree(obj.fields[k]))
      && (forall i :: 0 <= i < |decl.fields| && DefaultValue(decl.fields[i]).Some? ==> StorageFree(DefaultValue(decl.fields[i]).value))
      ==> DefaultedNonliteralNames(decl, obj) == DefaultedNonliteralNamesAsWritten(decl, obj)
  {
    forall i | 0 <= i < |decl.fields| && HoldsDefault(decl, obj, i)
      ensures HoldsDefaultAsWritten(decl, obj, i)
    {
      AttrsEqReflexive(obj.fields[decl.fields[i].name]);
    }
    if (forall k :: k in obj.fields ==> StorageFree(obj.fields[k]))
      && (forall i :: 0 <= i < |decl.fields| && DefaultValue(decl.fields[i]).Some? ==> StorageFree(DefaultValue(decl.fields[i]).value))
    {
      forall i | 0 <= i < |decl.fields| && HoldsDefaultAsWritten(decl, obj, i)
        ensures HoldsDefault(decl, obj, i)
      {
        var f := decl.fields[i];
        AttrsEqWithoutStorage(obj.fields[f.name], DefaultValue(f).value);
      }
    }
  }

  /** As written, whether a Wildcat attribute is stripped does not depend on
      its dict storage: giving the attribute any other storage leaves it
      among the defaulted names. */
  lemma AsWrittenIgnoresStorage(decl: RecordDecl, obj: Instance, i: int, extras: map<string, Value>)
    requires 0 <= i < |decl.fields|
    requires decl.fields[i].name in obj.fields && obj.fields[decl.fields[i].name].VObj?
    requires HoldsDefaultAsWritten(decl, obj, i)
    ensures var name := decl.fields[i].name;
      var w := obj.fields[name].obj;
      name in DefaultedNonliteralNamesAsWritten(decl, obj.(fields := obj.fields[name := VObj(w.(extras := extras))]))
  {
    var name := decl.fields[i].name;
    var w := obj.fields[name].obj;
    var obj' := obj.(fields := obj.fields[name := VObj(w.(extras := extras))]);
    assert HoldsDefaultAsWritten(decl, obj', i);
  }

  /** The intended behaviour: an attribute holding a Wildcat whose dict
      storage differs from its default's is never stripped, so its data
      survives unstructuring with stripping. */
  lemma StorageDifferenceKept(decl: RecordDecl, obj: Instance, i: int)
    requires DistinctNames(decl.fields) && 0 <= i < |decl.fields|
    requires decl.fields[i].name in obj.fields && obj.fields[decl.fields[i].name].VObj?
    requires DefaultValue(decl.fields[i]).Some? && DefaultValue(decl.fields[i]).value.VObj?
    requires obj.fields[decl.fields[i].name].obj.extras != DefaultValue(decl.fields[i]).value.obj.extras
    ensures decl.fields[i].name !in DefaultedNonliteralNames(decl, obj)
  {
  }

  /** `_strip_attrs_defaults`: for an instance of a known record class, drop
      the keys named by `DefaultedNonliteralNames`; any other object's mapping
      passes through unchanged. */
  function StripAttrsDefaults(schema: Schema, m: map<string, Value>, obj: Value): (r: map<string, Value>)
    ensures r.Keys <= m.Keys
    ensures forall k :: k in r ==> r[k] == m[k]
    ensures !(obj.VObj? && obj.obj.cls in schema) ==> r == m
    ensures obj.VObj? && obj.obj.cls in schema ==>
      forall k :: k in m ==> (k !in r <==> k in DefaultedNonliteralNames(schema[obj.obj.cls], obj.obj))
  {
    if obj.VObj? && obj.obj.cls in schema then
      var keysToStrip := DefaultedNonliteralNames(schema[obj.obj.cls], obj.obj);
      map k | k in m && k !in keysToStrip :: m[k]
    else m
  }

  /** A key that is not a declared field (a Wildcat extra, say) is never
      stripped. */
  lemma UndeclaredKeysKept(schema: Schema, m: map<string, Value>, obj: Value, k: string)
    requires k in m
    requires obj.VObj? && obj.obj.cls in schema ==> k !in FieldNames(schema[obj.obj.cls].fields)
    ensures k in StripAttrsDefaults(schema, m, obj) && StripAttrsDefaults(schema, m, obj)[k] == m[k]
  {
  }

  /** The keys removed depend only on the object, so stripping twice is
      stripping once. */
  lemma StripIdempotent(schema: Schema, m: map<string, Value>, obj: Value)
    ensures StripAttrsDefaults(schema, StripAttrsDefaults(schema, m, obj), obj) == StripAttrsDefaults(schema, m, obj)
  {
  }

  /** A declared non-Literal field is stripped iff its attribute value equals
      its default; a Literal field is always kept. */
  lemma StrippedIffDefault(schema: Schema, m: map<string, Value>, o: Instance, i: int)
    requires o.cls in schema && DistinctNames(schema[o.cls].fields)
    requires 0 <= i < |schema[o.cls].fields|
    requires schema[o.cls].fields[i].name in m && schema[o.cls].fields[i].name in o.fields
    ensures var f := schema[o.cls].fields[i];
      f.name !in StripAttrsDefaults(schema, m, VObj(o)) <==> !IsLiteral(f) && DefaultValue(f) == Some(o.fields[f.name])
  {
    var fields := schema[o.cls].fields;
    var f := fields[i];
    if f.name !in StripAttrsDefaults(schema, m, VObj(o)) {
      var j :| 0 <= j < |fields| && fields[j].name == f.name && !IsLiteral(fields[j])
        && DefaultValue(fields[j]) == Some(o.fields[f.name]);
      assert i == j;
    }
  }

  /** An object whose non-Literal fields all hold their defaults, and whose
      mapping holds only such fields, strips to the empty mapping. */
  lemma AllDefaultsStripToEmpty(schema: Schema, m: map<string, Value>, o: Instance)
    requires o.cls in schema
    requires forall k :: k in m ==>
      exists i :: 0 <= i < |schema[o.cls].fields| && schema[o.cls].fields[i].name == k && HoldsDefault(schema[o.cls], o, i)
    ensures StripAttrsDefaults(schema, m, VObj(o)) == map[]
  {
    var r := StripAttrsDefaults(schema, m, VObj(o));
    assert forall k :: k !in r;
  }

  /** The comparison is made on the structured attribute: a field defaulting
      to a factory-built record is stripped by `_strip_attrs_defaults`, while
      `_strip_attr_defaults`, comparing the unstructured mapping, keeps it. */
  lemma StructuredComparison()
    ensures
      var nested := Instance("Nested", Plain, map["i" := VInt(2)], map[]);
      var hasNested := RecordDecl("HasNested", Plain,
        [Field("id", TStr, NoDefault, NonEmpty), Field("nested", TRecord("Nested"), Factory(VObj(nested)), NoValidator)], {});
      var hd := Instance("HasNested", Plain, map["id" := VStr("ben"), "nested" := VObj(nested)], map[]);
      var unstructured := map["id" := VStr("ben"), "nested" := VMap(map["i" := VInt(2)])];
      && StripAttrsDefaults(map["HasNested" := hasNested], unstructured, VObj(hd)) == map["id" := VStr("ben")]
      && StripAttrDefaults(hasNested, unstructured) == unstructured
  {
    var nested := Instance("Nested", Plain, map["i" := VInt(2)], map[]);
    var hasNested := RecordDecl("HasNested", Plain,
      [Field("id", TStr, NoDefault, NonEmpty), Field("nested", TRecord("Nested"), Factory(VObj(nested)), NoValidator)], {});
    var hd := Instance("HasNested", Plain, map["id" := VStr("ben"), "nested" := VObj(nested)], map[]);
    var unstructured := map["id" := VStr("ben"), "nested" := VMap(map["i" := VInt(2)])];
    var names := DefaultedNonliteralNames(hasNested, hd);
    assert hasNested.fields[1].name == "nested";
    assert "nested" in names;
    assert "id" !in names;
    assert StripAttrsDefaults(map["HasNested" := hasNested], unstructured, VObj(hd)) == map["id" := VStr("ben")];
    assert LookupField(hasNested.fields, "nested") == Some(hasNested.fields[1]);
    assert LookupField(hasNested.fields, "id") == Some(hasNested.fields[0]);
  }
}

=== FILE: strip_scenarios.dfy ===
/**
 * The stripping scenarios typecats' default-stripping tests exercise: a
 * Wildcat `WC` with a string, an int and a list-factory default, once with
 * every attribute at its default and once with two changed attributes and an
 * extra key; and a Wildcat `Org` whose `userClaims` attribute is a Wildcat
 * holding only undeclared data.
 */
module StripScenarios {
  import opened Wrappers
  import opened Values
  import opened Records
  import StripDefaults
  import Laws
  import Tc

  const WCDecl: RecordDecl := RecordDecl("WC", Wildcat,
    [Field("s", TStr, Fixed(VStr("")), NoValidator),
     Field("i", TInt, Fixed(VInt(8)), NoValidator),
     Field("lst", TList(TAny), Factory(VList([])), NoValidator)], {})
  const WCSchema: Schema := map["WC" := WCDecl]

  /** `WC()`. */
  const WCDefaults: Instance := Instance("WC", Wildcat, map["s" := VStr(""), "i" := VInt(8), "lst" := VList([])], map[])

  /** `WC(i=4, lst=[1])` after `b["f"] = 2`. */
  const WCChanged: Instance :=
    Instance("WC", Wildcat, map["s" := VStr(""), "i" := VInt(4), "lst" := VList([VInt(1)])], map["f" := VInt(2)])

  /** Every attribute of `WC()` holds its default. */
  lemma DefaultsAllDefaulted()
    ensures StripDefaults.DefaultedNonliteralNames(WCDecl, WCDefaults) == {"s", "i", "lst"}
  {
    assert WCDecl.fields[0].name == "s" && WCDecl.fields[1].name == "i" && WCDecl.fields[2].name == "lst";
    assert StripDefaults.HoldsDefault(WCDecl, WCDefaults, 0);
    assert StripDefaults.HoldsDefault(WCDecl, WCDefaults, 1);
    assert StripDefaults.HoldsDefault(WCDecl, WCDefaults, 2);
  }

  /** Only `s` of the changed instance holds its default. */
  lemma ChangedDefaulted()
    ensures StripDefaults.DefaultedNonliteralNames(WCDecl, WCChanged) == {"s"}
  {
    assert WCDecl.fields[0].name == "s" && WCDecl.fields[1].name == "i" && WCDecl.fields[2].name == "lst";
    assert StripDefaults.HoldsDefault(WCDecl, WCChanged, 0);
    assert !StripDefaults.HoldsDefault(WCDecl, WCChanged, 1);
    assert !StripDefaults.HoldsDefault(WCDecl, WCChanged, 2);
  }

  /** A map is determined by its three keys and their values. */
  lemma ThreeEntries(m: map<string, Value>, a: string, va: Value, b: string, vb: Value, c: string, vc: Value)
    requires m.Keys == {a, b, c}
    requires m[a] == va && m[b] == vb && m[c] == vc
    ensures m == map[a := va, b := vb, c := vc]
  {
  }

  /** A mapping value is determined by its three keys and their values. */
  lemma ThreeEntryMap(v: Value, a: string, va: Value, b: string, vb: Value, c: string, vc: Value)
    requires v.VMap? && v.entries.Keys == {a, b, c}
    requires v.entries[a] == va && v.entries[b] == vb && v.entries[c] == vc
    ensures v == VMap(map[a := va, b := vb, c := vc])
  {
    ThreeEntries(v.entries, a, va, b, vb, c, vc);
  }

  /** A map is determined by its one key and its value. */
  lemma OneEntry(m: map<string, Value>, a: string, va: Value)
    requires m.Keys == {a} && m[a] == va
    ensures m == map[a := va]
  {
  }

  /** A Wildcat at its defaults strips to `{}`. */
  lemma CleanWildcatDefaults(flag: bool)
    ensures Tc.UnstrucStripDefaults(WCSchema, flag, VObj(WCDefaults)).0 == VMap(map[])
  {
    DefaultsAllDefaulted();
    Tc.UnstrucStripDefaultsKeys(WCSchema, flag, WCDefaults);
    var v := Tc.UnstrucStripDefaults(WCSchema, flag, VObj(WCDefaults)).0;
    assert v.entries.Keys == {};
  }

  /** The stripped Wildcat's keys, from the names holding defaults. */
  lemma WildcatStrippedKeys(schema: Schema, flag: bool, o: Instance, names: set<string>, keys: set<string>)
    requires o.cls in schema && o.kind == Wildcat
    requires StripDefaults.DefaultedNonliteralNames(schema[o.cls], o) == names
    requires (o.fields.Keys - names) + (o.extras.Keys - o.fields.Keys) == keys
    ensures var v := Tc.UnstrucStripDefaults(schema, flag, VObj(o)).0;
      v.VMap? && v.entries.Keys == keys
  {
    Tc.UnstrucStripDefaultsKeys(schema, flag, o);
  }

  lemma ChangedKeys(flag: bool)
    ensures var v := Tc.UnstrucStripDefaults(WCSchema, flag, VObj(WCChanged)).0;
      v.VMap? && v.entries.Keys == {"lst", "i", "f"}
  {
    ChangedDefaulted();
    assert WCChanged.fields.Keys == {"s", "i", "lst"} && WCChanged.extras.Keys == {"f"};
    assert ({"s", "i", "lst"} - {"s"}) + ({"f"} - {"s", "i", "lst"}) == {"lst", "i", "f"};
    WildcatStrippedKeys(WCSchema, flag, WCChanged, {"s"}, {"lst", "i", "f"});
  }

  /** A kept attribute holding record-free data comes out unchanged. */
  lemma KeptJsonField(schema: Schema, flag: bool, o: Instance, k: string)
    requires k in Tc.UnstrucStripDefaults(schema, flag, VObj(o)).0.entries
    requires k in o.fields && Json(o.fields[k])
    ensures Tc.UnstrucStripDefaults(schema, flag, VObj(o)).0.entries[k] == o.fields[k]
  {
    Tc.UnstrucStripDefaultsValue(schema, flag, o, k);
    Laws.UnstructureJson(schema, o.fields[k], true);
  }

  /** A Wildcat's extra key holding record-free data is kept, unchanged. */
  lemma KeptJsonExtra(schema: Schema, flag: bool, o: Instance, k: string)
    requires o.kind == Wildcat && k !in o.fields && k in o.extras && Json(o.extras[k])
    ensures var v := Tc.UnstrucStripDefaults(schema, flag, VObj(o)).0;
      v.VMap? && k in v.entries && v.entries[k] == o.extras[k]
  {
    Tc.UnstrucStripsDefaults(schema, flag, o);
    Tc.UnstrucStripDefaultsValue(schema, flag, o, k);
    Laws.UnstructureJson(schema, o.extras[k], true);
  }

  lemma OneElementListIsJson()
    ensures Json(VList([VInt(1)]))
  {
    assert forall i :: 0 <= i < |[VInt(1)]| ==> Json([VInt(1)][i]);
  }

  /** The changed `lst` survives as `[1]`. */
  lemma ChangedList(flag: bool)
    ensures var v := Tc.UnstrucStripDefaults(WCSchema, flag, VObj(WCChanged)).0;
      v.VMap? && "lst" in v.entries && v.entries["lst"] == VList([VInt(1)])
  {
    ChangedKeys(flag);
    OneElementListIsJson();
    KeptJsonField(WCSchema, flag, WCChanged, "lst");
  }

  /** The changed `i` survives as `4`. */
  lemma ChangedInt(flag: bool)
    ensures var v := Tc.UnstrucStripDefaults(WCSchema, flag, VObj(WCChanged)).0;
      v.VMap? && "i" in v.entries && v.entries["i"] == VInt(4)
  {
    ChangedKeys(flag);
    KeptJsonField(WCSchema, flag, WCChanged, "i");
  }

  /** The extra key `f` survives as `2`. */
  lemma ChangedExtra(flag: bool)
    ensures var v := Tc.UnstrucStripDefaults(WCSchema, flag, VObj(WCChanged)).0;
      v.VMap? && "f" in v.entries && v.entries["f"] == VInt(2)
  {
    KeptJsonExtra(WCSchema, flag, WCChanged, "f");
  }

  /** With `i=4`, `lst=[1]` and the extra key `f=2`, exactly the changed
      attributes and the extra key remain, with their values. */
  lemma CleanWildcatChanged(flag: bool)
    ensures Tc.UnstrucStripDefaults(WCSchema, flag, VObj(WCChanged)).0
      == VMap(map["lst" := VList([VInt(1)]), "i" := VInt(4), "f" := VInt(2)])
  {
    ChangedKeys(flag);
    ChangedList(flag);
    ChangedInt(flag);
    ChangedExtra(flag);
    var v := Tc.UnstrucStripDefaults(WCSchema, flag, VObj(WCChanged)).0;
    ThreeEntries(v.entries, "lst", VList([VInt(1)]), "i", VInt(4), "f", VInt(2));
  }
  /** The second `WC` of the tests: every attribute has a default. */
  const ClaimsDecl: RecordDecl := RecordDecl("WC", Wildcat,
    [Field("has_s", TStr, Fixed(VStr("")), NoValidator),
     Field("has_b", TBool, Fixed(VBool(false)), NoValidator)], {})

  /** `WC()`, the factory default of `Org.userClaims`. */
  const ClaimsDefault: Instance := Instance("WC", Wildcat, map["has_s" := VStr(""), "has_b" := VBool(false)], map[])

  /** `WC.struc(dict(random="a string"))`: the defaults plus one extra key. */
  const Claims: Instance :=
    Instance("WC", Wildcat, map["has_s" := VStr(""), "has_b" := VBool(false)], map["random" := VStr("a string")])

  const OrgDecl: RecordDecl := RecordDecl("Org", Wildcat,
    [Field("id", TStr, NoDefault, NonEmpty),
     Field("all", TLiteral(VInt(1)), Fixed(VInt(1)), NoValidator),
     Field("strip_me", TDict, Factory(VMap(map[])), NoValidator),
     Field("userClaims", TRecord("WC"), Factory(VObj(ClaimsDefault)), NoValidator)], {})
  const OrgSchema: Schema := map["Org" := OrgDecl, "WC" := ClaimsDecl]

  /** `Org.struc(dict(id="id2", userClaims=dict(random="a string")))`. */
  const OrgWithClaims: Instance := Instance("Org", Wildcat,
    map["id" := VStr("id2"), "all" := VInt(1), "strip_me" := VMap(map[]), "userClaims" := VObj(Claims)], map[])

  /** attrs equality finds `userClaims` at its default. */
  lemma OrgDefaultedAsWritten()
    ensures StripDefaults.DefaultedNonliteralNamesAsWritten(OrgDecl, OrgWithClaims) == {"strip_me", "userClaims"}
  {
    var fields := OrgDecl.fields;
    assert fields[0].name == "id" && fields[1].name == "all" && fields[2].name == "strip_me" && fields[3].name == "userClaims";
    ClaimsEqualDefaultAsWritten();
    assert !StripDefaults.HoldsDefaultAsWritten(OrgDecl, OrgWithClaims, 0);
    assert !StripDefaults.HoldsDefaultAsWritten(OrgDecl, OrgWithClaims, 1);
    assert StripDefaults.HoldsDefaultAsWritten(OrgDecl, OrgWithClaims, 2);
    assert StripDefaults.HoldsDefaultAsWritten(OrgDecl, OrgWithClaims, 3);
  }

  /** attrs equality finds the claims equal to `WC()`. */
  lemma ClaimsEqualDefaultAsWritten()
    ensures AttrsEq(VObj(Claims), VObj(ClaimsDefault))
  {
    AttrsEqIgnoresStorage(Claims, map[]);
    assert Claims.(extras := map[]) == ClaimsDefault;
  }

  /** Value equality sees the extra key and finds only `strip_me` at its
      default. */
  lemma OrgDefaulted()
    ensures StripDefaults.DefaultedNonliteralNames(OrgDecl, OrgWithClaims) == {"strip_me"}
  {
    var fields := OrgDecl.fields;
    assert fields[0].name == "id" && fields[1].name == "all" && fields[2].name == "strip_me" && fields[3].name == "userClaims";
    assert StripDefaults.HoldsDefault(OrgDecl, OrgWithClaims, 2);
    assert "random" in Claims.extras && "random" !in ClaimsDefault.extras;
    assert !StripDefaults.HoldsDefault(OrgDecl, OrgWithClaims, 3);
  }

  /** The finding in `_get_names_of_defaulted_nonliteral_attrs`: as written it
      counts `userClaims` as defaulted, because attrs equality ignores the
      Wildcat's extra key, and so strips the data the test expects to keep;
      the corrected comparison counts only `strip_me`. */
  lemma AsWrittenStripsWildcatData()
    ensures "userClaims" in StripDefaults.DefaultedNonliteralNamesAsWritten(OrgDecl, OrgWithClaims)
    ensures "userClaims" !in StripDefaults.DefaultedNonliteralNames(OrgDecl, OrgWithClaims)
  {
    OrgDefaultedAsWritten();
    OrgDefaulted();
  }

  /** Every attribute of the claims holds its default. */
  lemma ClaimsDefaulted()
    ensures StripDefaults.DefaultedNonliteralNames(ClaimsDecl, Claims) == {"has_s", "has_b"}
  {
    assert ClaimsDecl.fields[0].name == "has_s" && ClaimsDecl.fields[1].name == "has_b";
    assert StripDefaults.HoldsDefault(ClaimsDecl, Claims, 0);
    assert StripDefaults.HoldsDefault(ClaimsDecl, Claims, 1);
  }

  lemma ClaimsKeys(flag: bool)
    ensures var v := Tc.UnstrucStripDefaults(OrgSchema, flag, VObj(Claims)).0;
      v.VMap? && v.entries.Keys == {"random"}
  {
    ClaimsDefaulted();
    assert Claims.fields.Keys == {"has_s", "has_b"} && Claims.extras.Keys == {"random"};
    assert ({"has_s", "has_b"} - {"has_s", "has_b"}) + ({"random"} - {"has_s", "has_b"}) == {"random"};
    WildcatStrippedKeys(OrgSchema, flag, Claims, {"has_s", "has_b"}, {"random"});
  }

  /** The claims strip to their extra key alone. */
  lemma ClaimsStripToExtra(flag: bool)
    ensures Tc.UnstrucStripDefaults(OrgSchema, flag, VObj(Claims)).0 == VMap(map["random" := VStr("a string")])
  {
    ClaimsKeys(flag);
    KeptJsonExtra(OrgSchema, flag, Claims, "random");
    var v := Tc.UnstrucStripDefaults(OrgSchema, flag, VObj(Claims)).0;
    OneEntry(v.entries, "random", VStr("a string"));
  }

  lemma OrgKeys(flag: bool)
    ensures var v := Tc.UnstrucStripDefaults(OrgSchema, flag, VObj(OrgWithClaims)).0;
      v.VMap? && v.entries.Keys == {"id", "all", "userClaims"}
  {
    OrgDefaulted();
    assert OrgWithClaims.fields.Keys == {"id", "all", "strip_me", "userClaims"} && OrgWithClaims.extras.Keys == {};
    assert ({"id", "all", "strip_me", "userClaims"} - {"strip_me"}) + ({} - {"id", "all", "strip_me", "userClaims"})
      == {"id", "all", "userClaims"};
    WildcatStrippedKeys(OrgSchema, flag, OrgWithClaims, {"strip_me"}, {"id", "all", "userClaims"});
  }

  /** The kept `userClaims` is the claims, themselves stripped. */
  lemma OrgClaimsValue(flag: bool)
    ensures var v := Tc.UnstrucStripDefaults(OrgSchema, flag, VObj(OrgWithClaims)).0;
      v.VMap? && "userClaims" in v.entries && v.entries["userClaims"] == VMap(map["random" := VStr("a string")])
  {
    OrgKeys(flag);
    Tc.UnstrucStripDefaultsValue(OrgSchema, flag, OrgWithClaims, "userClaims");
    ClaimsStripToExtra(flag);
  }

  /** `id` survives as `"id2"`. */
  lemma OrgId(flag: bool)
    ensures var v := Tc.UnstrucStripDefaults(OrgSchema, flag, VObj(OrgWithClaims)).0;
      v.VMap? && "id" in v.entries && v.entries["id"] == VStr("id2")
  {
    OrgKeys(flag);
    KeptJsonField(OrgSchema, flag, OrgWithClaims, "id");
  }

  /** The Literal `all` survives as `1`. */
  lemma OrgAll(flag: bool)
    ensures var v := Tc.UnstrucStripDefaults(OrgSchema, flag, VObj(OrgWithClaims)).0;
      v.VMap? && "all" in v.entries && v.entries["all"] == VInt(1)
  {
    OrgKeys(flag);
    KeptJsonField(OrgSchema, flag, OrgWithClaims, "all");
  }

  /** tests/test_strip_defaults.py's second `Org` case: the claims hold no
      changed attribute but do hold Wildcat data, so they are not stripped,
      and the result is the input with the Literal `all` added. */
  lemma CleanWithWildcatUnderneath(flag: bool)
    ensures Tc.UnstrucStripDefaults(OrgSchema, flag, VObj(OrgWithClaims)).0
      == VMap(map["id" := VStr("id2"), "userClaims" := VMap(map["random" := VStr("a string")]), "all" := VInt(1)])
  {
    OrgKeys(flag);
    OrgId(flag);
    OrgAll(flag);
    OrgClaimsValue(flag);
    var v := Tc.UnstrucStripDefaults(OrgSchema, flag, VObj(OrgWithClaims)).0;
    ThreeEntryMap(v, "id", VStr("id2"), "userClaims", VMap(map["random" := VStr("a string")]), "all", VInt(1));
  }
}

=== FILE: tc.dfy ===
/**
 * The public surface of typecats: the top-level structure and unstructure
 * functions built over a converter, `try_struc`, the per-class `struc`,
 * `try_struc` and `unstruc` that `set_struc_converter` and
 * `set_unstruc_converter` install, and the `Cat` decorator's class-making
 * steps.
 */
module Tc {
  import opened Wrappers
  import opened Values
  import opened Exceptions
  import opened Records
  import AttrsShim
  import Wildcat
  import Patch
  import StripDefaults
  import StackContext

  /** A `hook_common_errors` argument: `_emit_exception_to_default_handler`
      (which dispatches to the hook installed in the slot at call time), or a
      hook passed directly. */
  datatype CommonHook = EmitToDefault | Direct(hook: Hook)

  /** The hook that actually runs when `h` is invoked. */
  function Resolve(slot: HookSlot, h: CommonHook): (r: Hook)
    ensures h.EmitToDefault? ==> r == slot.current
    ensures h.Direct? ==> r == h.hook
  {
    match h
    case EmitToDefault => slot.current
    case Direct(hook) => hook
  }

  /** What a call returned (or raised), and the hook invocations it made. */
  datatype Call<T> = Call(result: T, hookCalls: seq<HookCall>)

  /** `_struc_with_hook`, the function `make_struc` returns, given the
      outcome of `converter.structure(obj, cl)`: success passes through; a
      StructuringError is handed to the hook once (with the extracted stack)
      and re-raised; any other exception propagates untouched. */
  function StrucWithHook(outcome: Result<Value, Exc>, hookErrors: Option<CommonHook>, slot: HookSlot, cl: string, obj: Value): (r: Call<Result<Value, Exc>>)
    ensures r.result == outcome
    ensures |r.hookCalls| <= 1
    ensures |r.hookCalls| == 1 <==> outcome.Err? && IsStructuringError(outcome.error) && hookErrors.Some?
    ensures |r.hookCalls| == 1 ==>
      r.hookCalls[0] == HookCall(Resolve(slot, hookErrors.value), outcome.error, obj, cl, Extract(outcome.error))
  {
    match outcome
    case Ok(_) => Call(outcome, [])
    case Err(e) =>
      if IsStructuringError(e) && hookErrors.Some? then
        Call(outcome, [HookCall(Resolve(slot, hookErrors.value), e, obj, cl, Extract(e))])
      else Call(outcome, [])
  }

  /** `_try_struc` over the call `structure_method(cl, obj)` made: a success
      is returned; a StructuringError becomes None silently; any other
      exception goes to the default handler and becomes None. It never
      raises: every class modelled is an `Exception`
      (`Exceptions.EveryClassIsException`), so `except Exception` catches
      every failure. */
  function TryStruc(attempt: Call<Result<Value, Exc>>, slot: HookSlot, cl: string, obj: Value): (r: Call<Option<Value>>)
    ensures attempt.hookCalls <= r.hookCalls
    ensures r.result.Some? <==> attempt.result.Ok?
    ensures r.result.Some? ==> r.result.value == attempt.result.value
    ensures attempt.result.Err? && !IsStructuringError(attempt.result.error) ==>
      r.hookCalls == attempt.hookCalls + [Emit(slot, attempt.result.error, obj, cl, Extract(attempt.result.error))]
    ensures !(attempt.result.Err? && !IsStructuringError(attempt.result.error)) ==> r.hookCalls == attempt.hookCalls
  {
    match attempt.result
    case Ok(v) => Call(Some(v), attempt.hookCalls)
    case Err(e) =>
      if IsStructuringError(e) then Call(None, attempt.hookCalls)
      else Call(None, attempt.hookCalls + [Emit(slot, e, obj, cl, Extract(e))])
  }

  /** The typecats default converter's structure of `obj` as record class
      `cl`, through the patched hooks. */
  function ConverterStructure(schema: Schema, cl: string, obj: Value): (r: Result<Value, Exc>)
    requires Patch.WellFormed(schema)
    ensures cl in schema && r.Ok? ==> r.value.VObj? && r.value.obj.cls == cl
    ensures cl in schema && !obj.VMap? ==> r.Err?
  {
    Patch.Structure(schema, TRecord(cl), obj)
  }

  /** The module-level `struc`: `make_struc` with the default handler as hook. */
  function Struc(schema: Schema, slot: HookSlot, cl: string, obj: Value): (r: Call<Result<Value, Exc>>)
    requires Patch.WellFormed(schema)
    ensures cl in schema && r.result.Ok? ==> r.result.value.VObj? && r.result.value.obj.cls == cl
    ensures r.hookCalls == if r.result.Err? && IsStructuringError(r.result.error)
      then [HookCall(slot.current, r.result.error, obj, cl, Extract(r.result.error))] else []
  {
    StrucWithHook(ConverterStructure(schema, cl, obj), Some(EmitToDefault), slot, cl, obj)
  }

  /** The module-level `try_struc`: `_try_struc` over `struc`. */
  function ModuleTryStruc(schema: Schema, slot: HookSlot, cl: string, obj: Value): (r: Call<Option<Value>>)
    requires Patch.WellFormed(schema)
    ensures r.result.Some? <==> Struc(schema, slot, cl, obj).result.Ok?
    ensures r.result.Some? ==> r.result.value == Struc(schema, slot, cl, obj).result.value && r.hookCalls == []
    ensures r.result.None? ==> |r.hookCalls| == 1 && r.hookCalls[0].hook == slot.current && r.hookCalls[0].item == obj
  {
    TryStruc(Struc(schema, slot, cl, obj), slot, cl, obj)
  }

  /** The per-class `struc` that `set_struc_converter` installs. */
  function ClassStruc(schema: Schema, slot: HookSlot, hookErrors: CommonHook, cl: string, obj: Value): (r: Call<Result<Value, Exc>>)
    requires Patch.WellFormed(schema)
    ensures r.result == Struc(schema, slot, cl, obj).result
    ensures |r.hookCalls| <= 1
    ensures |r.hookCalls| == 1 <==> r.result.Err? && IsStructuringError(r.result.error)
    ensures |r.hookCalls| == 1 ==> r.hookCalls[0].hook == Resolve(slot, hookErrors)
  {
    StrucWithHook(ConverterStructure(schema, cl, obj), Some(hookErrors), slot, cl, obj)
  }

  /** The per-class `try_struc`: `_try_struc` over a `make_struc` built
      without a hook. */
  function ClassTryStruc(schema: Schema, slot: HookSlot, cl: string, obj: Value): (r: Call<Option<Value>>)
    requires Patch.WellFormed(schema)
    ensures r.result.Some? <==> Struc(schema, slot, cl, obj).result.Ok?
    ensures |r.hookCalls| <= 1
    ensures |r.hookCalls| == 1 <==>
      Struc(schema, slot, cl, obj).result.Err? && !IsStructuringError(Struc(schema, slot, cl, obj).result.error)
  {
    TryStruc(StrucWithHook(ConverterStructure(schema, cl, obj), None, slot, cl, obj), slot, cl, obj)
  }

  /** Every entry point agrees on the structured value: `struc` succeeds
      with `x` iff `try_struc` returns `x`, and a per-class `struc` returns
      or raises exactly what the module-level one does. */
  lemma EntryPointsAgree(schema: Schema, slot: HookSlot, hookErrors: CommonHook, cl: string, obj: Value)
    requires Patch.WellFormed(schema)
    ensures ClassStruc(schema, slot, hookErrors, cl, obj).result == Struc(schema, slot, cl, obj).result
    ensures Struc(schema, slot, cl, obj).result.Ok? <==> ModuleTryStruc(schema, slot, cl, obj).result.Some?
    ensures ModuleTryStruc(schema, slot, cl, obj).result == ClassTryStruc(schema, slot, cl, obj).result
    ensures Struc(schema, slot, cl, obj).result.Ok? ==>
      ModuleTryStruc(schema, slot, cl, obj).result == Some(Struc(schema, slot, cl, obj).result.value)
  {
  }

  /** A StructuringError reaches the installed hook once through `struc`
      and `try_struc`, but not at all through the per-class `try_struc`,
      whose `struc` has no hook. */
  lemma StructuringErrorHooks(schema: Schema, slot: HookSlot, cl: string, obj: Value)
    requires Patch.WellFormed(schema)
    requires ConverterStructure(schema, cl, obj).Err? && IsStructuringError(ConverterStructure(schema, cl, obj).error)
    ensures var e := ConverterStructure(schema, cl, obj).error;
      && Struc(schema, slot, cl, obj).hookCalls == [HookCall(slot.current, e, obj, cl, Extract(e))]
      && ModuleTryStruc(schema, slot, cl, obj) == Call(None, [HookCall(slot.current, e, obj, cl, Extract(e))])
      && ClassTryStruc(schema, slot, cl, obj) == Call(None, [])
  {
  }

  /** Any other exception escapes `struc` without the hook, and every
      `try_struc` sends it to the default handler exactly once. */
  lemma OtherErrorHooks(schema: Schema, slot: HookSlot, cl: string, obj: Value)
    requires Patch.WellFormed(schema)
    requires ConverterStructure(schema, cl, obj).Err? && !IsStructuringError(ConverterStructure(schema, cl, obj).error)
    ensures var e := ConverterStructure(schema, cl, obj).error;
      && Struc(schema, slot, cl, obj) == Call(Err(e), [])
      && ModuleTryStruc(schema, slot, cl, obj) == Call(None, [HookCall(slot.current, e, obj, cl, Extract(e))])
      && ClassTryStruc(schema, slot, cl, obj) == Call(None, [HookCall(slot.current, e, obj, cl, Extract(e))])
  {
  }

  /** `try_struc(T, None)` and `T.try_struc(None)` are None for every record
      class, with or without defaults. */
  lemma TryStrucNone(schema: Schema, slot: HookSlot, cl: string)
    requires Patch.WellFormed(schema) && cl in schema
    ensures ModuleTryStruc(schema, slot, cl, VNone).result.None?
    ensures ClassTryStruc(schema, slot, cl, VNone).result.None?
  {
    assert ConverterStructure(schema, cl, VNone).Err?;
  }

  /** `_unstruc`, the function `make_unstruc` returns: the converter's
      unstructure run inside `stack_context(ShouldStripDefaults, strip)`,
      starting from the flag's current value `flag`. Returns the result and
      the flag's value afterwards. */
  function Unstruc(schema: Schema, flag: bool, obj: Value, strip: bool): (r: (Value, bool))
    ensures r.0 == Patch.Unstructure(schema, obj, strip)
    ensures r.1 == flag
  {
    var trace := StackContext.Exec(flag, [StackContext.Scope(strip, [StackContext.Read])]);
    StackContext.ScopeRestores(flag, strip, [StackContext.Read]);
    StackContext.ScopeReadsValue(flag, flag, strip, [StackContext.Read]);
    (Patch.Unstructure(schema, obj, trace.seen[0]), trace.final)
  }

  /** `unstruc_strip_defaults`: unstructuring with the flag set for the call. */
  function UnstrucStripDefaults(schema: Schema, flag: bool, obj: Value): (r: (Value, bool))
    ensures r.0 == Patch.Unstructure(schema, obj, true)
    ensures r.1 == flag
  {
    Unstruc(schema, flag, obj, true)
  }

  /** `unstruc_strip_defaults` of a record: a declared attribute is dropped
      iff it still holds its default and is not a Literal, every Wildcat
      extra key survives, and a nested record value is stripped in the same
      way; `unstruc` without the flag drops no attribute. */
  lemma UnstrucStripsDefaults(schema: Schema, flag: bool, o: Instance)
    ensures var r := UnstrucStripDefaults(schema, flag, VObj(o)).0;
      && r.VMap?
      && (forall k :: k in o.fields ==>
            (k in r.entries <==> !(o.cls in schema && k in StripDefaults.DefaultedNonliteralNames(schema[o.cls], o))))
      && (o.cls in schema && DistinctNames(schema[o.cls].fields) ==>
            forall i :: 0 <= i < |schema[o.cls].fields| && schema[o.cls].fields[i].name in o.fields ==>
              var f := schema[o.cls].fields[i];
              (f.name !in r.entries <==> !StripDefaults.IsLiteral(f) && DefaultValue(f) == Some(o.fields[f.name])))
      && (o.kind == Wildcat ==> forall k :: k in o.extras && k !in o.fields ==> k in r.entries)
      && (forall k :: k in r.entries ==> k in o.fields || k in o.extras)
      && (forall k :: k in r.entries && k in o.fields ==> r.entries[k] == Patch.Unstructure(schema, o.fields[k], true))
      && (forall k :: k in r.entries && k !in o.fields ==> r.entries[k] == Patch.Unstructure(schema, o.extras[k], true))
      && (forall k :: k in r.entries && k in o.fields && o.fields[k].VObj? ==>
            r.entries[k] == VMap(Patch.UnstructureStripDefaults(schema, o.fields[k].obj, true)))
    ensures o.fields.Keys <= Unstruc(schema, flag, VObj(o), false).0.entries.Keys
  {
    if o.cls in schema && DistinctNames(schema[o.cls].fields) {
      StrippedByIndex(schema, flag, o);
    }
  }

  /** The per-attribute form of the stripping rule, by field position. */
  lemma StrippedByIndex(schema: Schema, flag: bool, o: Instance)
    requires o.cls in schema && DistinctNames(schema[o.cls].fields)
    ensures var r := UnstrucStripDefaults(schema, flag, VObj(o)).0;
      r.VMap? &&
      forall i :: 0 <= i < |schema[o.cls].fields| && schema[o.cls].fields[i].name in o.fields ==>
        var f := schema[o.cls].fields[i];
        (f.name !in r.entries <==> !StripDefaults.IsLiteral(f) && DefaultValue(f) == Some(o.fields[f.name]))
  {
    var r := UnstrucStripDefaults(schema, flag, VObj(o)).0;
    var fields := schema[o.cls].fields;
    forall i | 0 <= i < |fields| && fields[i].name in o.fields
      ensures fields[i].name !in r.entries <==> !StripDefaults.IsLiteral(fields[i]) && DefaultValue(fields[i]) == Some(o.fields[fields[i].name])
    {
      var f := fields[i];
      if f.name !in r.entries {
        var j :| 0 <= j < |fields| && fields[j].name == f.name && StripDefaults.HoldsDefault(schema[o.cls], o, j);
        assert i == j;
      } else {
        assert !StripDefaults.HoldsDefault(schema[o.cls], o, i);
      }
    }
  }

  /** The keys `unstruc_strip_defaults` leaves for a record of a known
      class: the attributes not stripped, plus a Wildcat's extra keys. */
  lemma UnstrucStripDefaultsKeys(schema: Schema, flag: bool, o: Instance)
    requires o.cls in schema
    ensures var r := UnstrucStripDefaults(schema, flag, VObj(o)).0;
      r.VMap? && r.entries.Keys ==
        (o.fields.Keys - StripDefaults.DefaultedNonliteralNames(schema[o.cls], o))
        + (if o.kind == Wildcat then o.extras.Keys - o.fields.Keys else {})
  {
    UnstrucStripsDefaults(schema, flag, o);
    var stripped := Patch.UnstructureStripDefaults(schema, o, true);
  }

  /** The value `unstruc_strip_defaults` gives a key it keeps: the attribute
      or the extra value, itself unstructured with the flag set. */
  lemma UnstrucStripDefaultsValue(schema: Schema, flag: bool, o: Instance, k: string)
    requires k in UnstrucStripDefaults(schema, flag, VObj(o)).0.entries
    ensures var r := UnstrucStripDefaults(schema, flag, VObj(o)).0;
      r.entries[k] == Patch.Unstructure(schema, if k in o.fields then o.fields[k] else o.extras[k], true)
  {
    UnstrucStripsDefaults(schema, flag, o);
  }

  /** An `unstruc` call nested inside a stripping one (a Wildcat extra's
      value being unstructured, say) leaves the outer flag set afterwards. */
  lemma InnerUnstrucKeepsOuterFlag(outer: bool, inner: bool)
    ensures var r := StackContext.Exec(false, [StackContext.Scope(outer, [
        StackContext.Scope(inner, [StackContext.Read]), StackContext.Read])]);
      r.seen == [inner, outer] && r.final == false
  {
    var body: seq<StackContext.Step<bool>> := [StackContext.Scope(inner, [StackContext.Read]), StackContext.Read];
    assert StackContext.Exec(outer, body[1..]) == StackContext.Trace([outer], outer, false);
    var innerBody: seq<StackContext.Step<bool>> := [StackContext.Read];
    assert StackContext.Exec(inner, innerBody) == StackContext.Trace([inner], inner, false);
  }

  /** The `Cat` decorator's arguments that shape the class. */
  datatype CatOptions = CatOptions(attrs: AttrsShim.AttrsOptions, disallowEmpties: bool, converter: nat)

  /** A Cat class: its final namespace, the attrs build plan, whether it is
      a Wildcat, the converter and common-error hook its `struc` and
      `try_struc` use, and the converter its `unstruc` uses. */
  datatype CatClass = CatClass(spec: ClassSpec, plan: AttrsShim.BuildPlan, kind: Kind,
    strucConverter: nat, strucHook: CommonHook, unstrucConverter: nat)

  const StrucNames: set<string> := {"struc", "try_struc", "unstruc"}

  /** `make_cat`: `cat_attrs` (the option checks, then non-emptiness
      validators), the dict safeguards for a Wildcat, the three conversion
      methods, then the Wildcat repr/bool mixin. */
  function MakeCat(c: ClassSpec, o: CatOptions): (r: Result<CatClass, Exc>)
    ensures r.Err? <==> AttrsShim.CatAttrsPlan(o.attrs).Err?
    ensures r.Err? ==> r.error.cls == TypeError
    ensures r.Ok? ==> r.value.plan == AttrsShim.CatAttrsPlan(o.attrs).value
    ensures r.Ok? ==> (r.value.kind == Wildcat <==> Wildcat.IsWildcat(c))
    ensures r.Ok? ==> |r.value.spec.fields| == |c.fields|
    ensures r.Ok? ==> forall i :: 0 <= i < |c.fields| ==>
      r.value.spec.fields[i] == AttrsShim.InjectNonEmpty(c.fields[i], o.disallowEmpties)
    ensures r.Ok? ==> StrucNames + c.ownNames <= r.value.spec.ownNames
    ensures r.Ok? && Wildcat.IsWildcat(c) ==>
      {"__setitem__", "__getitem__", "update", "__repr__", "__attrs_repr__"} <= r.value.spec.ownNames
    ensures r.Ok? && !Wildcat.IsWildcat(c) ==>
      r.value.spec == c.(ownNames := c.ownNames + StrucNames, fields := r.value.spec.fields)
    ensures r.Ok? ==> r.value.strucConverter == o.converter && r.value.unstrucConverter == o.converter
    ensures r.Ok? ==> r.value.strucHook == EmitToDefault
  {
    var plan :- AttrsShim.CatAttrsPlan(o.attrs);
    var fields := seq(|c.fields|, i requires 0 <= i < |c.fields| => AttrsShim.InjectNonEmpty(c.fields[i], o.disallowEmpties));
    var built := c.(fields := fields);
    var wildcat := Wildcat.IsWildcat(built);
    var guarded := if wildcat then Wildcat.BlockDangerousDictOperations(built) else built;
    var converted := guarded.(ownNames := guarded.ownNames + StrucNames);
    var finished := if wildcat then Wildcat.MixinWildcatPostAttrsMethods(converted) else converted;
    Ok(CatClass(finished, plan, if wildcat then Wildcat else Plain, o.converter, EmitToDefault, o.converter))
  }

  /** `is_wildcat` gives the same answer on the finished Cat class as on the
      class `make_cat` was given: the safeguards and mix-ins keep a dict
      subclass a Wildcat, and `struc`, `try_struc` and `unstruc` do not make
      a plain class one. */
  lemma WildcatDetectionStable(c: ClassSpec, o: CatOptions)
    requires MakeCat(c, o).Ok?
    ensures Wildcat.IsWildcat(MakeCat(c, o).value.spec) <==> Wildcat.IsWildcat(c)
    ensures Wildcat.IsWildcat(MakeCat(c, o).value.spec) <==> MakeCat(c, o).value.kind == Wildcat
  {
    var fields := seq(|c.fields|, i requires 0 <= i < |c.fields| => AttrsShim.InjectNonEmpty(c.fields[i], o.disallowEmpties));
    var built := c.(fields := fields);
    assert Wildcat.IsWildcat(built) == Wildcat.IsWildcat(c);
    if Wildcat.IsWildcat(c) {
      var guarded := Wildcat.BlockDangerousDictOperations(built);
      var converted := guarded.(ownNames := guarded.ownNames + StrucNames);
      assert Wildcat.IsWildcat(converted);
    }
  }

  /** The record declaration a Cat class contributes to a schema. */
  function DeclOf(cat: CatClass): (d: RecordDecl)
    ensures d.name == cat.spec.name && d.kind == cat.kind && d.fields == cat.spec.fields
    ensures d.classNames == cat.spec.ownNames + cat.spec.inheritedNames
  {
    RecordDecl(cat.spec.name, cat.kind, cat.spec.fields, cat.spec.ownNames + cat.spec.inheritedNames)
  }

  /** A Wildcat's conversion methods are attribute names, so its dict
      storage refuses them as keys: `w["struc"] = ...` raises KeyError. */
  lemma CatMethodsAreGuarded(c: ClassSpec, o: CatOptions, w: Instance, value: Value)
    requires MakeCat(c, o).Ok? && Wildcat.IsWildcat(c)
    ensures var d := DeclOf(MakeCat(c, o).value);
      forall n :: n in StrucNames ==> Wildcat.SetItem(d, w, n, value).outcome.Fail?
  {
  }

  /** The converters in play, by identity; each knows the record classes
      whose hooks were generated on it. */
  type Converters = map<nat, Schema>

  /** `set_struc_converter(cls, converter, hook_common_errors=hook)`: rebinds
      `struc` and `try_struc` only. */
  function SetStrucConverter(cat: CatClass, converter: nat, hook: CommonHook): (r: CatClass)
    ensures r.strucConverter == converter && r.strucHook == hook
    ensures r.(strucConverter := cat.strucConverter, strucHook := cat.strucHook) == cat
  {
    cat.(strucConverter := converter, strucHook := hook)
  }

  /** `set_unstruc_converter`: rebinds `unstruc` only. */
  function SetUnstrucConverter(cat: CatClass, converter: nat): (r: CatClass)
    ensures r.unstrucConverter == converter
    ensures r.(unstrucConverter := cat.unstrucConverter) == cat
  {
    cat.(unstrucConverter := converter)
  }

  /** `Cls.struc(d)`: the per-class `struc` over the class's structuring
      converter and hook. */
  function CatStruc(converters: Converters, slot: HookSlot, cat: CatClass, obj: Value): (r: Call<Result<Value, Exc>>)
    requires cat.strucConverter in converters && Patch.WellFormed(converters[cat.strucConverter])
    ensures r.result == Struc(converters[cat.strucConverter], slot, cat.spec.name, obj).result
    ensures |r.hookCalls| == 1 ==> r.hookCalls[0].hook == Resolve(slot, cat.strucHook)
  {
    ClassStruc(converters[cat.strucConverter], slot, cat.strucHook, cat.spec.name, obj)
  }

  /** `Cls.try_struc(d)`: the per-class `try_struc` over the class's
      structuring converter. */
  function CatTryStruc(converters: Converters, slot: HookSlot, cat: CatClass, obj: Value): (r: Call<Option<Value>>)
    requires cat.strucConverter in converters && Patch.WellFormed(converters[cat.strucConverter])
    ensures r.result.Some? <==> Struc(converters[cat.strucConverter], slot, cat.spec.name, obj).result.Ok?
  {
    ClassTryStruc(converters[cat.strucConverter], slot, cat.spec.name, obj)
  }

  /** `obj.unstruc(strip_defaults=strip)`: `_unstruc` over the class's
      unstructuring converter. */
  function CatUnstruc(converters: Converters, flag: bool, cat: CatClass, obj: Value, strip: bool): (r: (Value, bool))
    requires cat.unstrucConverter in converters
    ensures r.0 == Patch.Unstructure(converters[cat.unstrucConverter], obj, strip) && r.1 == flag
  {
    Unstruc(converters[cat.unstrucConverter], flag, obj, strip)
  }

  /** After `set_struc_converter`, `struc` and `try_struc` run on the new
      converter with the new hook, and `unstruc` is untouched; after
      `set_unstruc_converter`, only `unstruc` changes. */
  lemma SetConvertersRebind(converters: Converters, slot: HookSlot, flag: bool, cat: CatClass,
                            c: nat, hook: CommonHook, obj: Value, strip: bool)
    requires c in converters && Patch.WellFormed(converters[c])
    requires cat.strucConverter in converters && Patch.WellFormed(converters[cat.strucConverter])
    requires cat.unstrucConverter in converters
    ensures var cat1 := SetStrucConverter(cat, c, hook);
      && CatStruc(converters, slot, cat1, obj) == ClassStruc(converters[c], slot, hook, cat.spec.name, obj)
      && CatTryStruc(converters, slot, cat1, obj) == ClassTryStruc(converters[c], slot, cat.spec.name, obj)
      && CatUnstruc(converters, flag, cat1, obj, strip) == CatUnstruc(converters, flag, cat, obj, strip)
    ensures var cat2 := SetUnstrucConverter(cat, c);
      && CatStruc(converters, slot, cat2, obj) == CatStruc(converters, slot, cat, obj)
      && CatTryStruc(converters, slot, cat2, obj) == CatTryStruc(converters, slot, cat, obj)
      && CatUnstruc(converters, flag, cat2, obj, strip).0 == Patch.Unstructure(converters[c], obj, strip)
  {
  }
}

=== FILE: values.dfy ===
/**
 * The data a typecats converter moves between: JSON-like unstructured trees
 * (maps, lists, scalars) and structured record instances.
 */
module Values {

  /** Whether a record type is an ordinary attrs class or a Wildcat
      (a record that is also a dict and keeps undeclared keys). */
  datatype Kind = Plain | Wildcat

  /** A Python value as far as typecats cares. Floats and Decimals are kept as
      reals: only whether they are zero matters to the model. */
  datatype Value =
    | VNone
    | VBool(b: bool)
    | VInt(i: int)
    | VFloat(f: real)
    | VDecimal(d: real)
    | VStr(s: string)
    | VList(items: seq<Value>)
    | VMap(entries: map<string, Value>)
    | VObj(obj: Instance)

  /** A structured record: its declared attribute values and, for a Wildcat,
      the extra keys held in its dict storage. */
  datatype Instance = Instance(
    cls: string,
    kind: Kind,
    fields: map<string, Value>,
    extras: map<string, Value>)

  /** Python truthiness (`bool(v)`). A plain record instance has no `__len__`
      or `__bool__` and is truthy; a Wildcat uses the `__bool__` mixed in by
      typecats: falsy only with no extra keys and every attribute falsy. */
  predicate Truthy(v: Value)
  {
    match v
    case VNone => false
    case VBool(b) => b
    case VInt(i) => i != 0
    case VFloat(f) => f != 0.0
    case VDecimal(d) => d != 0.0
    case VStr(s) => |s| > 0
    case VList(items) => |items| > 0
    case VMap(entries) => |entries| > 0
    case VObj(o) =>
      match o.kind
      case Plain => true
      case Wildcat => |o.extras| > 0 || exists k :: k in o.fields && Truthy(o.fields[k])
  }

  /** An unstructured tree: no record instance anywhere inside. */
  predicate Json(v: Value)
  {
    match v
    case VList(items) => forall i :: 0 <= i < |items| ==> Json(items[i])
    case VMap(entries) => forall k :: k in entries ==> Json(entries[k])
    case VObj(_) => false
    case _ => true
  }

  predicate JsonMap(m: map<string, Value>)
  {
    forall k :: k in m ==> Json(m[k])
  }
  /** Python `==` on values as attrs generates it for records (`add_cmp`):
      two instances are equal iff they are of the same class and their
      declared attributes are equal; a Wildcat's dict storage takes no part.
      Lists and dicts compare element-wise, scalars by value. */
  predicate AttrsEq(a: Value, b: Value)
  {
    match a
    case VList(xs) =>
      b.VList? && |xs| == |b.items| && forall i :: 0 <= i < |xs| ==> AttrsEq(xs[i], b.items[i])
    case VMap(m) =>
      b.VMap? && m.Keys == b.entries.Keys && forall k :: k in m ==> AttrsEq(m[k], b.entries[k])
    case VObj(o) =>
      && b.VObj? && o.cls == b.obj.cls && o.kind == b.obj.kind && o.fields.Keys == b.obj.fields.Keys
      && forall k :: k in o.fields ==> AttrsEq(o.fields[k], b.obj.fields[k])
    case _ => a == b
  }

  /** No Wildcat anywhere inside the value holds undeclared keys. */
  predicate StorageFree(v: Value)
  {
    match v
    case VList(xs) => forall i :: 0 <= i < |xs| ==> StorageFree(xs[i])
    case VMap(m) => forall k :: k in m ==> StorageFree(m[k])
    case VObj(o) => o.extras == map[] && forall k :: k in o.fields ==> StorageFree(o.fields[k])
    case _ => true
  }

  /** Every value is attrs-equal to itself. */
  lemma {:induction false} AttrsEqReflexive(v: Value)
    ensures AttrsEq(v, v)
  {
    match v
    case VList(xs) =>
      forall i | 0 <= i < |xs| ensures AttrsEq(xs[i], xs[i]) {
        AttrsEqReflexive(xs[i]);
      }
    case VMap(m) =>
      forall k | k in m ensures AttrsEq(m[k], m[k]) {
        AttrsEqReflexive(m[k]);
      }
    case VObj(o) =>
      forall k | k in o.fields ensures AttrsEq(o.fields[k], o.fields[k]) {
        AttrsEqReflexive(o.fields[k]);
      }
    case _ =>
  }

  /** attrs equality cannot see dict storage: a record equals the same record
      with any other storage. */
  lemma AttrsEqIgnoresStorage(o: Instance, extras: map<string, Value>)
    ensures AttrsEq(VObj(o), VObj(o.(extras := extras)))
  {
    AttrsEqReflexive(VObj(o));
  }

  /** Where no Wildcat storage is involved, attrs equality is exactly value
      equality. */
  lemma {:induction false} AttrsEqWithoutStorage(a: Value, b: Value)
    requires StorageFree(a) && StorageFree(b)
    ensures AttrsEq(a, b) <==> a == b
  {
    AttrsEqReflexive(a);
    if AttrsEq(a, b) {
      match a
      case VList(xs) =>
        forall i | 0 <= i < |xs| ensures xs[i] == b.items[i] {
          AttrsEqWithoutStorage(xs[i], b.items[i]);
        }
        assert xs == b.items;
      case VMap(m) =>
        forall k | k in m ensures m[k] == b.entries[k] {
          AttrsEqWithoutStorage(m[k], b.entries[k]);
        }
        assert m == b.entries;
      case VObj(o) =>
        forall k | k in o.fields ensures o.fields[k] == b.obj.fields[k] {
          AttrsEqWithoutStorage(o.fields[k], b.obj.fields[k]);
        }
        assert o.fields == b.obj.fields;
        assert o == b.obj;
      case _ =>
    }
  }
}

=== FILE: wildcat.dfy ===
/**
 * Wildcats: records that are also dicts. Detection, the strict safeguards on
 * item access, truthiness and repr, the class-level mix-ins, and the
 * enrichment that carries undeclared keys through structuring and back.
 */
module Wildcat {
  import opened Wrappers
  import opened Values
  import opened Exceptions
  import opened Records

  /** `is_wildcat`: the class (or instance) has `__setitem__`, `__getitem__`
      and `__iter__`. */
  predicate IsWildcat(c: ClassSpec)
  {
    HasAttr(c, "__setitem__") && HasAttr(c, "__getitem__") && HasAttr(c, "__iter__")
  }

  /** The instance holds exactly the declared attributes, and its dict storage
      never holds a declared field name. */
  predicate Consistent(decl: RecordDecl, w: Instance)
  {
    && w.fields.Keys == FieldNames(decl.fields)
    && w.extras.Keys !! FieldNames(decl.fields)
  }

  /** The state of a Wildcat after a dict operation, and whether it raised. */
  datatype Mutation = Mutation(state: Instance, outcome: Outcome<Exc>)

  function DangerousKey(decl: RecordDecl, key: string, verb: string): Exc
  {
    Leaf(KeyError, "Attribute '" + key + "' is explicitly typed on '" + decl.name + "' so " + verb
      + " it as a dictionary key is dangerous and therefore disallowed.", None)
  }

  /** Strict `__setitem__`: a key that is an attribute raises KeyError and
      changes nothing; any other key is stored in the dict. */
  function SetItem(decl: RecordDecl, w: Instance, key: string, value: Value): (r: Mutation)
    ensures r.outcome.Fail? <==> key in AttrNames(decl)
    ensures r.outcome.Fail? ==> r.state == w && r.outcome.error.cls == KeyError
    ensures r.outcome.Pass? ==> r.state.extras.Keys == w.extras.Keys + {key} && r.state.extras[key] == value
    ensures forall k :: k in w.extras && k != key ==> k in r.state.extras && r.state.extras[k] == w.extras[k]
    ensures r.state.fields == w.fields && r.state.cls == w.cls && r.state.kind == w.kind
  {
    if key in AttrNames(decl) then Mutation(w, Fail(DangerousKey(decl, key, "setting")))
    else Mutation(w.(extras := w.extras[key := value]), Pass)
  }

  /** Strict `__getitem__`: an attribute key raises KeyError; other keys read
      the dict (KeyError when absent). */
  function GetItem(decl: RecordDecl, w: Instance, key: string): (r: Result<Value, Exc>)
    ensures r.Ok? <==> key !in AttrNames(decl) && key in w.extras
    ensures r.Ok? ==> r.value == w.extras[key]
    ensures r.Err? ==> r.error.cls == KeyError
  {
    if key in AttrNames(decl) then Err(DangerousKey(decl, key, "getting"))
    else if key in w.extras then Ok(w.extras[key])
    else Err(Leaf(KeyError, key, None))
  }

  /** dict's `__delitem__`, which typecats does not override. */
  function DelItem(w: Instance, key: string): (r: Mutation)
    ensures r.outcome.Fail? <==> key !in w.extras
    ensures r.outcome.Pass? ==> r.state.extras.Keys == w.extras.Keys - {key}
    ensures forall k :: k in r.state.extras ==> k in w.extras && r.state.extras[k] == w.extras[k]
    ensures r.state.fields == w.fields
  {
    if key in w.extras then Mutation(w.(extras := w.extras - {key}), Pass)
    else Mutation(w, Fail(Leaf(KeyError, key, None)))
  }

  /** Setting an extra key and deleting it again restores the Wildcat
      exactly: the same attributes and the same dict storage. */
  lemma SetThenDeleteRestores(decl: RecordDecl, w: Instance, key: string, value: Value)
    requires key !in w.extras && key !in AttrNames(decl)
    ensures DelItem(SetItem(decl, w, key, value).state, key) == Mutation(w, Pass)
  {
    var after := SetItem(decl, w, key, value).state;
    assert after.extras - {key} == w.extras;
  }

  /** A successful store never breaks consistency: the dict keeps away from
      declared field names. */
  lemma SetItemKeepsConsistent(decl: RecordDecl, w: Instance, key: string, value: Value)
    requires Consistent(decl, w)
    ensures Consistent(decl, SetItem(decl, w, key, value).state)
  {
  }

  /** dict.update applied to one ordered list of key/value pairs. */
  function ApplyPairs(extras: map<string, Value>, pairs: seq<(string, Value)>): map<string, Value>
    decreases |pairs|
  {
    if pairs == [] then extras else ApplyPairs(extras[pairs[0].0 := pairs[0].1], pairs[1..])
  }

  /** The first key of `pairs` that is in `names`, in order. */
  function FirstCollision(pairs: seq<(string, Value)>, names: set<string>): (r: Option<string>)
    ensures r.None? <==> forall i :: 0 <= i < |pairs| ==> pairs[i].0 !in names
    ensures r.Some? ==> r.value in names && exists i :: 0 <= i < |pairs| && pairs[i].0 == r.value
  {
    if pairs == [] then None
    else if pairs[0].0 in names then Some(pairs[0].0)
    else FirstCollision(pairs[1..], names)
  }

  /** Strict `update(other_dict, **kwargs)`: when `other_dict` is non-empty it
      alone is used (keyword arguments are then ignored), otherwise the
      keyword arguments are. Every key is checked before anything is stored,
      so a colliding key raises KeyError with no change at all. */
  function Update(decl: RecordDecl, w: Instance, other: seq<(string, Value)>, kwargs: seq<(string, Value)>): (r: Mutation)
    ensures var used := if other != [] then other else kwargs;
      && (r.outcome.Fail? <==> exists i :: 0 <= i < |used| && used[i].0 in AttrNames(decl))
      && (r.outcome.Fail? ==> r.state == w && r.outcome.error.cls == KeyError)
      && (r.outcome.Pass? ==> r.state == w.(extras := ApplyPairs(w.extras, used)))
  {
    var used := if other != [] then other else kwargs;
    match FirstCollision(used, AttrNames(decl))
    case Some(key) => Mutation(w, Fail(DangerousKey(decl, key, "setting")))
    case None => Mutation(w.(extras := ApplyPairs(w.extras, used)), Pass)
  }

  /** Storing the pairs one `__setitem__` at a time. */
  function SetItems(decl: RecordDecl, w: Instance, pairs: seq<(string, Value)>): Mutation
    decreases |pairs|
  {
    if pairs == [] then Mutation(w, Pass)
    else
      var step := SetItem(decl, w, pairs[0].0, pairs[0].1);
      if step.outcome.Fail? then step else SetItems(decl, step.state, pairs[1..])
  }

  /** A successful `update` stores exactly what successive `__setitem__` calls
      would; where it fails, those calls would fail too, but `update`
      has stored nothing, unlike them. */
  lemma {:induction false} UpdateMatchesSetItems(decl: RecordDecl, w: Instance, pairs: seq<(string, Value)>)
    ensures Update(decl, w, pairs, []).outcome.Pass? ==> Update(decl, w, pairs, []) == SetItems(decl, w, pairs)
    ensures Update(decl, w, pairs, []).outcome.Fail? ==> SetItems(decl, w, pairs).outcome.Fail?
    decreases |pairs|
  {
    if pairs != [] {
      var step := SetItem(decl, w, pairs[0].0, pairs[0].1);
      if step.outcome.Pass? {
        UpdateMatchesSetItems(decl, step.state, pairs[1..]);
        if Update(decl, w, pairs, []).outcome.Fail? {
          var i :| 0 <= i < |pairs| && pairs[i].0 in AttrNames(decl);
          assert i != 0;
          assert pairs[1..][i - 1].0 in AttrNames(decl);
        } else {
          assert forall i :: 0 <= i < |pairs[1..]| ==> pairs[1..][i] == pairs[i + 1];
        }
      }
    }
  }

  /** The keys `dict.update` leaves behind: the old keys and every key of
      the pairs. */
  lemma {:induction false} ApplyPairsKeys(extras: map<string, Value>, pairs: seq<(string, Value)>)
    ensures forall k :: k in ApplyPairs(extras, pairs) <==>
      k in extras || exists i :: 0 <= i < |pairs| && pairs[i].0 == k
    decreases |pairs|
  {
    if pairs != [] {
      ApplyPairsKeys(extras[pairs[0].0 := pairs[0].1], pairs[1..]);
      assert forall i :: 1 <= i < |pairs| ==> pairs[1..][i - 1] == pairs[i];
    }
  }

  /** As written, `update` given a non-empty mapping and keyword arguments
      stores the mapping only: a fresh keyword key is silently lost, and a
      keyword that names an attribute is not even checked. */
  lemma UpdateDropsKeywords(decl: RecordDecl, w: Instance, k: string, v: Value, kk: string, vv: Value)
    requires k !in AttrNames(decl) && kk != k && kk !in w.extras
    ensures Update(decl, w, [(k, v)], [(kk, vv)]).outcome.Pass?
    ensures kk !in Update(decl, w, [(k, v)], [(kk, vv)]).state.extras
  {
    var r := Update(decl, w, [(k, v)], [(kk, vv)]);
    ApplyPairsKeys(w.extras, [(k, v)]);
  }

  /** `update(other_dict, **kwargs)` as `dict.update` defines it: the mapping's
      pairs and then the keyword pairs, every key checked before anything is
      stored. */
  function UpdateAll(decl: RecordDecl, w: Instance, other: seq<(string, Value)>, kwargs: seq<(string, Value)>): (r: Mutation)
    ensures r.outcome.Fail? ==> r.state == w && r.outcome.error.cls == KeyError
    ensures r.outcome.Fail? <==>
      (exists i :: 0 <= i < |other| && other[i].0 in AttrNames(decl)) ||
      (exists i :: 0 <= i < |kwargs| && kwargs[i].0 in AttrNames(decl))
  {
    var pairs := other + kwargs;
    assert forall i :: 0 <= i < |other| ==> pairs[i] == other[i];
    assert forall i :: 0 <= i < |kwargs| ==> pairs[|other| + i] == kwargs[i];
    match FirstCollision(pairs, AttrNames(decl))
    case Some(key) => Mutation(w, Fail(DangerousKey(decl, key, "setting")))
    case None => Mutation(w.(extras := ApplyPairs(w.extras, pairs)), Pass)
  }

  /** The corrected `update` is the strict `update` of the concatenated pairs,
      so it stores what successive `__setitem__` calls would; it agrees with
      the code as written whenever only one of the two arguments is given. */
  lemma UpdateAllMatchesSetItems(decl: RecordDecl, w: Instance, other: seq<(string, Value)>, kwargs: seq<(string, Value)>)
    ensures UpdateAll(decl, w, other, kwargs) == Update(decl, w, other + kwargs, [])
    ensures UpdateAll(decl, w, other, kwargs).outcome.Pass? ==> UpdateAll(decl, w, other, kwargs) == SetItems(decl, w, other + kwargs)
    ensures UpdateAll(decl, w, other, kwargs).outcome.Fail? ==> SetItems(decl, w, other + kwargs).outcome.Fail?
    ensures other == [] || kwargs == [] ==> UpdateAll(decl, w, other, kwargs) == Update(decl, w, other, kwargs)
  {
    UpdateMatchesSetItems(decl, w, other + kwargs);
    if other == [] {
      assert other + kwargs == kwargs;
    } else if kwargs == [] {
      assert other + kwargs == other;
    }
  }

  /** With the correction, a successful `update` stores every keyword key as
      well as every key of the mapping. */
  lemma UpdateAllStoresEveryKey(decl: RecordDecl, w: Instance, other: seq<(string, Value)>, kwargs: seq<(string, Value)>)
    requires UpdateAll(decl, w, other, kwargs).outcome.Pass?
    ensures forall i :: 0 <= i < |other| ==> other[i].0 in UpdateAll(decl, w, other, kwargs).state.extras
    ensures forall i :: 0 <= i < |kwargs| ==> kwargs[i].0 in UpdateAll(decl, w, other, kwargs).state.extras
  {
    var pairs := other + kwargs;
    ApplyPairsKeys(w.extras, pairs);
    assert forall i :: 0 <= i < |other| ==> pairs[i] == other[i];
    assert forall i :: 0 <= i < |kwargs| ==> pairs[|other| + i] == kwargs[i];
  }

  /** The installed `__bool__`: truthy with any extra key, otherwise iff some
      declared attribute is truthy. The source walks the attribute names as a
      set, in no fixed order; the model walks them in declaration order, which
      cannot change the answer. A missing attribute reads as False. */
  method WildcatBool(decl: RecordDecl, w: Instance) returns (isTruthy: bool)
    ensures isTruthy <==> (|w.extras| > 0 ||
      exists i :: 0 <= i < |decl.fields| && decl.fields[i].name in w.fields && Truthy(w.fields[decl.fields[i].name]))
  {
    isTruthy := |w.extras| > 0;
    var i := 0;
    while i < |decl.fields| && !isTruthy
      invariant 0 <= i <= |decl.fields|
      invariant isTruthy <==> (|w.extras| > 0 ||
        exists j :: 0 <= j < i && decl.fields[j].name in w.fields && Truthy(w.fields[decl.fields[j].name]))
    {
      var name := decl.fields[i].name;
      var attr := if name in w.fields then w.fields[name] else VBool(false);
      isTruthy := isTruthy || Truthy(attr);
      i := i + 1;
    }
  }

  /** For a consistent Wildcat the installed `__bool__` agrees with Python
      truthiness of the instance. */
  lemma WildcatBoolIsTruthiness(decl: RecordDecl, w: Instance)
    requires Consistent(decl, w) && w.kind == Wildcat
    ensures Truthy(VObj(w)) <==> (|w.extras| > 0 ||
      exists i :: 0 <= i < |decl.fields| && Truthy(w.fields[decl.fields[i].name]))
  {
    if exists k :: k in w.fields && Truthy(w.fields[k]) {
      var k :| k in w.fields && Truthy(w.fields[k]);
      var i :| 0 <= i < |decl.fields| && decl.fields[i].name == k;
    }
  }

  /** The mixed-in `__repr__`, corrected: the attrs repr, followed by
      `+Wildcat{...}` only when the dict holds keys, whatever the attributes
      are called (the dict methods reached as `dict.keys(self)` and
      `dict.items(self)`). `render` is Python's dict repr. */
  function Repr(attrsRepr: string, render: map<string, Value> -> string, extras: map<string, Value>): (r: string)
    ensures attrsRepr <= r
    ensures r == attrsRepr <==> |extras| == 0
    ensures |extras| > 0 ==> r[|attrsRepr|..] == "+Wildcat" + render(extras)
  {
    attrsRepr + (if |extras| > 0 then "+Wildcat" + render(extras) else "")
  }

  /** The mixed-in `__repr__` as written: `self.keys()` and `self.items()`
      look the names up on the instance first, so a declared attribute named
      `keys` (or, once the dict holds keys, `items`) shadows the dict method,
      and calling the attribute's value raises TypeError. Otherwise it gives
      what `Repr` gives. */
  function ReprAsWritten(decl: RecordDecl, attrsRepr: string, render: map<string, Value> -> string,
                         extras: map<string, Value>): (r: Result<string, Exc>)
    ensures r.Err? <==> "keys" in FieldNames(decl.fields) || (|extras| > 0 && "items" in FieldNames(decl.fields))
    ensures r.Err? ==> r.error.Leaf? && r.error.cls == TypeError
    ensures r.Ok? ==> r.value == Repr(attrsRepr, render, extras)
  {
    if "keys" in FieldNames(decl.fields) then Err(Leaf(TypeError, "'keys' attribute is not callable", None))
    else if |extras| > 0 && "items" in FieldNames(decl.fields) then Err(Leaf(TypeError, "'items' attribute is not callable", None))
    else Ok(Repr(attrsRepr, render, extras))
  }

  /** The class of tests/test_wildcats.py's repr test declares `items` and
      `keys` (the set `{"a", "b"}` is written as a list). As written its repr raises TypeError whatever the dict holds;
      corrected, it shows the plain attrs repr while the dict is empty and the
      `+Wildcat` suffix once a key is stored. */
  lemma ReprAsWrittenRaisesOnDictMethodNames(attrsRepr: string, render: map<string, Value> -> string, value: Value)
    ensures var decl := RecordDecl("WithDictMethodAttrs", Wildcat,
        [Field("items", TList(TInt), NoDefault, NonEmpty), Field("keys", TAny, NoDefault, NonEmpty)], {});
      var w := Instance("WithDictMethodAttrs", Wildcat,
        map["items" := VList([VInt(1), VInt(2), VInt(3)]), "keys" := VList([VStr("a"), VStr("b")])], map[]);
      var stored := SetItem(decl, w, "test", value).state;
      && ReprAsWritten(decl, attrsRepr, render, w.extras).Err?
      && ReprAsWritten(decl, attrsRepr, render, stored.extras).Err?
      && Repr(attrsRepr, render, w.extras) == attrsRepr
      && Repr(attrsRepr, render, stored.extras) == attrsRepr + "+Wildcat" + render(stored.extras)
  {
    var decl := RecordDecl("WithDictMethodAttrs", Wildcat,
      [Field("items", TList(TInt), NoDefault, NonEmpty), Field("keys", TAny, NoDefault, NonEmpty)], {});
    var w := Instance("WithDictMethodAttrs", Wildcat,
      map["items" := VList([VInt(1), VInt(2), VInt(3)]), "keys" := VList([VStr("a"), VStr("b")])], map[]);
    assert decl.fields[1].name == "keys";
    assert "test" !in AttrNames(decl);
    ReprFollowsStorage(decl, w, "test", value, attrsRepr, render);
  }

  /** The repr tracks the dict storage: after a successful
      `w[key] = value` it carries the `+Wildcat` suffix showing the stored
      keys, and a Wildcat whose storage was empty loses the suffix again once
      that key is deleted. */
  lemma ReprFollowsStorage(decl: RecordDecl, w: Instance, key: string, value: Value,
                           attrsRepr: string, render: map<string, Value> -> string)
    requires key !in AttrNames(decl)
    ensures var after := SetItem(decl, w, key, value).state;
      Repr(attrsRepr, render, after.extras) == attrsRepr + "+Wildcat" + render(after.extras)
    ensures w.extras == map[] ==>
      && Repr(attrsRepr, render, w.extras) == attrsRepr
      && Repr(attrsRepr, render, DelItem(SetItem(decl, w, key, value).state, key).state.extras) == attrsRepr
  {
    var after := SetItem(decl, w, key, value).state;
    assert |after.extras| > 0 by {
      assert key in after.extras;
    }
    var suffix := render(after.extras);
    assert attrsRepr + ("+Wildcat" + suffix) == attrsRepr + "+Wildcat" + suffix;
    if w.extras == map[] {
      SetThenDeleteRestores(decl, w, key, value);
    }
  }

  /** `_strip_defined_abstract_methods`: a method defined on the class itself
      is no longer abstract. */
  function StripDefinedAbstractMethods(c: ClassSpec): (r: ClassSpec)
    ensures r.abstractMethods == c.abstractMethods - c.ownNames
    ensures r.(abstractMethods := c.abstractMethods) == c
  {
    if c.abstractMethods == {} then c
    else c.(abstractMethods := set m | m in c.abstractMethods && m !in c.ownNames)
  }

  /** `block_dangerous_dict_subclass_operations`: installs the strict
      `__setitem__`, `__getitem__` and `update`. */
  function BlockDangerousDictOperations(c: ClassSpec): (r: ClassSpec)
    ensures r.ownNames == c.ownNames + {"__setitem__", "__getitem__", "update"}
    ensures r.(ownNames := c.ownNames) == c
    ensures IsWildcat(c) ==> IsWildcat(r)
  {
    c.(ownNames := c.ownNames + {"__setitem__", "__getitem__", "update"})
  }

  /** `mixin_wildcat_post_attrs_methods`: keeps the attrs repr as
      `__attrs_repr__`, installs the Wildcat `__repr__`, installs `__bool__`
      only if the class has none, then strips newly defined abstract methods. */
  function MixinWildcatPostAttrsMethods(c: ClassSpec): (r: ClassSpec)
    ensures "__repr__" in r.ownNames && "__attrs_repr__" in r.ownNames
    ensures "__bool__" in r.ownNames <==> "__bool__" in c.ownNames || !HasAttr(c, "__bool__")
    ensures c.ownNames <= r.ownNames <= c.ownNames + {"__repr__", "__attrs_repr__", "__bool__"}
    ensures r.abstractMethods == c.abstractMethods - r.ownNames
    ensures r.inheritedNames == c.inheritedNames && r.fields == c.fields && r.name == c.name
    ensures IsWildcat(c) ==> IsWildcat(r)
  {
    var withRepr := c.ownNames + {"__attrs_repr__", "__repr__"};
    var withBool := if !HasAttr(c, "__bool__") then withRepr + {"__bool__"} else withRepr;
    StripDefinedAbstractMethods(c.(ownNames := withBool))
  }

  /** Structuring enrichment: every source key that is not a declared field is
      copied, with its raw value, into the dict storage. */
  function EnrichStructured(decl: RecordDecl, res: Instance, source: map<string, Value>): (r: Instance)
    ensures r.fields == res.fields && r.cls == res.cls && r.kind == res.kind
    ensures r.extras.Keys == res.extras.Keys + (source.Keys - FieldNames(decl.fields))
    ensures forall k :: k in source && k !in FieldNames(decl.fields) ==> r.extras[k] == source[k]
    ensures forall k :: k in res.extras && k !in source ==> r.extras[k] == res.extras[k]
  {
    res.(extras := res.extras + map k | k in source && k !in FieldNames(decl.fields) :: source[k])
  }

  /** Unstructuring enrichment: the (already unstructured) extra keys that are
      not declared fields are merged under the unstructured record, declared
      keys winning on collision. */
  function EnrichUnstructured(declared: set<string>, extras: map<string, Value>, res: map<string, Value>): (r: map<string, Value>)
    ensures r.Keys == res.Keys + (extras.Keys - declared)
    ensures forall k :: k in res ==> r[k] == res[k]
    ensures forall k :: k in extras && k !in declared && k !in res ==> r[k] == extras[k]
  {
    (map k | k in extras && k !in declared :: extras[k]) + res
  }
}

=== FILE: wrappers.dfy ===
/** Failure-carrying wrappers used in place of Python's `None` and exceptions. */
module Wrappers {

  /** A value that may be absent (Python's `Optional`). */
  datatype Option<+T> = None | Some(value: T) {
    predicate IsFailure() { None? }

    function PropagateFailure<U>(): Option<U>
      requires None?
    {
      None
    }

    function Extract(): T
      requires Some?
    {
      value
    }
  }

  /** Either a computed value or the exception that was raised instead. */
  datatype Result<+R, +E> = Ok(value: R) | Err(error: E) {
    predicate IsFailure() { Err? }

    function PropagateFailure<U>(): Result<U, E>
      requires Err?
    {
      Err(error)
    }

    function Extract(): R
      requires Ok?
    {
      value
    }
  }

  /** A check that either passes or raises. */
  datatype Outcome<+E> = Pass | Fail(error: E) {
    predicate IsFailure() { Fail? }

    function PropagateFailure<U>(): Result<U, E>
      requires Fail?
    {
      Err(error)
    }
  }
}
